=== FILE: README.md ===
# CIS-CAT results to MITRE ATT&CK Navigator: a Dafny model

This project models the conversion of CIS Benchmark scan results into a
MITRE ATT&CK Navigator layer, and the small pure pieces around it.

**The conversion pipeline** (`api/convert.py`) works in six steps.

- Matching (`Matcher`):
  - Each scan rule's `rule-id` is cut on `_`.
  - The fourth part names a CIS control (`high`) and a safeguard (`low`).
  - Crosswalk rows are selected by safeguard prefix, or by exact control when no prefix matches.
  - Each selected row that names a technique yields one `(technique, passed, rule-id)` entry.
- Tallying (`Aggregation`): the entries are counted per technique, in first-seen order, with one comment line per entry.
- Assembly (`Convert`): each technique gets a score, the pass fraction rounded half-to-even to two decimals. It also gets a colour from the orange-to-green ramp (`Colors`) and its comment lines joined by newlines.
- Layer (`Convert.BuildLayer`): the techniques are wrapped in a fixed Navigator layer header.
- Combining (`Combine`):
  - Several scans are merged rule by rule before conversion.
  - The first occurrence of a rule id fixes its title and lower-cased result.
  - Any occurrence whose result lower-cases to `fail` makes the merged rule fail.
- Alternative ramp (`ColorRamp`): the colour test script's three-stop ramp over the squared score.

**The pieces around the pipeline:**

- Request validation (`Utils`): `validate_user_json` and `ClientException.to_response`.
- The upload helper's filename and timestamp parsing (`Filenames`, `Helpers`).
- The database path's tolerant filename parser (`DbUtils`). Its get-or-create lookups and timestamp parser are parameters.
- Folding joined SQL rows into file records (`Database`).
- Query-filter builders (`DbMethods`):
  - equality filters and range filters, read as predicates on a column value;
  - removing the current filter;
  - merging facet counts;
  - pagination.
- The Navigator config updater's directory-name normaliser (`Normalize`).
- The client's download-URL chooser (`FileApi`).

**Python and JavaScript semantics are written out explicitly in `Strings`:**

- `str.split` always yields at least one part;
- `join`;
- left-to-right, non-overlapping `replace`;
- ASCII `lower`;
- ASCII `isspace`.

Three more appear in the modules that use them:

- Python truthiness: a NaN spreadsheet cell is truthy.
- Dictionary insertion order: `Sequences.FirstSeen`.
- `int()` of a non-negative real is its floor.

A few points about the converter's behaviour:

- The converter does no parent/sub-technique rollup.
- Rules are not filtered by result: every result other than a lower-cased `fail` counts as a pass.
- Comments are always recorded.
- Crosswalk cells are not trimmed.
- The converter colours with its own linear ramp: `#ff0033` at 0, `#ff9933` at one half, `#33cc33` at 1. The three-stop ramp through `#cc0000`, `#ffd700` and `#3bb143` belongs only to `api/colortest.py`, which the converter does not call.

## Model

| member | source | states |
|---|---|---|
| Matcher.KeyOf | api/convert.py:85-94 | A rule id yields a key exactly when it has at least four `_`-separated parts. |
| Matcher.KeyShape | api/convert.py:91-94 | `high` is the fourth part up to its first `.`, `low` the fourth part up to its second `.`; `low` extends `high` and holds one `.` exactly when the part has one. |
| Matcher.PrefixRows | api/convert.py:96 | A row is selected exactly when its safeguard cell (NaN read as `''`) starts with `low`, and a selected row occurs as often as in the table. |
| Matcher.ControlRows | api/convert.py:98 | A row is selected exactly when its control cell equals `high`, and a selected row occurs as often as in the table. |
| Matcher.Matches | api/convert.py:96-98 | When some safeguard starts with `low`, exactly those rows are selected; only when none does, exactly the rows whose control equals `high`. Either way each selected row keeps its number of occurrences in the table. |
| Matcher.PrefixNotSegmentAware | api/convert.py:96 | Prefix matching is textual: `low` = `4.1` selects safeguard `4.10`. |
| Matcher.ControlFallback | api/convert.py:96-98 | The control column is consulted only when no safeguard matches. |
| Matcher.TechniqueOf | api/convert.py:102-106 | The combined column is used when truthy; the plain column only when the combined one is absent or empty; a NaN combined cell yields nothing; the chosen id is never empty. |
| Matcher.TechniqueFallback | api/convert.py:102-106 | Worked cases: empty and absent combined cells fall back, a NaN combined cell does not, a present one wins. |
| Matcher.PassedExamples | api/convert.py:86-100 | `Pass`, `notapplicable`, `''` and a missing result all pass; `fail` in any case fails. |
| Matcher.MalformedRuleIgnored | api/convert.py:85-89 | A rule with fewer than four `_` parts contributes no entry, wherever it stands. |
| Matcher.MissingIdIgnored | api/convert.py:85-89 | A rule without `rule-id` (read as `''`) contributes no entry. |
| Matcher.RowEntries | api/convert.py:101-107 | At most one entry per selected row, each carrying the rule's pass flag and id. |
| Matcher.RowEntriesCount | api/convert.py:101-107 | Each selected row naming technique `t` adds one entry for `t`: a technique on two rows is counted twice. |
| Matcher.EntriesAppend | api/convert.py:84-107 | The entries of two rule lists are the entries of each, concatenated in order. |
| Matcher.EntryOrigin | api/convert.py:84-107 | An entry is produced exactly when one of the rules produces it. |
| Matcher.EntriesFromRules | api/convert.py:84-107 | Every entry carries the rule id and pass flag of some input rule. |
| Aggregation.CommentNoNewline | api/convert.py:52-53 | A comment line holds no newline when its rule id holds none. |
| Aggregation.AccumulateSpec | api/convert.py:44-53 | The tally's keys are the entries' techniques in first-occurrence order; each counter equals the independently defined pass count, total and comment list of that technique. |
| Aggregation.AddAgrees | api/convert.py:45-53 | One step of the loop keeps the tally equal to the reference counts of the entries seen so far. |
| Aggregation.ZeroWhenAbsent | api/convert.py:44-53 | A technique without entries has zero counts and no comments. |
| Aggregation.ExpectedBounds | api/convert.py:44-53 | A technique that occurs among the entries has a total of at least one. |
| Aggregation.AccumulateValid | api/convert.py:44-53 | After the loop every counter has `1 <= total`, `pass <= total` and one comment per entry; the keys are distinct. |
| Aggregation.SumOfTotals | api/convert.py:44-53 | The totals of all techniques add up to the number of entries. |
| Aggregation.AccumulateEntries | api/convert.py:35-53 | The loop as written computes the same order, counters and invariant as the reference definitions. |
| Convert.RoundHalfEven | api/convert.py:69 | The result is the nearest integer to `n / d`, and the even one on a tie. |
| Convert.ScoreHundredths | api/convert.py:66-69 | The score in hundredths is the rounded pass fraction: 0 with no passes, 100 with no failures, never above 100. |
| Convert.Fraction | api/convert.py:66 | `pass / total` (0 when the total is 0) lies in [0, 1] and times the total gives the passes. |
| Convert.AssembleTechniques | api/convert.py:56-73 | One output per technique in tally order, with a score in [0, 1] and a well-formed colour. |
| Convert.GenerateSpec | api/convert.py:76-110 | One output per distinct technique of the entries, in first-occurrence order, each scored from exactly that technique's entries. |
| Convert.GenerateTechniques | api/convert.py:76-110 | The output ids are the entries' distinct techniques in first-occurrence order, every score lies in [0, 1] and every colour is `#` and six hex digits; the per-technique scores are stated in Convert.GenerateSpec. |
| Convert.CommentLines | api/convert.py:71 | Splitting a technique's comment on newlines gives its comment lines in entry order, when no rule id holds a newline. |
| Convert.UniformPasses | api/convert.py:44-53 | When every entry has the same pass flag, each technique's passes are all or none of its entries. |
| Convert.ResultForExtremes | api/convert.py:66-70 | No passes scores 0.0 in `#ff0033`; no failures scores 1.0 in `#33cc33`. |
| Convert.UniformResults | api/convert.py:76-110 | If every rule fails, every technique scores 0.0 in `#ff0033`; if every rule passes, 1.0 in `#33cc33`. |
| Convert.OutputIds | api/convert.py:76-110 | The output lists exactly the techniques of the entries. |
| Convert.TechniqueIdsCharacterized | api/convert.py:84-110 | A technique is listed exactly when some rule produced an entry for it. |
| Convert.OrderInvariance | tests/unit/test_convert.py:113-134 | Reordering the rules does not change which techniques are listed. |
| Convert.BuildLayer | api/convert.py:113-128 | The layer carries version `4.5.0`, domain `enterprise-attack` and the fixed description, and passes the techniques through unchanged. Its name is the benchmark title, or `MITRE ATT&CK NAVIGATOR LAYER` only when the title is absent. |
| Convert.ConvertCisToAttack | api/convert.py:131-138 | The layer has version `4.5.0` and domain `enterprise-attack`, is named by the title or `MITRE ATT&CK NAVIGATOR LAYER` without one, and lists the entries' distinct techniques in first-occurrence order with scores in [0, 1]; the header is stated in full in Convert.BuildLayer and the scores in Convert.GenerateSpec. |
| Convert.ExampleKey | api/convert.py:87-94 | `CIS_BENCH_v1_4.3.1` names control `4` and safeguard `4.3`. |
| Convert.ExampleRuleEntries | api/convert.py:84-107 | A rule with that id contributes one entry per technique-naming row its key selects. |
| Convert.ScenarioFailingRule | api/convert.py:76-110 | A failing rule matching one row gives that technique score 0.0, colour `#ff0033`, comment `<id> : Fail`. |
| Convert.ScenarioDuplicateRows | api/convert.py:101-107 | A technique on two selected rows is counted twice for one passing rule, with two comment lines. |
| Colors.Format | api/convert.py:32 | The formatted colour is `#` and six lower-case hex digits that spell the channels back. |
| Colors.Hex2RoundTrip | api/convert.py:32 | Two-digit hex formatting of a channel reads back as the channel. |
| Colors.GradientChannels | api/convert.py:22-31 | Blue is 0x33, red is 0xff up to one half, and the channels stay in range. |
| Colors.GradientColor | api/convert.py:18-32 | For a fraction in [0, 1] the colour is well formed, ends in `33`, starts with `ff` up to one half, and spells the ramp's channels. |
| Colors.GradientEndpoints | api/convert.py:18-32 | 0 gives `#ff0033`, one half `#ff9933`, 1 `#33cc33`. |
| Colors.GradientMonotone | api/convert.py:22-31 | A higher fraction never lowers green nor raises red. |
| ColorRamp.Eased | api/colortest.py:6 | The eased score lies in [0, 1] and is 1 exactly when the squared score is at least 1. |
| ColorRamp.RampChannels | api/colortest.py:15-26 | Below one half each channel stays between red and gold; above, between gold and green. |
| ColorRamp.RampColor | api/colortest.py:5-28 | The colour is always `#` and six lower-case hex digits; that it depends only on the eased score is stated in ColorRamp.RampEven. |
| ColorRamp.RampEven | api/colortest.py:6 | A score and its negation share a colour. |
| ColorRamp.RampSaturates | api/colortest.py:6-9 | Any score of magnitude at least one gives `#3bb143`. |
| ColorRamp.RampStops | api/colortest.py:11-20 | Score 0 gives `#cc0000`; eased score one half gives `#ffd700`. |
| ColorRamp.RampGreenMonotone | api/colortest.py:15-26 | Below full score, green never decreases as the eased score grows. |
| Combine.MergeSpec | api/convert.py:146-171 | The merge holds each truthy rule id once, in first-seen order, and no other id. |
| Combine.MergeEntry | api/convert.py:146-171 | Each merged rule has the first occurrence's title. Its result is `fail` exactly when some occurrence failed; otherwise it is the first occurrence's lower-cased result. |
| Combine.MergedPassed | api/convert.py:152-165 | A merged rule passes exactly when no occurrence of its id fails. |
| Combine.FailWins | api/convert.py:146-171 | In the combined scan a rule passes exactly when no scan fails it, whatever the order of the scans. |
| Combine.CombineSwap | api/convert.py:146-171 | Swapping two scans changes neither which rules are merged nor any rule's verdict. |
| Combine.CombineResults | api/convert.py:140-174 | The combined layer is named `Combined CIS Benchmark` and lists the distinct techniques of the merged rules' entries, in first-occurrence order. |
| Combine.CombineAllFail | tests/unit/test_convert.py:32-46 | When every rule fails in some scan, every combined technique scores 0.0 in `#ff0033`. |
| Combine.CombineSingle | tests/unit/test_convert.py:64-75 | Combining one scan with distinct rule ids gives the same techniques as converting it directly. |
| Combine.EntriesNamed | api/convert.py:149-151 | Rules without a truthy id contribute no entries, so dropping them changes nothing. |
| Combine.MergeScans | api/convert.py:146-171 | The merge loop over scans and rules computes the reference merge, well formed and in first-seen order. |
| Utils.ToResponse | api/utils.py:15-17 | The response body holds just `message`, with the exception's message and status code. |
| Utils.ResponseRoundTrip | api/utils.py:15-17 | The exception can be read back from its response. |
| Utils.Strip | api/utils.py:59 | The stripped handle is empty exactly when the handle is all whitespace; otherwise it is the slice between the leading and trailing whitespace. |
| Utils.ValidateSpec | api/utils.py:55-70 | Only an integer department with a non-blank string handle is accepted. The integer error is raised only once the required fields are present. Every raise carries status 400. |
| Utils.MissingDepartment | api/utils.py:55-64 | An empty or absent body, or a null or missing department, raises the required-fields error. |
| Utils.BlankHandle | api/utils.py:58-64 | A missing, empty or whitespace-only handle raises the required-fields error whatever the department. |
| Utils.AcceptedZero | api/utils.py:55-70 | Department 0 with a space-padded handle is accepted. |
| Utils.AcceptedNegative | api/utils.py:55-70 | A negative department is accepted. |
| Utils.RefusedExamples | tests/integration/endpoints/user/test_api_add_user_to_department.py:181-206 | String and float departments raise the integer error; a blank handle is reported first. |
| Utils.NonIntegerRefused | api/utils.py:55-70 | Any present department that is not an integer, next to a non-blank handle, raises the integer error. |
| Strings.Split | api/helpers.py:15 | `split` gives one more part than there are separators; no part holds the separator; joining gives the input back. |
| Strings.SplitJoin | api/helpers.py:23 | Joining parts that hold no separator and splitting again gives the parts back. |
| Strings.Replace | api/helpers.py:26 | A string lacking one of the pattern's characters is left unchanged; only characters of the input or of the replacement appear; a one-character pattern absent from the replacement is gone from the result. |
| Strings.ReplaceAbsent | api/helpers.py:26 | A string in which the pattern occurs at no position is returned unchanged, as `str.replace` does when there is nothing to replace. |
| Strings.Lower | navigator-config/update.py:132 | Lower-casing maps each character through ASCII lower-casing. |
| Filenames.Decompose | api/helpers.py:15-23 | A filename decomposes exactly when it has at least three `-`. Benchmark, time and last part then hold no `-`. |
| Filenames.DecomposeAssemble | api/helpers.py:15-26 | The decomposed fields put back together give the filename. |
| Filenames.AssembleDecompose | api/helpers.py:15-26 | Fields whose benchmark, time and last part hold no `-` are recovered from the filename they assemble; the hostname may hold hyphens. |
| Filenames.ResultName | api/helpers.py:26 | A last part without `.` is the result name unchanged. |
| Filenames.ResultNameDropsExtension | api/helpers.py:26 | A trailing `.json` is dropped, whatever precedes it. |
| Filenames.ResultNameReport | api/helpers.py:26 | A dot-free name with `.json` appended loses exactly the extension. |
| Filenames.ResultNameNotIdempotent | api/helpers.py:26 | Removal is one left-to-right pass, so it is not idempotent: for any dot-free `a`, `a.js.jsonon` gives `a.json`, which gives `a`. |
| Helpers.TimeConverter | api/helpers.py:32-41 | Inputs of at most 15 characters raise the short-time error; otherwise the output is four characters longer. |
| Helpers.TimeConverterPointwise | api/helpers.py:40-41 | Each output position holds a separator or the shifted input character the format names. |
| Helpers.TimeRoundTrip | api/helpers.py:40-41 | Taking the separators out again gives back an input whose character 8 is `T`. |
| Helpers.TimeIgnoresSeparator | api/helpers.py:40-41 | Input character 8 is never read. |
| Helpers.TimeExample | api/helpers.py:40-41 | `20250605T132738Z` becomes `2025-06-05T13:27:38Z`. |
| Helpers.ExtractMetadata | api/helpers.py:6-29 | A successful record has empty id, IP address, file name and tags. |
| Helpers.ExtractErrors | api/helpers.py:15-25 | The filename error is raised exactly below four parts. The time error is raised exactly when the time part has at most 15 characters. Nothing else fails. |
| Helpers.ExtractAssembled | api/helpers.py:23-29 | On an assembled filename the record carries the hostname, converted time and result name. |
| Helpers.BenchmarkDiscarded | api/helpers.py:23-29 | The benchmark field has no influence on the record. |
| Helpers.ExtractExample | api/helpers.py:6-29 | `LAP-TOP-Benchmark_2-20250605T132738Z-NonPassing.json` keeps the hyphenated hostname whole. |
| DbUtils.ExtractMetadata | api/db/db_utils.py:14-61 | A record always carries the filename; only `OtherError` can escape. |
| DbUtils.ShortNameKept | api/db/db_utils.py:21-27 | Below four parts the record holds only the filename and nothing is raised. |
| DbUtils.RaisesOnlyFromHostname | api/db/db_utils.py:29-33 | An exception escapes exactly when the hostname lookup raises something other than `ValueError`. |
| DbUtils.LookupsSeeFields | api/db/db_utils.py:29-53 | Each lookup sees its own field, the result without `.json`. A failed lookup or parse leaves just that field empty. |
| DbUtils.AgreesWithHelpers | api/db/db_utils.py:21-53 | Where the upload helper refuses a short filename this parser keeps it; where the helper succeeds, the lookups see the helper's hostname and result. |
| DbUtils.SaveFileExample | tests/integration/endpoints/file/test_save_file.py:388-419 | `test-host-Custom_Benchmark_Test-20250506T093226Z-PASS.json` looks up `test-host`, `Custom_Benchmark_Test` and `PASS`. |
| Database.RowTags | api/database.py:120-121 | A row contributes a tag exactly when both tag columns are truthy. |
| Database.TagsOfMember | api/database.py:119-121 | A tag is collected exactly when some row carries it with both columns truthy. |
| Database.TagsOfCount | api/database.py:119-121 | Each tag is collected once for every row that carries it with both columns truthy. |
| Database.TagsOfAppend | api/database.py:119-121 | The tags of two row lists joined are the first list's tags followed by the second's, so tags appear in row order. |
| Database.GetFileById | api/database.py:102-123 | No file exactly when the query returns no rows; otherwise the first row's id, address, host, file name, time and result, with the tags of the rows whose tag columns are both truthy: each such tag as many times as rows carry it, and no other tag. |
| Database.GroupRowsSpec | api/database.py:134-151 | The grouping yields one record per maximal run of equal ids, in row order. Each record is built from the run's first row and the run's qualifying tags. |
| Database.RunStartsExact | api/database.py:136-137 | A new record is opened exactly at the rows whose id differs from the previous row's. |
| Database.SingleIdAgrees | api/database.py:102-152 | When all rows share one id, grouping yields exactly the record the by-id lookup builds from the same rows. |
| Database.GetAllFiles | api/database.py:126-152 | The loop as written returns one record per run, as the reference definition builds it. |
| DbMethods.ComputeFilter | api/db/db_methods.py:225-242 | No filter exactly when no option was requested; otherwise one or two disjuncts. |
| DbMethods.ComputeFilterMatches | api/db/db_methods.py:228-241 | A value passes exactly when it is NULL and NULL was requested, or it is a requested option other than `"null"`. |
| DbMethods.ComputeFilterSetInvariant | api/db/db_methods.py:228 | Only the set of options matters, not their order or repetition. |
| DbMethods.NullSpellings | api/db/db_methods.py:232-235 | `None` and `"null"` request the same filter. |
| DbMethods.SingleNullDisjunct | api/db/db_methods.py:232-235 | Requesting NULL gives one `IS NULL` disjunct, first, however often it was requested. |
| DbMethods.ComputeFilterMinMax | api/db/db_methods.py:245-255 | No filter exactly when both bounds are absent. |
| DbMethods.MinMaxMatches | api/db/db_methods.py:245-255 | Both bounds are inclusive and a NULL value never passes. |
| DbMethods.MinMaxSingleInstant | tests/integration/endpoints/file/test_get_files_metadata.py:400-454 | Equal bounds select exactly the values at that instant. |
| DbMethods.ExcludeMember | api/db/db_methods.py:382-384 | A filter is kept exactly when it is present and is not the current one. |
| DbMethods.ExcludeFilter | api/db/db_methods.py:382-384 | Every kept filter is present and is not the current one, and every present filter other than the current one is kept. |
| DbMethods.ExcludeAppend | api/db/db_methods.py:382-384 | Kept filters stay in order: exclusion distributes over concatenation. |
| DbMethods.ExcludeKeepsClean | api/db/db_methods.py:382-384 | A list with nothing absent and without the current filter is left as it is. |
| DbMethods.ExcludeIdempotent | api/db/db_methods.py:382-384 | Excluding twice is excluding once. |
| DbMethods.CountsAgree | api/db/db_methods.py:473 | The dictionary of filtered counts gives the last row's count for an id, and holds exactly the ids of the rows. |
| DbMethods.MergeCountsSpec | api/db/db_methods.py:473-483 | One entry per unfiltered option, in order, with its id. The name is never empty (`None` for a missing name). The count is the filtered count, or 0 when the filters leave none. |
| DbMethods.MergeCounts | api/db/db_methods.py:473-483 | One entry per unfiltered row, in order, with that row's id and a non-empty name, which is the row's own name whenever that is present and non-empty; the counts are stated in DbMethods.MergeCountsSpec. |
| DbMethods.ArgOr | api/db/db_methods.py:36-37 | An argument that parses is used, otherwise the default. |
| DbMethods.Pagination | api/db/db_methods.py:36-37 | Without arguments the window is offset 0, limit 20; the limit is always the page size, and the offset is the page number times the page size. |
| DbMethods.PagesTile | api/db/db_methods.py:365-366 | The first `n` pages requested with page size `size`, concatenated, are the first `n * size` rows of the ordered result. |
| DbMethods.FullPage | api/db/db_methods.py:366 | A requested page inside the result has exactly `size` rows, those from `page * size` on. |
| Normalize.NormalizeCollectionName | navigator-config/update.py:126-145 | The result is never empty, and an absent or empty name gives `unknown`. |
| Normalize.NormalizeFriendly | navigator-config/update.py:126-145 | The result is non-empty and uses only `a-z`, `0-9`, `_` and `-`. It has no two hyphens in a row and no hyphen at either end. |
| Normalize.CleanedFriendly | navigator-config/update.py:132-143 | Whatever the cleaning leaves, if anything, is directory-friendly. |
| Normalize.CollapseShape | navigator-config/update.py:140 | The collapsed string starts with a hyphen exactly when the input starts with a separator; every other character is a non-separator of the input; no two hyphens are adjacent. |
| Normalize.CollapseRun | navigator-config/update.py:140 | A separator run that follows a part not ending in a separator becomes a single hyphen, and collapsing carries on after the run: `Collapse(a + m) == Collapse(a) + "-" + Collapse(DropSeparators(m[1..]))`. |
| Normalize.DropPunctuationShape | navigator-config/update.py:139 | Only word characters, whitespace and hyphens of the input remain. |
| Normalize.StripHyphens | navigator-config/update.py:143 | The result is a slice of the input with only hyphens before and after it, and it neither starts nor ends with a hyphen. |
| Normalize.StripHyphensCharacterized | navigator-config/update.py:143 | Any slice of the input with only hyphens outside it and no hyphen at either end is the stripped result, so that description determines `strip('-')`. |
| Normalize.CleanedKeepsFriendly | navigator-config/update.py:126-145 | A directory-friendly name passes through the cleaning unchanged. |
| Normalize.NormalizeIdempotent | navigator-config/update.py:126-145 | Normalising a normalised name changes nothing. |
| Normalize.SpelledAttack | navigator-config/update.py:134-135 | `att&ck` is spelled out whole as `attack`, not as `attandck`. |
| Normalize.EnterpriseExample | navigator-config/update.py:126-145 | `Enterprise ATT&CK` becomes `enterprise-attack`. |
| FileApi.AppendIds | client/src/FileAPI.js:28 | Appending keeps the existing parameters and adds one `id` parameter per id, in order. |
| FileApi.ConstructDownloadUrl | client/src/FileAPI.js:15-33 | No URL exactly for an empty selection. The origin and fragment are kept. A single id leaves the query as it was. |
| FileApi.AggregateCarriesIds | client/src/FileAPI.js:27-30 | Several ids go to `/api/files/aggregate`; the server reads back the location's own ids followed by the selection, in order, duplicates kept. |
| FileApi.SingleIdInPath | client/src/FileAPI.js:22-26 | One id goes to `/api/files/<id>`: stripping the prefix gives the id back, and no `id` parameter is added. |
| FileApi.IdsOfAppend | client/src/FileAPI.js:28 | The `id` values of two parameter lists joined are the values of each, in order. |

## Left out

- The `print` calls are logging side effects and are not modelled (api/convert.py:127, api/helpers.py:19-20 and 37).
- A JSON `null` `benchmark-title` is not modelled. The source's `.get` returns `None` for it and names the layer `None` (api/convert.py:117-120); Convert.BuildLayer uses the fallback name only for a missing key.
- A JSON `null` or non-string `result` or `rule-id` is not modelled. The source raises on it (`.lower()` at api/convert.py:86 and 153, `.split('_')` at api/convert.py:87). In the model these fields are strings, and `None` stands only for a missing key.
- Loading the crosswalk spreadsheet with pandas (`load_mapping`, api/convert.py:9-15) is not modelled. The table is a parameter: a sequence of rows whose technique cells are absent, NaN or a string.
- Python floating point is not modelled. The pass fraction is an exact rational. `round(x, 2)` is exact round-half-even on pass/total in hundredths. `int()` inside both colour ramps is the floor of an exact real. Float error could move a value by one unit at an exact boundary.
- Colors.GradientColor: requires a fraction in [0, 1], the range the converter feeds it and the docstring names. Outside it Python would format negative or out-of-range channels.
- Convert.ScoreHundredths: states the score in exact hundredths rather than as the float `round` returns.
- Unicode is not modelled. `lower()`, `isspace()`, `strip()` and the regular expressions' `\w` and `\s` are modelled on ASCII only, so Normalize.NormalizeIdempotent and Normalize.NormalizeFriendly cover ASCII input.
- The database path's get-or-create lookups and `time_converter` (`strptime` with `%Y%m%dT%H%M%SZ`) are abstract parameters of DbUtils.ExtractMetadata. A lookup returns its object or the class of exception it raised. The parser returns nothing where it raises.
- The caller in api/app.py passes two arguments to the one-argument `extract_metadata`. The model follows the function as declared.
- SQL execution is not modelled. This covers SQLAlchemy statements, ordering by time, get-or-create with the IntegrityError retry, `to_dict`, the sqlite connection and the inserts. Filters are modelled as predicates over one column value, and the facet rows as given sequences.
- The time bounds of the range filter are `datetime` values, always truthy once parsed, so they are modelled as integers that are present or absent. The ISO parsing of the request arguments is not modelled.
- Filter identity (`is not`) is modelled by giving each filter object a distinct token.
- DbMethods.PageRows: requires a non-negative offset and limit. Negative `page` or `page_size` arguments reach SQL's own OFFSET/LIMIT handling, which is not modelled.
- `compute_authorized_subquery` and the rest of `execute_query`'s statement building are not modelled. They are database plumbing.
- `find_file`, Flask routing, uploads and error handlers are not modelled. They depend on the filesystem, werkzeug and HTTP.
- The downloader's network access, retries and file writes in navigator-config/update.py are not modelled. Neither is the matplotlib `demo` in api/colortest.py.
- In client/src/FileAPI.js, the alert, console output, fetch and blob handling are not modelled. Neither is the browser's percent-encoding of the pathname.
- FileApi.ConstructDownloadUrl: describes the aggregate case through FileApi.AggregateCarriesIds, not in its own contract.

=== FILE: aggregation.dfy ===
/**
 * The per-technique tally of `_accumulate_entries`: pass and total counters
 * plus one comment line per entry, keyed by technique in the order the
 * techniques first appear.
 */
module Aggregation {
  import opened Strings
  import opened Sequences
  import opened Matcher

  /** The counters of one technique. */
  datatype Counter = Counter(pass: nat, total: nat, comments: seq<string>)

  /** An insertion-ordered dictionary from technique to counter. */
  datatype Aggregator = Aggregator(order: seq<string>, counters: map<string, Counter>)

  const Empty := Aggregator([], map[])

  /** The comment line an entry adds: `"<rule-id> : Pass"` or `"<rule-id> : Fail"`. */
  function Comment(e: Entry): string {
    e.ruleId + " : " + (if e.passed then "Pass" else "Fail")
  }

  lemma CommentNoNewline(e: Entry)
    requires '\n' !in e.ruleId
    ensures '\n' !in Comment(e)
  {
    var status := if e.passed then "Pass" else "Fail";
    assert Comment(e) == e.ruleId + (" : " + status);
    assert '\n' !in " : " + status;
  }

  /** One step of the loop: `setdefault`, then count the entry and append its comment. */
  function Add(agg: Aggregator, e: Entry): Aggregator {
    var t := e.technique;
    var c := if t in agg.counters then agg.counters[t] else Counter(0, 0, []);
    var c' := Counter(c.pass + (if e.passed then 1 else 0), c.total + 1, c.comments + [Comment(e)]);
    Aggregator(if t in agg.counters then agg.order else agg.order + [t], agg.counters[t := c'])
  }

  /** The aggregator after the loop has consumed all of `es`. */
  function Accumulate(es: seq<Entry>): Aggregator {
    if |es| == 0 then Empty else Add(Accumulate(es[..|es| - 1]), es[|es| - 1])
  }

  // ---- Reference definitions, one technique at a time ----

  function Techniques(es: seq<Entry>): (ts: seq<string>)
    ensures |ts| == |es|
    ensures forall i :: 0 <= i < |es| ==> ts[i] == es[i].technique
  {
    seq(|es|, i requires 0 <= i < |es| => es[i].technique)
  }

  /** Number of entries for `t`. */
  function TotalFor(es: seq<Entry>, t: string): nat {
    if |es| == 0 then 0
    else TotalFor(es[..|es| - 1], t) + (if es[|es| - 1].technique == t then 1 else 0)
  }

  /** Number of passing entries for `t`. */
  function PassFor(es: seq<Entry>, t: string): (n: nat)
    ensures n <= TotalFor(es, t)
  {
    if |es| == 0 then 0
    else PassFor(es[..|es| - 1], t) + (if es[|es| - 1].technique == t && es[|es| - 1].passed then 1 else 0)
  }

  /** The comment lines of the entries for `t`, in entry order. */
  function CommentsFor(es: seq<Entry>, t: string): (cs: seq<string>)
    ensures |cs| == TotalFor(es, t)
    ensures forall c :: c in cs ==> exists e :: e in es && e.technique == t && c == Comment(e)
  {
    if |es| == 0 then []
    else CommentsFor(es[..|es| - 1], t) + (if es[|es| - 1].technique == t then [Comment(es[|es| - 1])] else [])
  }

  /** The counter the reference definitions give `t`. */
  function Expected(es: seq<Entry>, t: string): Counter {
    Counter(PassFor(es, t), TotalFor(es, t), CommentsFor(es, t))
  }

  /** The representation invariant of a well-formed aggregator. */
  predicate Valid(agg: Aggregator) {
    && Distinct(agg.order)
    && agg.counters.Keys == set t | t in agg.order
    && (forall t :: t in agg.counters ==>
          var c := agg.counters[t];
          1 <= c.total && c.pass <= c.total && |c.comments| == c.total)
  }

  /**
   * Accumulation agrees with the reference definitions: the keys are the
   * techniques in first-occurrence order, and each counter holds exactly the
   * pass count, total and comments of that technique's entries.
   */
  lemma {:induction false} AccumulateSpec(es: seq<Entry>)
    ensures Accumulate(es).order == FirstSeen(Techniques(es))
    ensures forall t :: t in Accumulate(es).counters <==> t in Techniques(es)
    ensures forall t :: t in Accumulate(es).counters ==> Accumulate(es).counters[t] == Expected(es, t)
  {
    if |es| > 0 {
      var p := es[..|es| - 1];
      var e := es[|es| - 1];
      AccumulateSpec(p);
      assert p + [e] == es;
      AddAgrees(p, e, Accumulate(p));
    }
  }

  /** The aggregator holds exactly what the reference definitions give for `es`. */
  ghost predicate Agrees(es: seq<Entry>, agg: Aggregator) {
    && agg.order == FirstSeen(Techniques(es))
    && (forall t :: t in agg.counters <==> t in Techniques(es))
    && (forall t :: t in agg.counters ==> agg.counters[t] == Expected(es, t))
  }

  /** One loop step keeps the aggregator in agreement with the entries consumed so far. */
  lemma AddAgrees(p: seq<Entry>, e: Entry, agg: Aggregator)
    requires Agrees(p, agg)
    ensures Agrees(p + [e], Add(agg, e))
  {
    TechniquesSnoc(p, e);
    FirstSeenSnoc(Techniques(p), e.technique);
    AddCounters(p, e, agg);
  }

  lemma TechniquesSnoc(p: seq<Entry>, e: Entry)
    ensures Techniques(p + [e]) == Techniques(p) + [e.technique]
  {
  }

  /** The reference counters after one more entry. */
  lemma ExpectedSnoc(p: seq<Entry>, e: Entry, t: string)
    ensures var c := Expected(p, t);
            Expected(p + [e], t) ==
              if e.technique == t then Counter(c.pass + (if e.passed then 1 else 0), c.total + 1, c.comments + [Comment(e)])
              else c
  {
    var es := p + [e];
    assert es[..|es| - 1] == p && es[|es| - 1] == e;
  }

  lemma AddCounters(p: seq<Entry>, e: Entry, agg: Aggregator)
    requires forall t :: t in agg.counters <==> t in Techniques(p)
    requires forall t :: t in agg.counters ==> agg.counters[t] == Expected(p, t)
    ensures forall t :: t in Add(agg, e).counters ==> Add(agg, e).counters[t] == Expected(p + [e], t)
  {
    var next := Add(agg, e);
    forall t | t in next.counters
      ensures next.counters[t] == Expected(p + [e], t)
    {
      ExpectedSnoc(p, e, t);
      if t == e.technique && t !in agg.counters {
        ZeroWhenAbsent(p, t);
      }
    }
  }

  /** A technique without entries has empty reference counters. */
  lemma {:induction false} ZeroWhenAbsent(es: seq<Entry>, t: string)
    requires t !in Techniques(es)
    ensures Expected(es, t) == Counter(0, 0, [])
  {
    if |es| > 0 {
      var p := es[..|es| - 1];
      assert Techniques(es) == Techniques(p) + [es[|es| - 1].technique];
      ZeroWhenAbsent(p, t);
    }
  }

  /** A technique that occurs among the entries has at least one. */
  lemma {:induction false} ExpectedBounds(es: seq<Entry>, t: string)
    ensures t in Techniques(es) ==> TotalFor(es, t) >= 1
  {
    if |es| > 0 {
      var p := es[..|es| - 1];
      assert Techniques(es) == Techniques(p) + [es[|es| - 1].technique];
      ExpectedBounds(p, t);
    }
  }

  /** After accumulation every counter satisfies `1 <= total`, `pass <= total` and has one comment per entry. */
  lemma AccumulateValid(es: seq<Entry>)
    ensures Valid(Accumulate(es))
  {
    AccumulateSpec(es);
    var agg := Accumulate(es);
    forall t | t in agg.counters
      ensures 1 <= agg.counters[t].total && agg.counters[t].pass <= agg.counters[t].total
      ensures |agg.counters[t].comments| == agg.counters[t].total
    {
      ExpectedBounds(es, t);
    }
  }

  // ---- The totals add up to the number of entries ----

  /** Sum of the totals of the techniques listed in `order`. */
  function SumTotals(order: seq<string>, counters: map<string, Counter>): nat
    requires forall t :: t in order ==> t in counters
  {
    if |order| == 0 then 0
    else SumTotals(order[..|order| - 1], counters) + counters[order[|order| - 1]].total
  }

  lemma {:induction false} SumTotalsFrame(order: seq<string>, counters: map<string, Counter>, t: string, c: Counter)
    requires forall u :: u in order ==> u in counters
    requires t !in order
    ensures SumTotals(order, counters[t := c]) == SumTotals(order, counters)
  {
    if |order| > 0 {
      assert order[|order| - 1] in order;
      SumTotalsFrame(order[..|order| - 1], counters, t, c);
    }
  }

  lemma {:induction false} SumTotalsBump(order: seq<string>, counters: map<string, Counter>, t: string, c: Counter)
    requires forall u :: u in order ==> u in counters
    requires Distinct(order) && t in order
    requires c.total == counters[t].total + 1
    ensures SumTotals(order, counters[t := c]) == SumTotals(order, counters) + 1
  {
    var p := order[..|order| - 1];
    var last := order[|order| - 1];
    assert Distinct(p);
    if last == t {
      assert t !in p;
      SumTotalsFrame(p, counters, t, c);
    } else {
      assert t in p by {
        var i :| 0 <= i < |order| && order[i] == t;
        assert i < |order| - 1;
        assert p[i] == t;
      }
      SumTotalsBump(p, counters, t, c);
    }
  }

  /** The totals of all techniques add up to the number of entries. */
  lemma {:induction false} SumOfTotals(es: seq<Entry>)
    ensures Valid(Accumulate(es))
    ensures SumTotals(Accumulate(es).order, Accumulate(es).counters) == |es|
  {
    AccumulateValid(es);
    if |es| > 0 {
      var p := es[..|es| - 1];
      var e := es[|es| - 1];
      var agg := Accumulate(p);
      SumOfTotals(p);
      var t := e.technique;
      var after := Accumulate(es);
      if t in agg.counters {
        SumTotalsBump(agg.order, agg.counters, t, after.counters[t]);
      } else {
        SumTotalsFrame(agg.order, agg.counters, t, after.counters[t]);
        assert after.order[..|after.order| - 1] == agg.order;
      }
    }
  }

  /** The loop of `_accumulate_entries`, consuming the entries in order. */
  method AccumulateEntries(es: seq<Entry>) returns (agg: Aggregator)
    ensures agg.order == FirstSeen(Techniques(es))
    ensures forall t :: t in agg.counters <==> t in Techniques(es)
    ensures forall t :: t in agg.counters ==> agg.counters[t] == Expected(es, t)
    ensures Valid(agg)
  {
    agg := Empty;
    var i := 0;
    while i < |es|
      invariant 0 <= i <= |es|
      invariant agg == Accumulate(es[..i])
    {
      assert es[..i + 1][..i] == es[..i];
      agg := Add(agg, es[i]);
      i := i + 1;
    }
    assert es[..|es|] == es;
    AccumulateSpec(es);
    AccumulateValid(es);
  }
}

=== FILE: color_ramp.dfy ===
/**
 * The alternative three-stop ramp of the colour test script: red (#cc0000)
 * through golden yellow (#ffd700) to green (#0bda51) over the squared score,
 * with a fixed colour (#3bb143) once the squared score reaches one.
 */
module ColorRamp {
  import opened Colors

  const Red := Rgb(0xCC, 0x00, 0x00)
  const Gold := Rgb(0xFF, 0xD7, 0x00)
  const Green := Rgb(0x0B, 0xDA, 0x51)
  const Full := "#3bb143"

  /** `max(0.0, min(1.0, score ** 2))`. */
  function Eased(score: real): (s: real)
    ensures 0.0 <= s <= 1.0
    ensures s == 1.0 <==> score * score >= 1.0
  {
    var sq := score * score;
    if sq >= 1.0 then 1.0 else if sq <= 0.0 then 0.0 else sq
  }

  /** The channels below full score: red to gold up to one half, gold to green above. */
  function RampChannels(s: real): (c: Rgb)
    requires 0.0 <= s < 1.0
    ensures InRange(c)
    ensures s <= 0.5 ==> Red.r <= c.r <= Gold.r && Red.g <= c.g <= Gold.g && c.b == 0
    ensures s > 0.5 ==> Green.r <= c.r <= Gold.r && Gold.g <= c.g <= Green.g && Gold.b <= c.b <= Green.b
  {
    // Each channel is `int(c1 + (c2 - c1) * t)` with the stop values written out.
    if s <= 0.5 then
      var t := s / 0.5;
      Rgb((204.0 + 51.0 * t).Floor, (0.0 + 215.0 * t).Floor, (0.0 + 0.0 * t).Floor)
    else
      var t := (s - 0.5) / 0.5;
      Rgb((255.0 - 244.0 * t).Floor, (215.0 + 3.0 * t).Floor, (0.0 + 81.0 * t).Floor)
  }

  /** The colour of an eased score. */
  function EasedColor(s: real): (c: string)
    requires 0.0 <= s <= 1.0
    ensures IsHexColor(c)
  {
    if s == 1.0 then
      assert IsHexDigit('3') && IsHexDigit('b') && IsHexDigit('1') && IsHexDigit('4');
      Full
    else Format(RampChannels(s))
  }

  /** `gradient_color(score)`: always a well-formed colour. */
  function RampColor(score: real): (c: string)
    ensures IsHexColor(c)
  {
    EasedColor(Eased(score))
  }

  /** Only the square of the score matters, so a score and its negation share a colour. */
  lemma RampEven(score: real)
    ensures RampColor(-score) == RampColor(score)
  {
    assert (-score) * (-score) == score * score;
  }

  /** Any score of magnitude one or more gets the fixed full-score colour. */
  lemma RampSaturates(score: real)
    requires score >= 1.0 || score <= -1.0
    ensures RampColor(score) == Full
  {
    assert score * score >= 1.0 by {
      if score >= 1.0 {
        assert score * score - score == score * (score - 1.0);
      } else {
        assert score * score + score == score * (score + 1.0);
      }
    }
    assert Eased(score) == 1.0;
  }

  /** The ramp starts at red and passes gold at one half. */
  lemma RampStops()
    ensures RampColor(0.0) == "#cc0000"
    ensures EasedColor(0.5) == "#ffd700"
  {
    assert RampChannels(0.0) == Red;
    assert RampChannels(0.5) == Gold;
    RedSpelled();
    GoldSpelled();
  }

  lemma RedSpelled()
    ensures Format(Red) == "#cc0000"
  {
    assert Hex2(0xCC) == "cc" && Hex2(0) == "00";
  }

  lemma GoldSpelled()
    ensures Format(Gold) == "#ffd700"
  {
    assert Hex2(0xFF) == "ff" && Hex2(0xD7) == "d7" && Hex2(0) == "00";
  }

  /** Below full score, green never decreases as the eased score grows. */
  lemma RampGreenMonotone(s1: real, s2: real)
    requires 0.0 <= s1 <= s2 < 1.0
    ensures RampChannels(s1).g <= RampChannels(s2).g
  {
    if s2 <= 0.5 {
      FloorMonotone(215.0 * (s1 / 0.5), 215.0 * (s2 / 0.5));
    } else if s1 > 0.5 {
      FloorMonotone(215.0 + 3.0 * ((s1 - 0.5) / 0.5), 215.0 + 3.0 * ((s2 - 0.5) / 0.5));
    }
  }
}

=== FILE: colors.dfy ===
/**
 * Hex colour strings and the orange-to-green ramp `gradient_color` of the
 * converter, which colours a technique by its pass fraction.
 */
module Colors {

  const HexDigits := "0123456789abcdef"

  predicate IsHexDigit(c: char) {
    c in HexDigits
  }

  /** A colour as the layer stores it: `#` and six lower-case hex digits. */
  predicate IsHexColor(s: string) {
    |s| == 7 && s[0] == '#' && forall i :: 1 <= i < 7 ==> IsHexDigit(s[i])
  }

  datatype Rgb = Rgb(r: int, g: int, b: int)

  predicate InRange(c: Rgb) {
    0 <= c.r < 256 && 0 <= c.g < 256 && 0 <= c.b < 256
  }

  /** `format(n, '02x')` for a channel value. */
  function Hex2(n: int): (h: string)
    requires 0 <= n < 256
    ensures |h| == 2 && IsHexDigit(h[0]) && IsHexDigit(h[1])
  {
    [HexDigits[n / 16], HexDigits[n % 16]]
  }

  /** The value of one hex digit. */
  function DigitValue(c: char): int {
    if '0' <= c <= '9' then c as int - '0' as int
    else if 'a' <= c <= 'f' then c as int - 'a' as int + 10
    else 0
  }

  function HexValue(h: string): int
    requires |h| == 2
  {
    16 * DigitValue(h[0]) + DigitValue(h[1])
  }

  lemma Hex2RoundTrip(n: int)
    requires 0 <= n < 256
    ensures HexValue(Hex2(n)) == n
  {
    var hi, lo := n / 16, n % 16;
    assert DigitValue(HexDigits[hi]) == hi;
    assert DigitValue(HexDigits[lo]) == lo;
  }

  lemma KnownHex()
    ensures Hex2(0) == "00" && Hex2(51) == "33" && Hex2(153) == "99"
    ensures Hex2(204) == "cc" && Hex2(255) == "ff"
  {
    HexDigitsAt();
  }

  lemma HexDigitsAt()
    ensures HexDigits[0] == '0' && HexDigits[3] == '3' && HexDigits[9] == '9'
    ensures HexDigits[12] == 'c' && HexDigits[15] == 'f'
  {
  }

  /** The channels a colour string spells. */
  function ParseColor(s: string): Rgb
    requires |s| == 7
  {
    Rgb(HexValue(s[1..3]), HexValue(s[3..5]), HexValue(s[5..7]))
  }

  /** `f"#{r:02x}{g:02x}{b:02x}"`: a well-formed colour that spells its channels back. */
  function Format(c: Rgb): (s: string)
    requires InRange(c)
    ensures IsHexColor(s)
    ensures ParseColor(s) == c
    ensures s[1..3] == Hex2(c.r) && s[3..5] == Hex2(c.g) && s[5..7] == Hex2(c.b)
  {
    var s := "#" + Hex2(c.r) + Hex2(c.g) + Hex2(c.b);
    HexTriple(Hex2(c.r), Hex2(c.g), Hex2(c.b));
    Hex2RoundTrip(c.r);
    Hex2RoundTrip(c.g);
    Hex2RoundTrip(c.b);
    s
  }

  /** Three two-digit hex strings after a `#` make a colour that spells them back. */
  lemma HexTriple(a: string, b: string, c: string)
    requires |a| == 2 && |b| == 2 && |c| == 2
    requires IsHexDigit(a[0]) && IsHexDigit(a[1]) && IsHexDigit(b[0]) && IsHexDigit(b[1])
    requires IsHexDigit(c[0]) && IsHexDigit(c[1])
    ensures IsHexColor("#" + a + b + c)
    ensures ("#" + a + b + c)[1..3] == a && ("#" + a + b + c)[3..5] == b && ("#" + a + b + c)[5..7] == c
  {
    var s := "#" + a + b + c;
    assert s[1] == a[0] && s[2] == a[1] && s[3] == b[0] && s[4] == b[1] && s[5] == c[0] && s[6] == c[1];
    assert s[1..3] == a && s[3..5] == b && s[5..7] == c;
  }

  /** `int(x)` of a non-negative number is its floor. */
  lemma FloorMonotone(x: real, y: real)
    requires x <= y
    ensures x.Floor <= y.Floor
  {
  }

  /**
   * The channels of the converter's ramp: full red and green rising from 0
   * to 0x99 up to one half, then red falling to 0x33 while green rises to
   * 0xcc; blue is fixed at 0x33.
   */
  function GradientChannels(f: real): (c: Rgb)
    requires 0.0 <= f <= 1.0
    ensures InRange(c)
    ensures c.b == 0x33
    ensures f <= 0.5 ==> c.r == 0xff
    ensures 0x33 <= c.r <= 0xff && 0 <= c.g <= 0xcc
  {
    if f <= 0.5 then
      var ratio := f / 0.5;
      Rgb(255, (153.0 * ratio).Floor, 51)
    else
      var ratio := (f - 0.5) / 0.5;
      Rgb((255.0 - 204.0 * ratio).Floor, (153.0 + 51.0 * ratio).Floor, 51)
  }

  /** `gradient_color(fraction)` for a fraction in [0, 1]. */
  function GradientColor(f: real): (s: string)
    requires 0.0 <= f <= 1.0
    ensures IsHexColor(s)
    ensures s[5..7] == "33"
    ensures f <= 0.5 ==> s[1..3] == "ff"
    ensures ParseColor(s) == GradientChannels(f)
  {
    var c := GradientChannels(f);
    KnownHex();
    Format(c)
  }

  /** The fixed points of the ramp: no passes, half, and all passes. */
  lemma GradientEndpoints()
    ensures GradientColor(0.0) == "#ff0033"
    ensures GradientColor(0.5) == "#ff9933"
    ensures GradientColor(1.0) == "#33cc33"
  {
    assert GradientChannels(0.0) == Rgb(255, 0, 51);
    assert GradientChannels(0.5) == Rgb(255, 153, 51);
    assert GradientChannels(1.0) == Rgb(51, 204, 51);
    KnownHex();
  }

  /** A higher pass fraction never lowers green nor raises red. */
  lemma GradientMonotone(f1: real, f2: real)
    requires 0.0 <= f1 <= f2 <= 1.0
    ensures GradientChannels(f1).g <= GradientChannels(f2).g
    ensures GradientChannels(f1).r >= GradientChannels(f2).r
  {
    if f2 <= 0.5 {
      FloorMonotone(153.0 * (f1 / 0.5), 153.0 * (f2 / 0.5));
    } else if f1 > 0.5 {
      FloorMonotone(153.0 + 51.0 * ((f1 - 0.5) / 0.5), 153.0 + 51.0 * ((f2 - 0.5) / 0.5));
      FloorMonotone(255.0 - 204.0 * ((f2 - 0.5) / 0.5), 255.0 - 204.0 * ((f1 - 0.5) / 0.5));
    }
  }
}

=== FILE: combine.dfy ===
/**
 * Combining several scans at the rule level before conversion. The first
 * occurrence of a rule id fixes its title and lower-cased result; a later
 * occurrence whose lower-cased result is `fail` turns the merged result to
 * `fail`, so a rule that fails in any scan fails in the combination.
 */
module Combine {
  import opened Wrappers
  import opened Strings
  import opened Sequences
  import opened Matcher
  import opened Aggregation
  import opened Convert

  const CombinedTitle := "Combined CIS Benchmark"

  /** The merge state: rule ids in first-seen order and the merged rule of each. */
  datatype Merged = Merged(order: seq<string>, rules: map<string, Rule>)

  const NoRules := Merged([], map[])

  /** Only rules with a truthy `rule-id` take part. */
  predicate HasId(rule: Rule) {
    rule.ruleId.Some? && rule.ruleId.value != ""
  }

  /** The result as it is merged: lower-cased, a missing one read as `''`. */
  function LoweredResult(rule: Rule): string {
    Lower(rule.result.GetOr(""))
  }

  /** One step of the merge loop. */
  function MergeRule(m: Merged, rule: Rule): Merged {
    if !HasId(rule) then m
    else
      var rid := rule.ruleId.value;
      var result := LoweredResult(rule);
      if rid !in m.rules then
        Merged(m.order + [rid], m.rules[rid := Rule(Some(rid), Some(rule.title.GetOr("")), Some(result))])
      else if result == "fail" then
        Merged(m.order, m.rules[rid := m.rules[rid].(result := Some("fail"))])
      else m
  }

  /** The merge of a list of rules, in order. */
  function MergeAll(rules: seq<Rule>): Merged {
    if |rules| == 0 then NoRules else MergeRule(MergeAll(rules[..|rules| - 1]), rules[|rules| - 1])
  }

  /** All rules of all scans, scan by scan. */
  function AllRules(docs: seq<ScanDoc>): seq<Rule> {
    if |docs| == 0 then [] else AllRules(docs[..|docs| - 1]) + docs[|docs| - 1].rules
  }

  predicate WellFormed(m: Merged) {
    && Distinct(m.order)
    && m.rules.Keys == set k | k in m.order
    && (forall k :: k in m.rules ==> m.rules[k].ruleId == Some(k))
  }

  /** The merged rules in first-seen order (`list(merged.values())`). */
  function MergedRules(m: Merged): (rules: seq<Rule>)
    requires WellFormed(m)
    ensures |rules| == |m.order|
    ensures forall i :: 0 <= i < |rules| ==> rules[i] == m.rules[m.order[i]]
  {
    seq(|m.order|, i requires 0 <= i < |m.order| => m.rules[m.order[i]])
  }

  // ---- Reference definitions ----

  /** The rules that take part, in order. */
  function Named(rules: seq<Rule>): (named: seq<Rule>)
    ensures forall r :: r in named <==> r in rules && HasId(r)
  {
    if |rules| == 0 then []
    else
      var p := rules[..|rules| - 1];
      var x := rules[|rules| - 1];
      assert rules == p + [x];
      Named(p) + (if HasId(x) then [x] else [])
  }

  /** The truthy rule ids in rule order, repeats included. */
  function Ids(rules: seq<Rule>): (ids: seq<string>)
    ensures |ids| == |Named(rules)|
  {
    if |rules| == 0 then []
    else
      var x := rules[|rules| - 1];
      Ids(rules[..|rules| - 1]) + (if HasId(x) then [x.ruleId.value] else [])
  }

  /** The position of the first rule carrying id `rid`. */
  function FirstIndex(rules: seq<Rule>, rid: string): (i: nat)
    requires rid in Ids(rules)
    ensures i < |rules| && rules[i].ruleId == Some(rid) && rid != ""
  {
    var p := rules[..|rules| - 1];
    if rid in Ids(p) then FirstIndex(p, rid) else |rules| - 1
  }

  /** No rule before `FirstIndex` carries `rid`. */
  lemma {:induction false} FirstIndexIsFirst(rules: seq<Rule>, rid: string)
    requires rid in Ids(rules)
    ensures rid !in Ids(rules[..FirstIndex(rules, rid)])
  {
    var p := rules[..|rules| - 1];
    if rid in Ids(p) {
      FirstIndexIsFirst(p, rid);
      var i := FirstIndex(p, rid);
      assert rules[..i] == p[..i];
    } else {
      assert rules[..|rules| - 1] == p;
    }
  }

  function FirstWith(rules: seq<Rule>, rid: string): Rule
    requires rid in Ids(rules)
  {
    rules[FirstIndex(rules, rid)]
  }

  /** Some rule with id `rid` has the lower-cased result `fail`. */
  predicate AnyFail(rules: seq<Rule>, rid: string) {
    exists r :: r in rules && r.ruleId == Some(rid) && LoweredResult(r) == "fail"
  }

  /** What the merge should hold for `rid`: the first rule's title, and `fail` if any occurrence failed. */
  function MergedRuleFor(rules: seq<Rule>, rid: string): Rule
    requires rid in Ids(rules)
  {
    var f := FirstWith(rules, rid);
    Rule(Some(rid), Some(f.title.GetOr("")), Some(if AnyFail(rules, rid) then "fail" else LoweredResult(f)))
  }

  // ---- The combined conversion ----

  /** The combined scan: a fixed title and the merged rules. */
  function CombinedDoc(docs: seq<ScanDoc>): ScanDoc {
    var m := MergeAll(AllRules(docs));
    MergeSpec(AllRules(docs));
    ScanDoc(Some(CombinedTitle), MergedRules(m))
  }

  /** `combine_results`: convert the combined scan. */
  function CombineResults(docs: seq<ScanDoc>, table: seq<MappingRow>): (l: Layer)
    ensures l.name == CombinedTitle
    ensures IdsOf(l.techniques) == FirstSeen(Techniques(Entries(CombinedDoc(docs).rules, table)))
  {
    ConvertCisToAttack(CombinedDoc(docs), table)
  }

  // ---- Properties ----

  lemma AnyFailSnoc(p: seq<Rule>, x: Rule, rid: string)
    ensures AnyFail(p + [x], rid) <==> AnyFail(p, rid) || (x.ruleId == Some(rid) && LoweredResult(x) == "fail")
  {
    if AnyFail(p + [x], rid) {
      var r :| r in p + [x] && r.ruleId == Some(rid) && LoweredResult(r) == "fail";
      if r != x {
        assert r in p;
      }
    }
    if x.ruleId == Some(rid) && LoweredResult(x) == "fail" {
      assert x in p + [x];
    }
    if AnyFail(p, rid) {
      var r :| r in p && r.ruleId == Some(rid) && LoweredResult(r) == "fail";
      assert r in p + [x];
    }
  }

  /** Every id the merge holds is a truthy id of the input, and conversely. */
  lemma {:induction false} IdsMember(rules: seq<Rule>, rid: string)
    ensures rid in Ids(rules) <==> exists r :: r in rules && HasId(r) && r.ruleId.value == rid
  {
    if |rules| > 0 {
      var p := rules[..|rules| - 1];
      var x := rules[|rules| - 1];
      assert rules == p + [x];
      IdsMember(p, rid);
      if exists r :: r in rules && HasId(r) && r.ruleId.value == rid {
        var r :| r in rules && HasId(r) && r.ruleId.value == rid;
        if r != x {
          assert r in p;
        }
      }
    }
  }

  /** One merge step keeps the merge well formed and appends a new id to the order. */
  lemma MergeRuleStep(m: Merged, rule: Rule)
    requires WellFormed(m)
    ensures WellFormed(MergeRule(m, rule))
    ensures MergeRule(m, rule).order ==
              (if HasId(rule) && rule.ruleId.value !in m.order then m.order + [rule.ruleId.value] else m.order)
  {
    if HasId(rule) {
      var rid := rule.ruleId.value;
      var m' := MergeRule(m, rule);
      if rid !in m.rules {
        assert rid !in m.order;
        assert m'.rules.Keys == m.rules.Keys + {rid};
        assert (set k | k in m'.order) == (set k | k in m.order) + {rid};
      } else {
        assert rid in m.order;
      }
    }
  }

  /** The merge holds each truthy id once, in first-seen order. */
  lemma {:induction false} MergeSpec(rules: seq<Rule>)
    ensures WellFormed(MergeAll(rules))
    ensures MergeAll(rules).order == FirstSeen(Ids(rules))
    ensures forall rid :: rid in MergeAll(rules).rules <==> rid in Ids(rules)
  {
    if |rules| == 0 {
      return;
    }
    var p := rules[..|rules| - 1];
    var x := rules[|rules| - 1];
    MergeSpec(p);
    var m := MergeAll(p);
    assert MergeAll(rules) == MergeRule(m, x);
    MergeRuleStep(m, x);
    if HasId(x) {
      assert Ids(rules) == Ids(p) + [x.ruleId.value];
      FirstSeenSnoc(Ids(p), x.ruleId.value);
    } else {
      assert Ids(rules) == Ids(p);
    }
  }

  /**
   * For each id the merge holds the title of its first rule, and `fail`
   * exactly when some occurrence failed (otherwise the first rule's
   * lower-cased result).
   */
  lemma {:induction false} MergeEntry(rules: seq<Rule>, rid: string)
    requires rid in Ids(rules)
    ensures rid in MergeAll(rules).rules
    ensures MergeAll(rules).rules[rid] == MergedRuleFor(rules, rid)
  {
    var p := rules[..|rules| - 1];
    if rid in Ids(p) {
      MergeEntry(p, rid);
      MergeEntrySeen(rules, rid);
    } else {
      MergeEntryFirst(rules, rid);
    }
  }

  /** An id already merged keeps its entry, turned to `fail` by a failing occurrence. */
  lemma {:induction false} MergeEntrySeen(rules: seq<Rule>, rid: string)
    requires |rules| > 0 && rid in Ids(rules)
    requires rid in Ids(rules[..|rules| - 1])
    requires rid in MergeAll(rules[..|rules| - 1]).rules
    requires MergeAll(rules[..|rules| - 1]).rules[rid] == MergedRuleFor(rules[..|rules| - 1], rid)
    ensures rid in MergeAll(rules).rules
    ensures MergeAll(rules).rules[rid] == MergedRuleFor(rules, rid)
  {
    var p := rules[..|rules| - 1];
    assert MergeAll(rules) == MergeRule(MergeAll(p), rules[|rules| - 1]);
    MergedRuleForSnoc(rules, rid);
    MergeKnownStep(MergeAll(p), rules[|rules| - 1], rid);
  }

  /** A later occurrence changes the expected rule of an id already seen at most to `fail`. */
  lemma {:induction false} MergedRuleForSnoc(rules: seq<Rule>, rid: string)
    requires |rules| > 0 && rid in Ids(rules) && rid in Ids(rules[..|rules| - 1])
    ensures rid != ""
    ensures var x := rules[|rules| - 1];
            MergedRuleFor(rules, rid) ==
            if x.ruleId == Some(rid) && LoweredResult(x) == "fail" then MergedRuleFor(rules[..|rules| - 1], rid).(result := Some("fail"))
            else MergedRuleFor(rules[..|rules| - 1], rid)
  {
    var p := rules[..|rules| - 1];
    var x := rules[|rules| - 1];
    var f := FirstWith(p, rid);
    FirstWithSnoc(rules, rid);
    assert AnyFail(rules, rid) == AnyFail(p, rid) || (x.ruleId == Some(rid) && LoweredResult(x) == "fail") by {
      assert rules == p + [x];
      AnyFailSnoc(p, x, rid);
    }
  }

  /** A merge step over an id already held changes that entry at most to `fail`. */
  lemma MergeKnownStep(m: Merged, x: Rule, rid: string)
    requires rid in m.rules && rid != ""
    ensures rid in MergeRule(m, x).rules
    ensures MergeRule(m, x).rules[rid] ==
              if x.ruleId == Some(rid) && LoweredResult(x) == "fail" then m.rules[rid].(result := Some("fail"))
              else m.rules[rid]
  {
  }

  /** A later rule does not move the first occurrence of an id already present. */
  lemma FirstWithSnoc(rules: seq<Rule>, rid: string)
    requires |rules| > 0 && rid in Ids(rules) && rid in Ids(rules[..|rules| - 1])
    ensures FirstWith(rules, rid) == FirstWith(rules[..|rules| - 1], rid)
  {
  }

  /** An id seen for the first time enters with that rule's title and lower-cased result. */
  lemma {:induction false} MergeEntryFirst(rules: seq<Rule>, rid: string)
    requires |rules| > 0 && rid in Ids(rules)
    requires rid !in Ids(rules[..|rules| - 1])
    ensures rid in MergeAll(rules).rules
    ensures MergeAll(rules).rules[rid] == MergedRuleFor(rules, rid)
  {
    var p := rules[..|rules| - 1];
    var x := rules[|rules| - 1];
    assert rules == p + [x];
    var m := MergeAll(p);
    var m' := MergeAll(rules);
    assert m' == MergeRule(m, x);
    AnyFailSnoc(p, x, rid);
    assert rid !in m.rules by {
      MergeSpec(p);
    }
    assert Ids(rules) == Ids(p) + (if HasId(x) then [x.ruleId.value] else []);
    assert HasId(x) && x.ruleId.value == rid;
    assert !AnyFail(p, rid) by {
      if AnyFail(p, rid) {
        var r :| r in p && r.ruleId == Some(rid) && LoweredResult(r) == "fail";
        IdsMember(p, rid);
      }
    }
    assert FirstWith(rules, rid) == x;
    assert m'.rules[rid] == Rule(Some(rid), Some(x.title.GetOr("")), Some(LoweredResult(x)));
  }

  /**
   * A merged rule passes exactly when no occurrence of its id fails: failure
   * wins whatever the order of the occurrences.
   */
  lemma MergedPassed(rules: seq<Rule>, rid: string)
    requires rid in Ids(rules)
    ensures Passed(MergedRuleFor(rules, rid)) <==> !AnyFail(rules, rid)
  {
    var f := FirstWith(rules, rid);
    LowerIdempotent(f.result.GetOr(""));
    assert f in rules;
  }

  lemma {:induction false} AllRulesMember(docs: seq<ScanDoc>, r: Rule)
    ensures r in AllRules(docs) <==> exists i :: 0 <= i < |docs| && r in docs[i].rules
  {
    if |docs| > 0 {
      var p := docs[..|docs| - 1];
      AllRulesMember(p, r);
      if exists i :: 0 <= i < |docs| && r in docs[i].rules {
        var i :| 0 <= i < |docs| && r in docs[i].rules;
        if i < |docs| - 1 {
          assert p[i] == docs[i];
        }
      }
      if exists i :: 0 <= i < |p| && r in p[i].rules {
        var i :| 0 <= i < |p| && r in p[i].rules;
        assert docs[i] == p[i];
      }
    }
  }

  /** A merged rule passes exactly when no occurrence of its id fails. */
  lemma MergedVerdict(rules: seq<Rule>, rid: string)
    requires rid in MergeAll(rules).rules
    ensures Passed(MergeAll(rules).rules[rid]) <==> !AnyFail(rules, rid)
  {
    MergeSpec(rules);
    MergeEntry(rules, rid);
    MergedPassed(rules, rid);
  }

  /** Some scan fails `rid` exactly when some rule of the concatenation does. */
  lemma AnyFailScans(docs: seq<ScanDoc>, rid: string)
    ensures AnyFail(AllRules(docs), rid) <==>
              exists i, r :: 0 <= i < |docs| && r in docs[i].rules && r.ruleId == Some(rid) && LoweredResult(r) == "fail"
  {
    var all := AllRules(docs);
    if AnyFail(all, rid) {
      var r :| r in all && r.ruleId == Some(rid) && LoweredResult(r) == "fail";
      AllRulesMember(docs, r);
    }
    if exists i, r :: 0 <= i < |docs| && r in docs[i].rules && r.ruleId == Some(rid) && LoweredResult(r) == "fail" {
      var i, r :| 0 <= i < |docs| && r in docs[i].rules && r.ruleId == Some(rid) && LoweredResult(r) == "fail";
      AllRulesMember(docs, r);
    }
  }

  /**
   * In the combined scan, a rule passes exactly when no scan fails it; in
   * particular one failing scan fails the rule, in whichever position.
   */
  lemma FailWins(docs: seq<ScanDoc>, rid: string)
    requires rid in MergeAll(AllRules(docs)).rules
    ensures Passed(MergeAll(AllRules(docs)).rules[rid]) <==>
              !exists i, r :: 0 <= i < |docs| && r in docs[i].rules && r.ruleId == Some(rid) && LoweredResult(r) == "fail"
  {
    MergedVerdict(AllRules(docs), rid);
    AnyFailScans(docs, rid);
  }

  lemma AllRulesPair(d1: ScanDoc, d2: ScanDoc)
    ensures AllRules([d1, d2]) == d1.rules + d2.rules
  {
    assert [d1, d2][..1] == [d1];
    assert [d1][..0] == [];
    assert AllRules([d1]) == [] + d1.rules;
    assert AllRules([d1, d2]) == AllRules([d1]) + d2.rules;
  }

  /** Swapping two scans changes which rules are merged and no rule's pass/fail verdict. */
  lemma CombineSwap(d1: ScanDoc, d2: ScanDoc, rid: string)
    ensures rid in MergeAll(AllRules([d1, d2])).rules <==> rid in MergeAll(AllRules([d2, d1])).rules
    ensures rid in MergeAll(AllRules([d1, d2])).rules ==>
              Passed(MergeAll(AllRules([d1, d2])).rules[rid]) == Passed(MergeAll(AllRules([d2, d1])).rules[rid])
  {
    var a := AllRules([d1, d2]);
    var b := AllRules([d2, d1]);
    AllRulesPair(d1, d2);
    AllRulesPair(d2, d1);
    assert forall r :: r in a <==> r in b;
    MergeSpec(a);
    MergeSpec(b);
    IdsMember(a, rid);
    IdsMember(b, rid);
    if rid in MergeAll(a).rules {
      MergedVerdict(a, rid);
      MergedVerdict(b, rid);
      assert AnyFail(a, rid) == AnyFail(b, rid);
    }
  }

  /** A merged rule that every scan passes is failed by none: its verdict comes from its occurrences only. */
  lemma MergedFails(all: seq<Rule>, m: Merged, i: nat)
    requires m == MergeAll(all) && WellFormed(m) && m.order == FirstSeen(Ids(all))
    requires forall r :: r in all && HasId(r) ==> AnyFail(all, r.ruleId.value)
    requires i < |m.order|
    ensures !Passed(m.rules[m.order[i]])
  {
    var rid := m.order[i];
    assert rid in Ids(all);
    IdsMember(all, rid);
    MergedVerdict(all, rid);
  }

  /** When every truthy-id rule fails somewhere, every combined technique scores 0.0 in `#ff0033`. */
  lemma CombineAllFail(docs: seq<ScanDoc>, table: seq<MappingRow>)
    requires forall r :: r in AllRules(docs) && HasId(r) ==> AnyFail(AllRules(docs), r.ruleId.value)
    ensures forall tr :: tr in CombineResults(docs, table).techniques ==> tr.score == 0.0 && tr.color == "#ff0033"
  {
    var all := AllRules(docs);
    var m := MergeAll(all);
    MergeSpec(all);
    var rules := CombinedDoc(docs).rules;
    forall r | r in rules
      ensures !Passed(r)
    {
      var i :| 0 <= i < |rules| && rules[i] == r;
      MergedFails(all, m, i);
    }
    UniformResults(rules, table, false);
  }

  // ---- One scan ----

  lemma {:induction false} IdsNamed(rules: seq<Rule>)
    ensures |Ids(rules)| == |Named(rules)|
    ensures forall i :: 0 <= i < |Ids(rules)| ==> Named(rules)[i].ruleId == Some(Ids(rules)[i])
  {
    if |rules| > 0 {
      IdsNamed(rules[..|rules| - 1]);
    }
  }

  /** Rules without a truthy id contribute no entries. */
  lemma {:induction false} EntriesNamed(rules: seq<Rule>, table: seq<MappingRow>)
    ensures Entries(Named(rules), table) == Entries(rules, table)
  {
    if |rules| > 0 {
      var p := rules[..|rules| - 1];
      var x := rules[|rules| - 1];
      assert rules == p + [x];
      EntriesNamed(p, table);
      EntriesAppend(p, [x], table);
      if HasId(x) {
        EntriesAppend(Named(p), [x], table);
      } else {
        UnnamedNoEntries(x, table);
        assert Named(rules) == Named(p);
      }
    }
  }

  /** A rule without a truthy id yields no entries. */
  lemma UnnamedNoEntries(x: Rule, table: seq<MappingRow>)
    requires !HasId(x)
    ensures Entries([x], table) == []
  {
    assert RuleIdOf(x) == "";
    assert KeyOf("") == None;
    assert PerRule([x], table) == [[]];
    assert Concat(PerRule([x], table)) == Concat(PerRule([x], table)[..0]) + [];
  }

  /** Rule lists that agree on each rule's id and verdict give the same entries. */
  lemma EntriesCongruent(r1: seq<Rule>, r2: seq<Rule>, table: seq<MappingRow>)
    requires |r1| == |r2|
    requires forall i :: 0 <= i < |r1| ==> RuleIdOf(r1[i]) == RuleIdOf(r2[i]) && Passed(r1[i]) == Passed(r2[i])
    ensures Entries(r1, table) == Entries(r2, table)
  {
    assert PerRule(r1, table) == PerRule(r2, table);
  }

  /** With distinct truthy ids, the only rule carrying the `i`-th id is the `i`-th named rule. */
  lemma UniqueNamed(rules: seq<Rule>, i: nat, r: Rule)
    requires Distinct(Ids(rules)) && i < |Ids(rules)|
    requires r in Named(rules) && r.ruleId == Some(Ids(rules)[i])
    ensures r == Named(rules)[i]
  {
    var named := Named(rules);
    var k :| 0 <= k < |named| && named[k] == r;
    IdsNamed(rules);
    assert Ids(rules)[k] == Ids(rules)[i];
    assert k == i;
  }

  /** With distinct truthy ids, the `i`-th merged rule has the id and verdict of the `i`-th named rule. */
  lemma MergedMatchesNamed(rules: seq<Rule>, i: nat)
    requires Distinct(Ids(rules)) && i < |Ids(rules)|
    ensures Ids(rules)[i] in MergeAll(rules).rules
    ensures var merged := MergeAll(rules).rules[Ids(rules)[i]];
            var x := Named(rules)[i];
            RuleIdOf(merged) == RuleIdOf(x) && Passed(merged) == Passed(x)
  {
    IdsNamed(rules);
    var rid := Ids(rules)[i];
    var x := Named(rules)[i];
    assert x in rules;
    MergeEntry(rules, rid);
    MergedVerdict(rules, rid);
    if AnyFail(rules, rid) {
      var r :| r in rules && r.ruleId == Some(rid) && LoweredResult(r) == "fail";
      assert HasId(r) by {
        assert rid in Ids(rules);
        IdsMember(rules, rid);
      }
      UniqueNamed(rules, i, r);
    } else {
      assert LoweredResult(x) != "fail";
    }
  }

  /**
   * Combining a single scan whose truthy rule ids are distinct gives the same
   * techniques as converting it directly.
   */
  lemma CombineSingle(doc: ScanDoc, table: seq<MappingRow>)
    requires Distinct(Ids(doc.rules))
    ensures CombineResults([doc], table).techniques == GenerateTechniques(doc.rules, table)
  {
    var rules := doc.rules;
    assert AllRules([doc]) == rules by {
      assert [doc][..0] == [];
    }
    var m := MergeAll(rules);
    MergeSpec(rules);
    FirstSeenDistinct(Ids(rules));
    IdsNamed(rules);
    var named := Named(rules);
    var merged := CombinedDoc([doc]).rules;
    assert merged == MergedRules(m);
    forall i | 0 <= i < |merged|
      ensures RuleIdOf(merged[i]) == RuleIdOf(named[i]) && Passed(merged[i]) == Passed(named[i])
    {
      MergedMatchesNamed(rules, i);
    }
    EntriesCongruent(merged, named, table);
    EntriesNamed(rules, table);
  }

  /** The merge loop over scans and their rules. */
  method MergeScans(docs: seq<ScanDoc>) returns (m: Merged)
    ensures m == MergeAll(AllRules(docs))
    ensures WellFormed(m) && m.order == FirstSeen(Ids(AllRules(docs)))
  {
    m := NoRules;
    var i := 0;
    while i < |docs|
      invariant 0 <= i <= |docs|
      invariant m == MergeAll(AllRules(docs[..i]))
    {
      var rules := docs[i].rules;
      var j := 0;
      assert AllRules(docs[..i]) + rules[..0] == AllRules(docs[..i]);
      while j < |rules|
        invariant 0 <= j <= |rules|
        invariant m == MergeAll(AllRules(docs[..i]) + rules[..j])
      {
        assert (AllRules(docs[..i]) + rules[..j + 1])[..|AllRules(docs[..i]) + rules[..j]|] == AllRules(docs[..i]) + rules[..j];
        m := MergeRule(m, rules[j]);
        j := j + 1;
      }
      assert docs[..i + 1][..i] == docs[..i];
      assert rules[..j] == rules;
      i := i + 1;
    }
    assert docs[..i] == docs;
    MergeSpec(AllRules(docs));
  }
}

=== FILE: convert.dfy ===
/**
 * The conversion pipeline: entries from the rules, tallied per technique,
 * assembled into scored and coloured techniques, wrapped in a Navigator
 * layer.
 */
module Convert {
  import opened Wrappers
  import opened Strings
  import opened Sequences
  import opened Matcher
  import opened Aggregation
  import opened Colors

  /** One technique of the layer. */
  datatype TechniqueResult = TechniqueResult(techniqueId: string, score: real, color: string, comment: string)

  /** The Navigator layer document; its fields are exactly the keys the converter writes. */
  datatype Layer = Layer(version: string, name: string, domain: string, description: string, techniques: seq<TechniqueResult>)

  const Version := "4.5.0"
  const Domain := "enterprise-attack"
  const Description := "Aggregated CIS findings mapped to MITRE ATT&CK"
  const DefaultName := "MITRE ATT&CK NAVIGATOR LAYER"

  /**
   * `n / d` rounded to an integer, ties to the even neighbour (Python's
   * `round`, here on the exact quotient).
   */
  function RoundHalfEven(n: nat, d: nat): (h: nat)
    requires d > 0
    ensures -(d as int) <= 2 * n - 2 * h * d <= d
    ensures (2 * n - 2 * h * d == d || 2 * n - 2 * h * d == -(d as int)) ==> h % 2 == 0
  {
    var q := n / d;
    var r := n % d;
    assert n == q * d + r;
    if 2 * r > d then
      assert 2 * n - 2 * (q + 1) * d == 2 * r - 2 * d;
      q + 1
    else if 2 * r < d then
      assert 2 * n - 2 * q * d == 2 * r;
      q
    else if q % 2 == 0 then
      assert 2 * n - 2 * q * d == 2 * r;
      q
    else
      assert 2 * n - 2 * (q + 1) * d == 2 * r - 2 * d;
      q + 1
  }

  lemma CancelFactor(a: int, b: int, t: int)
    requires t > 0 && a * t <= b * t
    ensures a <= b
  {
  }

  /** `round(pass / total, 2)` in hundredths: 0 with no passes, 100 with no failures, never above 100. */
  function ScoreHundredths(pass: nat, total: nat): (h: nat)
    requires pass <= total
    ensures h <= 100
    ensures total > 0 ==> -(total as int) <= 200 * pass - 2 * h * total <= total
    ensures pass == 0 ==> h == 0
    ensures 0 < total == pass ==> h == 100
  {
    if total == 0 then 0
    else
      var h := RoundHalfEven(100 * pass, total);
      assert 200 * pass <= 200 * total;
      assert h <= 100 by {
        CancelFactor(2 * h, 201, total);
      }
      assert pass == 0 ==> h == 0 by {
        if pass == 0 {
          CancelFactor(2 * h, 1, total);
        }
      }
      assert pass == total ==> h == 100 by {
        if pass == total {
          CancelFactor(199, 2 * h, total);
        }
      }
      h
  }

  /** `pass / total if total else 0`. */
  function Fraction(pass: nat, total: nat): (f: real)
    requires pass <= total
    ensures 0.0 <= f <= 1.0
    ensures total > 0 ==> f * total as real == pass as real
    ensures pass == 0 ==> f == 0.0
    ensures 0 < total == pass ==> f == 1.0
  {
    if total == 0 then 0.0
    else
      var f := pass as real / total as real;
      assert f * total as real == pass as real;
      f
  }

  /** The output entry of one technique. */
  function ResultFor(t: string, c: Counter): TechniqueResult
    requires c.pass <= c.total
  {
    TechniqueResult(
      t,
      ScoreHundredths(c.pass, c.total) as real / 100.0,
      GradientColor(Fraction(c.pass, c.total)),
      Join(c.comments, '\n'))
  }

  /** `_assemble_techniques`: one output entry per technique, in aggregator order. */
  function AssembleTechniques(agg: Aggregator): (out: seq<TechniqueResult>)
    requires Valid(agg)
    ensures |out| == |agg.order|
    ensures forall i :: 0 <= i < |out| ==>
              && out[i].techniqueId == agg.order[i]
              && 0.0 <= out[i].score <= 1.0
              && IsHexColor(out[i].color)
  {
    seq(|agg.order|, i requires 0 <= i < |agg.order| => ResultFor(agg.order[i], agg.counters[agg.order[i]]))
  }

  /** `generate_techniques`: match every rule, tally the entries, assemble. */
  function GenerateTechniques(rules: seq<Rule>, table: seq<MappingRow>): (out: seq<TechniqueResult>)
    ensures IdsOf(out) == FirstSeen(Techniques(Entries(rules, table)))
    ensures forall i :: 0 <= i < |out| ==> 0.0 <= out[i].score <= 1.0 && IsHexColor(out[i].color)
  {
    var es := Entries(rules, table);
    AccumulateValid(es);
    AccumulateSpec(es);
    AssembleTechniques(Accumulate(es))
  }

  /** `build_layer`: the fixed header around the techniques. */
  function BuildLayer(doc: ScanDoc, techniques: seq<TechniqueResult>): (l: Layer)
    ensures l.version == "4.5.0" && l.domain == "enterprise-attack"
    ensures l.description == "Aggregated CIS findings mapped to MITRE ATT&CK"
    ensures l.techniques == techniques
    ensures doc.title.Some? ==> l.name == doc.title.value
    ensures doc.title.None? ==> l.name == "MITRE ATT&CK NAVIGATOR LAYER"
  {
    Layer(Version, doc.title.GetOr(DefaultName), Domain, Description, techniques)
  }

  /** `convert_cis_to_attack`, with the crosswalk table as a parameter. */
  function ConvertCisToAttack(doc: ScanDoc, table: seq<MappingRow>): (l: Layer)
    ensures l.version == "4.5.0" && l.domain == "enterprise-attack"
    ensures l.name == if doc.title.Some? then doc.title.value else "MITRE ATT&CK NAVIGATOR LAYER"
    ensures IdsOf(l.techniques) == FirstSeen(Techniques(Entries(doc.rules, table)))
    ensures forall i :: 0 <= i < |l.techniques| ==>
              0.0 <= l.techniques[i].score <= 1.0 && IsHexColor(l.techniques[i].color)
  {
    BuildLayer(doc, GenerateTechniques(doc.rules, table))
  }

  // ---- Properties of the pipeline ----

  /** The technique IDs of a list of results. */
  function IdsOf(out: seq<TechniqueResult>): (ids: seq<string>)
    ensures |ids| == |out|
    ensures forall i :: 0 <= i < |out| ==> ids[i] == out[i].techniqueId
  {
    seq(|out|, i requires 0 <= i < |out| => out[i].techniqueId)
  }

  /**
   * One output entry per distinct technique of the entries, in
   * first-occurrence order, scored from exactly that technique's entries.
   */
  lemma GenerateSpec(rules: seq<Rule>, table: seq<MappingRow>)
    ensures var es := Entries(rules, table);
            var out := GenerateTechniques(rules, table);
            && IdsOf(out) == FirstSeen(Techniques(es))
            && forall i :: 0 <= i < |out| ==> out[i] == ResultFor(out[i].techniqueId, Expected(es, out[i].techniqueId))
  {
    var es := Entries(rules, table);
    AccumulateSpec(es);
    AccumulateValid(es);
  }

  /**
   * Splitting a technique's comment on newlines gives back its comment lines
   * in entry order, provided no rule id itself holds a newline.
   */
  lemma CommentLines(rules: seq<Rule>, table: seq<MappingRow>, i: nat)
    requires forall r :: r in rules ==> '\n' !in RuleIdOf(r)
    requires i < |GenerateTechniques(rules, table)|
    ensures var es := Entries(rules, table);
            var tr := GenerateTechniques(rules, table)[i];
            Split(tr.comment, '\n') == CommentsFor(es, tr.techniqueId)
  {
    var es := Entries(rules, table);
    GenerateSpec(rules, table);
    var tr := GenerateTechniques(rules, table)[i];
    var t := tr.techniqueId;
    var cs := CommentsFor(es, t);
    assert t in FirstSeen(Techniques(es));
    ExpectedBounds(es, t);
    forall k | 0 <= k < |cs|
      ensures '\n' !in cs[k]
    {
      assert cs[k] in cs;
      var e :| e in es && e.technique == t && cs[k] == Comment(e);
      EntriesFromRules(rules, table, e);
      CommentNoNewline(e);
    }
    SplitJoin(cs, '\n');
  }

  /** When every entry has the same pass flag, a technique's passes are all or none of its entries. */
  lemma {:induction false} UniformPasses(es: seq<Entry>, t: string, b: bool)
    requires forall e :: e in es ==> e.passed == b
    ensures PassFor(es, t) == (if b then TotalFor(es, t) else 0)
  {
    if |es| > 0 {
      var p := es[..|es| - 1];
      assert forall e :: e in p ==> e in es;
      UniformPasses(p, t, b);
    }
  }

  /** A technique with no passes is 0.0 in `#ff0033`; one with no failures is 1.0 in `#33cc33`. */
  lemma ResultForExtremes(t: string, c: Counter)
    requires 1 <= c.total && (c.pass == 0 || c.pass == c.total)
    ensures c.pass == 0 ==> ResultFor(t, c).score == 0.0 && ResultFor(t, c).color == "#ff0033"
    ensures c.pass == c.total ==> ResultFor(t, c).score == 1.0 && ResultFor(t, c).color == "#33cc33"
  {
    GradientEndpoints();
  }

  /**
   * If every rule fails, every technique scores 0.0 in `#ff0033`; if every
   * rule passes, every technique scores 1.0 in `#33cc33`.
   */
  lemma UniformResults(rules: seq<Rule>, table: seq<MappingRow>, b: bool)
    requires forall r :: r in rules ==> Passed(r) == b
    ensures forall tr :: tr in GenerateTechniques(rules, table) ==>
              tr.score == (if b then 1.0 else 0.0) && tr.color == (if b then "#33cc33" else "#ff0033")
  {
    var es := Entries(rules, table);
    var out := GenerateTechniques(rules, table);
    GenerateSpec(rules, table);
    forall e | e in es
      ensures e.passed == b
    {
      EntriesFromRules(rules, table, e);
    }
    forall tr | tr in out
      ensures tr.score == (if b then 1.0 else 0.0) && tr.color == (if b then "#33cc33" else "#ff0033")
    {
      var i :| 0 <= i < |out| && out[i] == tr;
      var t := tr.techniqueId;
      assert t in FirstSeen(Techniques(es));
      ExpectedBounds(es, t);
      UniformPasses(es, t, b);
      ResultForExtremes(t, Expected(es, t));
    }
  }

  /** The output lists exactly the techniques of the entries. */
  lemma OutputIds(rules: seq<Rule>, table: seq<MappingRow>, t: string)
    ensures t in IdsOf(GenerateTechniques(rules, table)) <==> t in Techniques(Entries(rules, table))
  {
    GenerateSpec(rules, table);
  }

  lemma TechniqueOfSomeEntry(es: seq<Entry>, t: string)
    ensures t in Techniques(es) <==> exists e :: e in es && e.technique == t
  {
    if t in Techniques(es) {
      var k :| 0 <= k < |es| && Techniques(es)[k] == t;
      assert es[k] in es;
    }
    if exists e :: e in es && e.technique == t {
      var e :| e in es && e.technique == t;
      var k :| 0 <= k < |es| && es[k] == e;
      assert Techniques(es)[k] == t;
    }
  }

  /** A technique appears in the output exactly when some rule produced an entry for it. */
  lemma TechniqueIdsCharacterized(rules: seq<Rule>, table: seq<MappingRow>, t: string)
    ensures t in IdsOf(GenerateTechniques(rules, table)) <==>
              exists r, e :: r in rules && e in RuleEntries(r, table) && e.technique == t
  {
    var es := Entries(rules, table);
    OutputIds(rules, table, t);
    TechniqueOfSomeEntry(es, t);
    forall e: Entry | e.technique == t
      ensures e in es <==> exists r :: r in rules && e in RuleEntries(r, table)
    {
      EntryOrigin(rules, table, e);
    }
  }

  /** Reordering the rules does not change which techniques the layer lists. */
  lemma OrderInvariance(rules1: seq<Rule>, rules2: seq<Rule>, table: seq<MappingRow>)
    requires multiset(rules1) == multiset(rules2)
    ensures forall t :: t in IdsOf(GenerateTechniques(rules1, table)) <==> t in IdsOf(GenerateTechniques(rules2, table))
  {
    forall t
      ensures t in IdsOf(GenerateTechniques(rules1, table)) <==> t in IdsOf(GenerateTechniques(rules2, table))
    {
      TechniqueIdsCharacterized(rules1, table, t);
      TechniqueIdsCharacterized(rules2, table, t);
      assert forall r :: r in rules1 <==> r in rules2 by {
        forall r
          ensures r in rules1 <==> r in rules2
        {
          assert r in rules1 <==> r in multiset(rules1);
          assert r in rules2 <==> r in multiset(rules2);
        }
      }
    }
  }

  // ---- Worked examples ----

  const ExampleId := "CIS_BENCH_v1_4.3.1"

  lemma JoinPair(a: string, b: string, d: char)
    ensures Join([a, b], d) == a + [d] + b
  {
    JoinCons(a, [b], d);
  }

  lemma ExampleIdParts()
    ensures Split(ExampleId, '_') == ["CIS", "BENCH", "v1", "4.3.1"]
  {
    var parts := ["CIS", "BENCH", "v1", "4.3.1"];
    JoinPair("v1", "4.3.1", '_');
    JoinCons("BENCH", ["v1", "4.3.1"], '_');
    assert ["BENCH"] + ["v1", "4.3.1"] == parts[1..];
    JoinCons("CIS", parts[1..], '_');
    assert [parts[0]] + parts[1..] == parts;
    assert Join(parts, '_') == ExampleId;
    SplitJoin(parts, '_');
  }

  lemma ExampleSafeguardParts()
    ensures Split("4.3.1", '.') == ["4", "3", "1"]
  {
    var segs := ["4", "3", "1"];
    JoinPair("3", "1", '.');
    JoinCons("4", ["3", "1"], '.');
    assert ["4"] + ["3", "1"] == segs;
    assert Join(segs, '.') == "4.3.1";
    SplitJoin(segs, '.');
  }

  lemma ExamplePart()
    ensures KeyOfPart("4.3.1") == RuleKey("4", "4.3")
  {
    ExampleSafeguardParts();
    assert "4.3.1"[1] == '.';
    DottedKey("4.3.1");
    assert "4" + ['.'] + "3" == "4.3";
  }

  /** `CIS_BENCH_v1_4.3.1` names control `4` and safeguard `4.3`. */
  lemma ExampleKey()
    ensures KeyOf(ExampleId) == Some(RuleKey("4", "4.3"))
  {
    ExampleIdParts();
    ExamplePart();
  }

  lemma SingleRuleEntries(rule: Rule, table: seq<MappingRow>)
    ensures Entries([rule], table) == RuleEntries(rule, table)
  {
    var xss := PerRule([rule], table);
    assert xss[..0] == [];
    assert Concat(xss) == Concat(xss[..0]) + xss[0];
  }

  /** A rule whose key selects exactly the rows `rows` contributes their techniques. */
  lemma ExampleRuleEntries(rule: Rule, table: seq<MappingRow>, rows: seq<MappingRow>)
    requires RuleIdOf(rule) == ExampleId
    requires Matches(table, RuleKey("4", "4.3")) == rows
    ensures Entries([rule], table) == RowEntries(rows, Passed(rule), ExampleId)
  {
    ExampleKey();
    SingleRuleEntries(rule, table);
  }

  lemma AccumulateOne(e: Entry)
    ensures Accumulate([e]) ==
              Aggregator([e.technique], map[e.technique := Counter(if e.passed then 1 else 0, 1, [Comment(e)])])
  {
    assert [e][..0] == [];
    assert Accumulate([e]) == Add(Empty, e);
    assert [] + [e.technique] == [e.technique];
    assert [] + [Comment(e)] == [Comment(e)];
  }

  lemma AccumulateTwice(e: Entry)
    ensures Accumulate([e, e]) ==
              Aggregator([e.technique], map[e.technique := Counter(if e.passed then 2 else 0, 2, [Comment(e), Comment(e)])])
  {
    assert [e, e][..1] == [e];
    AccumulateOne(e);
    assert Accumulate([e, e]) == Add(Accumulate([e]), e);
    assert [Comment(e)] + [Comment(e)] == [Comment(e), Comment(e)];
  }

  lemma AssembleOne(t: string, c: Counter)
    requires 1 <= c.total && c.pass <= c.total && |c.comments| == c.total
    ensures AssembleTechniques(Aggregator([t], map[t := c])) == [ResultFor(t, c)]
  {
    assert Valid(Aggregator([t], map[t := c]));
  }

  lemma GenerateOne(rules: seq<Rule>, table: seq<MappingRow>, t: string, c: Counter)
    requires Accumulate(Entries(rules, table)) == Aggregator([t], map[t := c])
    requires 1 <= c.total && c.pass <= c.total && |c.comments| == c.total
    ensures GenerateTechniques(rules, table) == [ResultFor(t, c)]
  {
    AssembleOne(t, c);
  }

  lemma CommentText(e: Entry)
    ensures Join([Comment(e)], '\n') == e.ruleId + (if e.passed then " : Pass" else " : Fail")
  {
    if e.passed {
      assert " : " + "Pass" == " : Pass";
    } else {
      assert " : " + "Fail" == " : Fail";
    }
  }

  lemma CommentTwice(e: Entry)
    requires e.passed
    ensures Join([Comment(e), Comment(e)], '\n') == e.ruleId + " : Pass" + "\n" + e.ruleId + " : Pass"
  {
    CommentText(e);
    JoinPair(Comment(e), Comment(e), '\n');
  }

  /** A failing rule whose safeguard prefix-matches one crosswalk row gives that technique 0.0 in `#ff0033`. */
  lemma ScenarioFailingRule()
    ensures var rule := Rule(Some(ExampleId), None, Some("Fail"));
            var row := MappingRow(Some("4.3"), Some("4"), Str("T1078"), Absent);
            GenerateTechniques([rule], [row]) == [TechniqueResult("T1078", 0.0, "#ff0033", ExampleId + " : Fail")]
  {
    var rule := Rule(Some(ExampleId), None, Some("Fail"));
    var row := MappingRow(Some("4.3"), Some("4"), Str("T1078"), Absent);
    assert !Passed(rule) by {
      assert Lower("Fail") == "fail";
    }
    assert PrefixSelected(row, "4.3") by {
      assert "4.3"[..3] == "4.3";
    }
    assert PrefixRows([row], "4.3") == [row];
    var e := Entry("T1078", false, ExampleId);
    assert RowEntries([row], false, ExampleId) == [e];
    ExampleRuleEntries(rule, [row], [row]);
    var c := Counter(0, 1, [Comment(e)]);
    AccumulateOne(e);
    GenerateOne([rule], [row], "T1078", c);
    ResultForExtremes("T1078", c);
    CommentText(e);
  }

  /**
   * A technique named on two selected rows (once through each ID column) is
   * counted twice for the same rule.
   */
  lemma ScenarioDuplicateRows()
    ensures var rule := Rule(Some(ExampleId), None, Some("pass"));
            var a := MappingRow(Some("4.3"), Some("4"), Str("T1078"), Absent);
            var b := MappingRow(Some("4.3.1"), Some("4"), Absent, Str("T1078"));
            GenerateTechniques([rule], [a, b]) ==
              [TechniqueResult("T1078", 1.0, "#33cc33", ExampleId + " : Pass" + "\n" + ExampleId + " : Pass")]
  {
    var rule := Rule(Some(ExampleId), None, Some("pass"));
    var a := MappingRow(Some("4.3"), Some("4"), Str("T1078"), Absent);
    var b := MappingRow(Some("4.3.1"), Some("4"), Absent, Str("T1078"));
    var e := Entry("T1078", true, ExampleId);
    ScenarioEntries(rule, a, b, e);
    var c := Counter(2, 2, [Comment(e), Comment(e)]);
    AccumulateTwice(e);
    GenerateOne([rule], [a, b], "T1078", c);
    ScenarioResult(e, c);
  }

  /** Both rows of the duplicate-rows scenario match the rule, each giving the same passing entry. */
  lemma ScenarioEntries(rule: Rule, a: MappingRow, b: MappingRow, e: Entry)
    requires rule == Rule(Some(ExampleId), None, Some("pass"))
    requires a == MappingRow(Some("4.3"), Some("4"), Str("T1078"), Absent)
    requires b == MappingRow(Some("4.3.1"), Some("4"), Absent, Str("T1078"))
    requires e == Entry("T1078", true, ExampleId)
    ensures Entries([rule], [a, b]) == [e, e]
  {
    assert Passed(rule) by {
      assert Lower("pass")[0] == 'p';
    }
    ScenarioMatches(a, b);
    ExampleRuleEntries(rule, [a, b], [a, b]);
    ScenarioRows(a, b, e);
  }

  lemma ScenarioMatches(a: MappingRow, b: MappingRow)
    requires a == MappingRow(Some("4.3"), Some("4"), Str("T1078"), Absent)
    requires b == MappingRow(Some("4.3.1"), Some("4"), Absent, Str("T1078"))
    ensures Matches([a, b], RuleKey("4", "4.3")) == [a, b]
  {
    assert PrefixSelected(a, "4.3") by {
      assert "4.3"[..3] == "4.3";
    }
    assert PrefixSelected(b, "4.3") by {
      assert "4.3.1"[..3] == "4.3";
    }
    assert [a, b][1..] == [b];
    assert PrefixRows([b], "4.3") == [b] + PrefixRows([], "4.3");
    assert PrefixRows([a, b], "4.3") == [a] + PrefixRows([b], "4.3");
  }

  lemma ScenarioRows(a: MappingRow, b: MappingRow, e: Entry)
    requires a == MappingRow(Some("4.3"), Some("4"), Str("T1078"), Absent)
    requires b == MappingRow(Some("4.3.1"), Some("4"), Absent, Str("T1078"))
    requires e == Entry("T1078", true, ExampleId)
    ensures RowEntries([a, b], true, ExampleId) == [e, e]
  {
    assert [a, b][1..] == [b];
    assert RowEntries([b], true, ExampleId) == [e] + RowEntries([], true, ExampleId);
    assert RowEntries([a, b], true, ExampleId) == [e] + RowEntries([b], true, ExampleId);
  }

  /** Two passing comments of one rule give full marks and the comments joined by a newline. */
  lemma ScenarioResult(e: Entry, c: Counter)
    requires e == Entry("T1078", true, ExampleId)
    requires c == Counter(2, 2, [Comment(e), Comment(e)])
    ensures ResultFor("T1078", c) ==
              TechniqueResult("T1078", 1.0, "#33cc33", ExampleId + " : Pass" + "\n" + ExampleId + " : Pass")
  {
    ResultForExtremes("T1078", c);
    CommentTwice(e);
  }
}

=== FILE: database.dfy ===
/**
 * File records as the SQLite layer returns them: the joined query yields one
 * row per (file, tag) pair, and consecutive rows of one file are folded into
 * a single record.
 */
module Database {
  import opened Wrappers

  /** One `{key: value}` tag of a file. */
  datatype Tag = Tag(key: string, value: string)

  /** The `FileMetadata` record. */
  datatype FileMetadata = FileMetadata(
    id: string,
    ipAddress: string,
    hostName: string,
    fileName: string,
    timeCreated: string,
    result: string,
    tags: seq<Tag>)

  /**
   * One row of the file/tag join: the file's columns, then the tag's key and
   * value (`None` when the file has no tag on this row).
   */
  datatype SqlRow = SqlRow(
    id: string,
    ipAddress: string,
    hostName: string,
    fileName: string,
    timeCreated: string,
    result: string,
    tagKey: Option<string>,
    tagValue: Option<string>)

  /** `row[6] and row[7]`: both tag columns are non-null and non-empty. */
  predicate HasTag(row: SqlRow) {
    row.tagKey.Some? && row.tagKey.value != "" && row.tagValue.Some? && row.tagValue.value != ""
  }

  function TagOf(row: SqlRow): Tag
    requires HasTag(row)
  {
    Tag(row.tagKey.value, row.tagValue.value)
  }

  /** The tag row `x` contributes on its own: none unless both tag columns are set. */
  function RowTags(x: SqlRow): (tags: seq<Tag>)
    ensures |tags| <= 1
    ensures |tags| == 1 <==> HasTag(x)
  {
    if HasTag(x) then [TagOf(x)] else []
  }

  /** The qualifying tags of some rows, in row order. */
  function TagsOf(rows: seq<SqlRow>): (tags: seq<Tag>)
    ensures |tags| <= |rows|
  {
    if |rows| == 0 then []
    else TagsOf(rows[..|rows| - 1]) + RowTags(rows[|rows| - 1])
  }

  /** A tag is collected exactly when some row carries it. */
  lemma {:induction false} TagsOfMember(rows: seq<SqlRow>, t: Tag)
    ensures t in TagsOf(rows) <==> exists r :: r in rows && HasTag(r) && t == TagOf(r)
  {
    if |rows| > 0 {
      var p := rows[..|rows| - 1];
      var x := rows[|rows| - 1];
      TagsOfMember(p, t);
      assert rows == p + [x];
      if t in TagsOf(rows) && t !in TagsOf(p) {
        assert HasTag(x) && t == TagOf(x);
      }
    }
  }

  /** How many rows carry tag `t` with both tag columns truthy. */
  function TagCount(rows: seq<SqlRow>, t: Tag): nat {
    |set i | 0 <= i < |rows| && HasTag(rows[i]) && TagOf(rows[i]) == t|
  }

  /** Each tag is collected once for every row that carries it. */
  lemma {:induction false} TagsOfCount(rows: seq<SqlRow>, t: Tag)
    ensures multiset(TagsOf(rows))[t] == TagCount(rows, t)
  {
    if |rows| > 0 {
      var p := rows[..|rows| - 1];
      var x := rows[|rows| - 1];
      TagsOfCount(p, t);
      assert rows == p + [x];
      TagCountSnoc(p, x, t);
      assert multiset(TagsOf(rows)) == multiset(TagsOf(p)) + multiset(RowTags(x));
    }
  }

  /** One more row adds one to the count of its own tag and nothing else. */
  lemma TagCountSnoc(p: seq<SqlRow>, x: SqlRow, t: Tag)
    ensures TagCount(p + [x], t) == TagCount(p, t) + if HasTag(x) && TagOf(x) == t then 1 else 0
  {
    var before := set i | 0 <= i < |p| && HasTag(p[i]) && TagOf(p[i]) == t;
    var after := set i | 0 <= i < |p + [x]| && HasTag((p + [x])[i]) && TagOf((p + [x])[i]) == t;
    if HasTag(x) && TagOf(x) == t {
      assert after == before + {|p|} by {
        SnocIndices(p, x, t);
      }
    } else {
      assert after == before by {
        SnocIndices(p, x, t);
      }
    }
  }

  /** The rows of `p + [x]` carrying `t` are those of `p`, and `x` at index `|p|` when it carries `t`. */
  lemma SnocIndices(p: seq<SqlRow>, x: SqlRow, t: Tag)
    ensures forall i :: 0 <= i < |p| + 1 ==>
              ((HasTag((p + [x])[i]) && TagOf((p + [x])[i]) == t) <==>
               (if i < |p| then HasTag(p[i]) && TagOf(p[i]) == t else HasTag(x) && TagOf(x) == t))
  {
  }

  /** Collecting tags distributes over concatenation: earlier rows' tags come first. */
  lemma {:induction false} TagsOfAppend(a: seq<SqlRow>, b: seq<SqlRow>)
    ensures TagsOf(a + b) == TagsOf(a) + TagsOf(b)
    decreases |b|
  {
    if |b| == 0 {
      assert a + b == a;
    } else {
      var q := b[..|b| - 1];
      assert (a + b)[..|a + b| - 1] == a + q;
      assert (a + b)[|a + b| - 1] == b[|b| - 1];
      TagsOfAppend(a, q);
    }
  }

  /** A record with the scalar columns of `row` and the given tags. */
  function RecordOf(row: SqlRow, tags: seq<Tag>): FileMetadata {
    FileMetadata(row.id, row.ipAddress, row.hostName, row.fileName, row.timeCreated, row.result, tags)
  }

  /** `db_get_file_by_id` after `fetchall`: `None` for no rows, else `rows[0]` with every row's tags. */
  function GetFileById(rows: seq<SqlRow>): (r: Option<FileMetadata>)
    ensures r.None? <==> |rows| == 0
    ensures r.Some? ==>
              && r.value.id == rows[0].id && r.value.ipAddress == rows[0].ipAddress
              && r.value.hostName == rows[0].hostName && r.value.fileName == rows[0].fileName
              && r.value.timeCreated == rows[0].timeCreated && r.value.result == rows[0].result
    ensures r.Some? ==> forall t :: t in r.value.tags <==> exists x :: x in rows && HasTag(x) && t == TagOf(x)
    ensures r.Some? ==> forall t :: multiset(r.value.tags)[t] == TagCount(rows, t)
  {
    if |rows| == 0 then None
    else
      assert forall t :: t in TagsOf(rows) <==> exists x :: x in rows && HasTag(x) && t == TagOf(x) by {
        forall t
          ensures t in TagsOf(rows) <==> exists x :: x in rows && HasTag(x) && t == TagOf(x)
        {
          TagsOfMember(rows, t);
        }
      }
      assert forall t :: multiset(TagsOf(rows))[t] == TagCount(rows, t) by {
        forall t
          ensures multiset(TagsOf(rows))[t] == TagCount(rows, t)
        {
          TagsOfCount(rows, t);
        }
      }
      Some(RecordOf(rows[0], TagsOf(rows)))
  }

  /** One step of the `db_get_all_files` loop. */
  function AddRow(records: seq<FileMetadata>, row: SqlRow): (r: seq<FileMetadata>)
    ensures |r| > 0 && r[|r| - 1].id == row.id
  {
    if |records| == 0 || records[|records| - 1].id != row.id then
      records + [RecordOf(row, RowTags(row))]
    else
      var last := records[|records| - 1];
      if HasTag(row) then records[..|records| - 1] + [last.(tags := last.tags + [TagOf(row)])]
      else records
  }

  /** `db_get_all_files` after `fetchall`. */
  function GroupRows(rows: seq<SqlRow>): (r: seq<FileMetadata>)
    ensures |rows| > 0 ==> |r| > 0 && r[|r| - 1].id == rows[|rows| - 1].id
  {
    if |rows| == 0 then [] else AddRow(GroupRows(rows[..|rows| - 1]), rows[|rows| - 1])
  }

  // ---- Reference definition: maximal runs of equal ids ----

  /** Row `i` opens a run: it is first, or its id differs from the row before. */
  predicate RunStart(rows: seq<SqlRow>, i: int)
    requires 0 <= i < |rows|
  {
    i == 0 || rows[i - 1].id != rows[i].id
  }

  /** The positions of the run starts, in order. */
  function RunStarts(rows: seq<SqlRow>): (starts: seq<nat>)
    ensures forall k :: 0 <= k < |starts| ==> starts[k] < |rows|
    ensures forall k, l :: 0 <= k < l < |starts| ==> starts[k] < starts[l]
    ensures |rows| > 0 ==> |starts| > 0 && starts[0] == 0
  {
    if |rows| == 0 then []
    else
      var p := rows[..|rows| - 1];
      var s := RunStarts(p);
      if RunStart(rows, |rows| - 1) then s + [|rows| - 1] else s
  }

  /** `RunStarts` lists exactly the run starts. */
  lemma {:induction false} RunStartsExact(rows: seq<SqlRow>)
    ensures forall k :: 0 <= k < |RunStarts(rows)| ==> RunStart(rows, RunStarts(rows)[k])
    ensures forall i :: 0 <= i < |rows| && RunStart(rows, i) ==> i in RunStarts(rows)
  {
    if |rows| > 0 {
      var p := rows[..|rows| - 1];
      RunStartsExact(p);
      assert forall i :: 0 <= i < |p| ==> (RunStart(p, i) <==> RunStart(rows, i));
    }
  }

  /** The end (exclusive) of run `k`. */
  function RunEnd(rows: seq<SqlRow>, k: nat): (e: nat)
    requires k < |RunStarts(rows)|
    ensures RunStarts(rows)[k] < e <= |rows|
  {
    var starts := RunStarts(rows);
    if k + 1 < |starts| then starts[k + 1] else |rows|
  }

  /** The record the `k`-th run of rows stands for: its first row's columns and all its tags. */
  function RunRecord(rows: seq<SqlRow>, k: nat): FileMetadata
    requires k < |RunStarts(rows)|
  {
    var starts := RunStarts(rows);
    RecordOf(rows[starts[k]], TagsOf(rows[starts[k]..RunEnd(rows, k)]))
  }

  /** What the grouping promises for `rows`: one record per run, built by `RunRecord`. */
  predicate GroupedByRuns(rows: seq<SqlRow>) {
    && |GroupRows(rows)| == |RunStarts(rows)|
    && forall k :: 0 <= k < |GroupRows(rows)| ==> GroupRows(rows)[k] == RunRecord(rows, k)
  }

  /**
   * The grouping yields one record per maximal run of equal ids, in row
   * order, each built from the run's first row and the run's qualifying tags.
   */
  lemma {:induction false} GroupRowsSpec(rows: seq<SqlRow>)
    ensures |GroupRows(rows)| == |RunStarts(rows)|
    ensures forall k :: 0 <= k < |GroupRows(rows)| ==> GroupRows(rows)[k] == RunRecord(rows, k)
  {
    if |rows| == 0 {
      return;
    }
    GroupRowsSpec(rows[..|rows| - 1]);
    if RunStart(rows, |rows| - 1) {
      GroupNewRun(rows);
    } else {
      GroupSameRun(rows);
    }
  }

  /** A row whose id differs from its predecessor's opens a new record. */
  lemma GroupNewRun(rows: seq<SqlRow>)
    requires |rows| > 0 && RunStart(rows, |rows| - 1)
    requires GroupedByRuns(rows[..|rows| - 1])
    ensures GroupedByRuns(rows)
  {
    var p := rows[..|rows| - 1];
    var sp := RunStarts(p);
    NewRunAppends(rows);
    NewRunRecord(rows);
    forall k | 0 <= k < |sp|
      ensures GroupRows(rows)[k] == RunRecord(rows, k)
    {
      RunRecordSame(rows, k);
    }
  }

  /** Opening a run appends one record and leaves the earlier ones alone. */
  lemma NewRunAppends(rows: seq<SqlRow>)
    requires |rows| > 0 && RunStart(rows, |rows| - 1)
    ensures GroupRows(rows) == GroupRows(rows[..|rows| - 1]) + [RecordOf(rows[|rows| - 1], RowTags(rows[|rows| - 1]))]
  {
  }

  /** The run a row opens has that row's columns and tags. */
  lemma NewRunRecord(rows: seq<SqlRow>)
    requires |rows| > 0 && RunStart(rows, |rows| - 1)
    ensures RunStarts(rows) == RunStarts(rows[..|rows| - 1]) + [|rows| - 1]
    ensures RunRecord(rows, |RunStarts(rows)| - 1) == RecordOf(rows[|rows| - 1], RowTags(rows[|rows| - 1]))
  {
    RunStartsSnoc(rows);
    var x := rows[|rows| - 1];
    LastRunRecord(rows);
    assert rows[|rows| - 1..] == [x];
    TagsOne(x);
  }

  /** A row with its predecessor's id joins the last record. */
  lemma GroupSameRun(rows: seq<SqlRow>)
    requires |rows| > 0 && !RunStart(rows, |rows| - 1)
    requires GroupedByRuns(rows[..|rows| - 1])
    ensures GroupedByRuns(rows)
  {
    var p := rows[..|rows| - 1];
    var last := |RunStarts(p)| - 1;
    SameRunGrows(rows);
    SameRunRecord(rows);
    forall k | 0 <= k < last
      ensures GroupRows(rows)[k] == RunRecord(rows, k)
    {
      RunRecordSame(rows, k);
    }
  }

  /** Joining the last run extends the last record's tags and keeps the rest. */
  lemma SameRunGrows(rows: seq<SqlRow>)
    requires |rows| > 0 && !RunStart(rows, |rows| - 1)
    ensures var g := GroupRows(rows[..|rows| - 1]);
            |g| > 0 &&
            GroupRows(rows) == g[..|g| - 1] + [g[|g| - 1].(tags := g[|g| - 1].tags + RowTags(rows[|rows| - 1]))]
  {
    var g := GroupRows(rows[..|rows| - 1]);
    var x := rows[|rows| - 1];
    var last := |g| - 1;
    if !HasTag(x) {
      assert g[last].(tags := g[last].tags + RowTags(x)) == g[last];
      assert g[..last] + [g[last]] == g;
    }
  }

  /** The last run, grown by one row, gains that row's tags. */
  lemma SameRunRecord(rows: seq<SqlRow>)
    requires |rows| > 0 && !RunStart(rows, |rows| - 1)
    ensures RunStarts(rows) == RunStarts(rows[..|rows| - 1])
    ensures var last := |RunStarts(rows)| - 1;
            RunRecord(rows, last) ==
            var r := RunRecord(rows[..|rows| - 1], last); r.(tags := r.tags + RowTags(rows[|rows| - 1]))
  {
    var p := rows[..|rows| - 1];
    var x := rows[|rows| - 1];
    RunStartsSnoc(rows);
    var s := RunStarts(p);
    var a := s[|s| - 1];
    assert a < |p|;
    assert TagsOf(rows[a..]) == TagsOf(p[a..]) + RowTags(x) by {
      SliceSnoc(rows, a);
      TagsSnoc(p[a..], x);
    }
    LastRunRecord(rows);
    LastRunRecord(p);
  }

  lemma SliceSnoc<T>(s: seq<T>, a: nat)
    requires a < |s|
    ensures s[a..] == s[..|s| - 1][a..] + [s[|s| - 1]]
  {
  }

  /** The last run's record: from its first row to the end of the rows. */
  lemma LastRunRecord(rows: seq<SqlRow>)
    requires |rows| > 0
    ensures var s := RunStarts(rows);
            RunRecord(rows, |s| - 1) == RecordOf(rows[s[|s| - 1]], TagsOf(rows[s[|s| - 1]..]))
  {
    var s := RunStarts(rows);
    assert RunEnd(rows, |s| - 1) == |rows|;
    assert rows[s[|s| - 1]..|rows|] == rows[s[|s| - 1]..];
  }

  /** Adding a row leaves every run record but the last unchanged. */
  lemma RunRecordSame(rows: seq<SqlRow>, k: nat)
    requires |rows| > 0
    requires k < |RunStarts(rows[..|rows| - 1])|
    requires RunStart(rows, |rows| - 1) || k + 1 < |RunStarts(rows[..|rows| - 1])|
    ensures k < |RunStarts(rows)|
    ensures RunRecord(rows, k) == RunRecord(rows[..|rows| - 1], k)
  {
    RunEndSame(rows, k);
  }

  lemma TagsOne(x: SqlRow)
    ensures TagsOf([x]) == RowTags(x)
  {
    assert [x][..0] == [];
  }

  lemma TagsSnoc(p: seq<SqlRow>, x: SqlRow)
    ensures TagsOf(p + [x]) == TagsOf(p) + RowTags(x)
  {
    assert (p + [x])[..|p|] == p;
  }

  /** Adding a row keeps the ends of all runs but the last. */
  lemma RunEndSame(rows: seq<SqlRow>, k: nat)
    requires |rows| > 0
    requires k < |RunStarts(rows[..|rows| - 1])|
    requires RunStart(rows, |rows| - 1) || k + 1 < |RunStarts(rows[..|rows| - 1])|
    ensures k < |RunStarts(rows)|
    ensures RunStarts(rows)[k] == RunStarts(rows[..|rows| - 1])[k]
    ensures RunEnd(rows, k) == RunEnd(rows[..|rows| - 1], k)
    ensures rows[RunStarts(rows)[k]] == rows[..|rows| - 1][RunStarts(rows)[k]]
    ensures rows[RunStarts(rows)[k]..RunEnd(rows, k)] == rows[..|rows| - 1][RunStarts(rows)[k]..RunEnd(rows, k)]
  {
    var p := rows[..|rows| - 1];
    RunStartsSnoc(rows);
    var s := RunStarts(rows);
    var sp := RunStarts(p);
    assert s[k] == sp[k];
    if k + 1 < |sp| {
      assert s[k + 1] == sp[k + 1];
    }
    assert RunEnd(rows, k) == RunEnd(p, k);
    var a := s[k];
    var e := RunEnd(rows, k);
    assert e <= |p|;
    forall j | 0 <= j < e - a
      ensures rows[a..e][j] == p[a..e][j]
    {
      assert rows[a + j] == p[a + j];
    }
    assert rows[a..e] == p[a..e];
  }

  lemma RunStartsSnoc(rows: seq<SqlRow>)
    requires |rows| > 0
    ensures RunStarts(rows) ==
              if RunStart(rows, |rows| - 1) then RunStarts(rows[..|rows| - 1]) + [|rows| - 1]
              else RunStarts(rows[..|rows| - 1])
  {
  }

  /** When all rows share one id there is a single run, opened by the first row. */
  lemma {:induction false} SingleRun(rows: seq<SqlRow>)
    requires |rows| > 0
    requires forall i :: 0 <= i < |rows| ==> rows[i].id == rows[0].id
    ensures RunStarts(rows) == [0]
  {
    RunStartsSnoc(rows);
    if |rows| > 1 {
      var p := rows[..|rows| - 1];
      assert p[0] == rows[0];
      SingleRun(p);
      assert rows[|rows| - 2].id == rows[|rows| - 1].id;
    }
  }

  /** When all rows share one id, grouping gives exactly the by-id record. */
  lemma {:induction false} SingleIdAgrees(rows: seq<SqlRow>)
    requires |rows| > 0
    requires forall i :: 0 <= i < |rows| ==> rows[i].id == rows[0].id
    ensures GroupRows(rows) == [GetFileById(rows).value]
  {
    if |rows| > 1 {
      var p := rows[..|rows| - 1];
      var x := rows[|rows| - 1];
      assert p[0] == rows[0];
      SingleIdAgrees(p);
      var r := GroupRows(p)[0];
      assert r.id == x.id;
      assert TagsOf(rows) == r.tags + RowTags(x);
      assert GroupRows(rows) == [r.(tags := r.tags + RowTags(x))] by {
        if !HasTag(x) {
          assert r.tags + RowTags(x) == r.tags;
        }
      }
    } else {
      TagsOne(rows[0]);
      assert rows == [rows[0]];
    }
  }

  /** The grouping loop as written. */
  method GetAllFiles(rows: seq<SqlRow>) returns (records: seq<FileMetadata>)
    ensures |records| == |RunStarts(rows)|
    ensures forall k :: 0 <= k < |records| ==> records[k] == RunRecord(rows, k)
  {
    records := [];
    var i := 0;
    while i < |rows|
      invariant 0 <= i <= |rows|
      invariant records == GroupRows(rows[..i])
    {
      assert rows[..i + 1][..i] == rows[..i];
      records := AddRow(records, rows[i]);
      i := i + 1;
    }
    assert rows[..i] == rows;
    GroupRowsSpec(rows);
  }
}

=== FILE: db_methods.dfy ===
/**
 * The query-building pieces of the file listing: equality and range filters
 * read as predicates over one column value, the removal of the current
 * filter when counting facet options, the merge of filtered and unfiltered
 * facet counts, and the pagination window.
 */
module DbMethods {
  import opened Wrappers

  /** A column value or a requested option: SQL NULL (Python `None`), a string or an integer id. */
  datatype Value = Null | Text(s: string) | Id(i: int)

  /** The option that asks for NULL under its other spelling. */
  const NullText := Text("null")

  // ---- compute_filter ----

  /** One disjunct of an equality filter. */
  datatype Disjunct = IsNull | InSet(options: set<Value>)

  /** The options of a request, as the set they are put into. */
  function OptionSet(options: seq<Value>): set<Value> {
    set o | o in options
  }

  /** Whether NULL was requested, under either spelling. */
  predicate NullRequested(options: seq<Value>) {
    Null in options || NullText in options
  }

  /**
   * `compute_filter`: an `IS NULL` disjunct when NULL was requested, an `IN`
   * disjunct over the remaining options when any are left, `None` when
   * neither.
   */
  function ComputeFilter(options: seq<Value>): (r: Option<seq<Disjunct>>)
    ensures r.None? <==> |options| == 0
    ensures r.Some? ==> 1 <= |r.value| <= 2
  {
    var rest := OptionSet(options) - {Null, NullText};
    var filters := (if NullRequested(options) then [IsNull] else []) + (if rest != {} then [InSet(rest)] else []);
    assert |options| > 0 ==> NullRequested(options) || options[0] in rest by {
      if |options| > 0 {
        assert options[0] in OptionSet(options);
      }
    }
    if |filters| == 0 then None else Some(filters)
  }

  /** SQL truth of one disjunct on a column value: `IN` never holds for NULL. */
  predicate HoldsOne(d: Disjunct, v: Value) {
    match d
    case IsNull => v == Null
    case InSet(options) => v != Null && v in options
  }

  /** `or_(*filters)` on a column value. */
  predicate Holds(filters: seq<Disjunct>, v: Value) {
    exists k :: 0 <= k < |filters| && HoldsOne(filters[k], v)
  }

  /**
   * A row passes exactly when its value is NULL and NULL was requested, or
   * its value is one of the options other than the string `"null"`.
   */
  lemma ComputeFilterMatches(options: seq<Value>, v: Value)
    requires |options| > 0
    ensures Holds(ComputeFilter(options).value, v) <==>
              (v == Null && NullRequested(options)) || (v != Null && v != NullText && v in options)
  {
    var f := ComputeFilter(options).value;
    var rest := OptionSet(options) - {Null, NullText};
    if v != Null && v != NullText && v in options {
      assert v in rest;
      var k := if NullRequested(options) then 1 else 0;
      assert HoldsOne(f[k], v);
    }
    if v == Null && NullRequested(options) {
      assert HoldsOne(f[0], v);
    }
  }

  /** Only the set of options matters: order and repetition do not. */
  lemma ComputeFilterSetInvariant(a: seq<Value>, b: seq<Value>)
    requires OptionSet(a) == OptionSet(b)
    ensures ComputeFilter(a) == ComputeFilter(b)
  {
    assert NullRequested(a) == NullRequested(b) by {
      assert Null in a <==> Null in OptionSet(a);
      assert Null in b <==> Null in OptionSet(b);
      assert NullText in a <==> NullText in OptionSet(a);
      assert NullText in b <==> NullText in OptionSet(b);
    }
    if |a| > 0 {
      assert a[0] in OptionSet(a);
    }
    if |b| > 0 {
      assert b[0] in OptionSet(b);
    }
  }

  /** `None` and `"null"` ask for the same thing. */
  lemma NullSpellings(options: seq<Value>)
    ensures ComputeFilter(options + [Null]) == ComputeFilter(options + [NullText])
  {
    var a := options + [Null];
    var b := options + [NullText];
    assert OptionSet(a) - {Null, NullText} == OptionSet(b) - {Null, NullText};
    assert NullRequested(a) && NullRequested(b);
  }

  /** Asking for NULL gives exactly one `IS NULL` disjunct, first, however often it was asked. */
  lemma SingleNullDisjunct(options: seq<Value>)
    requires NullRequested(options)
    ensures ComputeFilter(options).Some? && ComputeFilter(options).value[0] == IsNull
    ensures forall k :: 1 <= k < |ComputeFilter(options).value| ==> ComputeFilter(options).value[k] != IsNull
  {
  }

  // ---- compute_filter_minmax ----

  /** One conjunct of a range filter. */
  datatype Bound = AtLeast(lo: int) | AtMost(hi: int)

  /** `compute_filter_minmax`: a conjunct per present bound, `None` when neither is. */
  function ComputeFilterMinMax(lo: Option<int>, hi: Option<int>): (r: Option<seq<Bound>>)
    ensures r.None? <==> lo.None? && hi.None?
    ensures r.Some? ==> 1 <= |r.value| <= 2
  {
    var filters := (if lo.Some? then [AtLeast(lo.value)] else []) + (if hi.Some? then [AtMost(hi.value)] else []);
    if |filters| == 0 then None else Some(filters)
  }

  /** SQL truth of one conjunct on a nullable column: a comparison with NULL never holds. */
  predicate Within(b: Bound, t: Option<int>) {
    t.Some? &&
    match b
    case AtLeast(lo) => t.value >= lo
    case AtMost(hi) => t.value <= hi
  }

  /** `and_(*filters)` on a nullable column. */
  predicate WithinAll(bounds: seq<Bound>, t: Option<int>) {
    forall k :: 0 <= k < |bounds| ==> Within(bounds[k], t)
  }

  /** Both bounds are inclusive, and a NULL time never passes. */
  lemma MinMaxMatches(lo: Option<int>, hi: Option<int>, t: Option<int>)
    requires lo.Some? || hi.Some?
    ensures WithinAll(ComputeFilterMinMax(lo, hi).value, t) <==>
              t.Some? && (lo.None? || lo.value <= t.value) && (hi.None? || t.value <= hi.value)
  {
    var f := ComputeFilterMinMax(lo, hi).value;
    if lo.Some? {
      assert f[0] == AtLeast(lo.value);
    }
    if hi.Some? {
      assert f[|f| - 1] == AtMost(hi.value);
    }
  }

  /** Equal bounds select exactly the rows at that instant. */
  lemma MinMaxSingleInstant(x: int, t: Option<int>)
    ensures WithinAll(ComputeFilterMinMax(Some(x), Some(x)).value, t) <==> t == Some(x)
  {
    MinMaxMatches(Some(x), Some(x), t);
  }

  // ---- exclude_filter ----

  /**
   * `exclude_filter`: the filters, in order, without the absent ones and
   * without the current one. Filters are compared by identity, modelled as a
   * token per filter object.
   */
  function ExcludeFilter<F(==)>(current: Option<F>, filters: seq<Option<F>>): (r: seq<F>)
    ensures |r| <= |filters|
    ensures forall i :: 0 <= i < |r| ==> Some(r[i]) in filters && Some(r[i]) != current
    ensures forall i :: 0 <= i < |filters| && filters[i].Some? && filters[i] != current ==> filters[i].value in r
  {
    if |filters| == 0 then []
    else
      var x := filters[|filters| - 1];
      ExcludeFilter(current, filters[..|filters| - 1]) + (if x.Some? && x != current then [x.value] else [])
  }

  /** A filter is kept exactly when it is present and is not the current one. */
  lemma {:induction false} ExcludeMember<F>(current: Option<F>, filters: seq<Option<F>>, f: F)
    ensures f in ExcludeFilter(current, filters) <==> Some(f) in filters && Some(f) != current
  {
    if |filters| > 0 {
      var p := filters[..|filters| - 1];
      ExcludeMember(current, p, f);
      assert filters == p + [filters[|filters| - 1]];
    }
  }

  /** The kept filters stay in their order: excluding distributes over concatenation. */
  lemma {:induction false} ExcludeAppend<F>(current: Option<F>, a: seq<Option<F>>, b: seq<Option<F>>)
    ensures ExcludeFilter(current, a + b) == ExcludeFilter(current, a) + ExcludeFilter(current, b)
    decreases |b|
  {
    if |b| == 0 {
      assert a + b == a;
    } else {
      var q := b[..|b| - 1];
      var x := b[|b| - 1];
      var tail := if x.Some? && x != current then [x.value] else [];
      assert (a + b)[..|a + b| - 1] == a + q;
      assert ExcludeFilter(current, a + b) == ExcludeFilter(current, a + q) + tail;
      assert ExcludeFilter(current, b) == ExcludeFilter(current, q) + tail;
      ExcludeAppend(current, a, q);
    }
  }

  /** Wraps kept filters back into the list shape. */
  function Present<F>(fs: seq<F>): (r: seq<Option<F>>)
    ensures |r| == |fs|
    ensures forall k :: 0 <= k < |fs| ==> r[k] == Some(fs[k])
  {
    seq(|fs|, k requires 0 <= k < |fs| => Some(fs[k]))
  }

  /** A filter list with nothing absent and without the current filter is left as it is. */
  lemma {:induction false} ExcludeKeepsClean<F>(current: Option<F>, fs: seq<F>)
    requires current.None? || current.value !in fs
    ensures ExcludeFilter(current, Present(fs)) == fs
  {
    if |fs| > 0 {
      var q := fs[..|fs| - 1];
      var last := fs[|fs| - 1];
      assert fs == q + [last];
      ExcludeKeepsClean(current, q);
      ExcludePresentSnoc(current, q, last);
    }
  }

  /** One more clean filter at the end is kept at the end. */
  lemma ExcludePresentSnoc<F>(current: Option<F>, q: seq<F>, last: F)
    requires Some(last) != current
    ensures ExcludeFilter(current, Present(q + [last])) == ExcludeFilter(current, Present(q)) + [last]
  {
    var p := Present(q + [last]);
    assert p[..|p| - 1] == Present(q);
    assert p[|p| - 1] == Some(last);
    assert ExcludeFilter(current, p) == ExcludeFilter(current, p[..|p| - 1]) + [last];
  }

  /** Excluding twice is excluding once. */
  lemma ExcludeIdempotent<F>(current: Option<F>, filters: seq<Option<F>>)
    ensures ExcludeFilter(current, Present(ExcludeFilter(current, filters))) == ExcludeFilter(current, filters)
  {
    if current.Some? {
      ExcludeMember(current, filters, current.value);
    }
    ExcludeKeepsClean(current, ExcludeFilter(current, filters));
  }

  // ---- the facet-count merge of get_filters_data ----

  /** A `(name, id, count)` row of a grouped facet query; the join may leave name and id NULL. */
  datatype FacetRow = FacetRow(name: Option<string>, id: Option<int>, count: nat)

  /** One option offered to the client. */
  datatype FacetEntry = FacetEntry(name: string, id: Option<int>, count: nat)

  /** `{r[1]: r[2] for r in rows}`: a later row with the same id overwrites an earlier one. */
  function FilteredCounts(rows: seq<FacetRow>): map<Option<int>, nat> {
    if |rows| == 0 then map[]
    else
      var x := rows[|rows| - 1];
      FilteredCounts(rows[..|rows| - 1])[x.id := x.count]
  }

  /** Reference reading: the count of the last filtered row with this id, 0 when there is none. */
  function LastCount(rows: seq<FacetRow>, id: Option<int>): nat {
    if |rows| == 0 then 0
    else if rows[|rows| - 1].id == id then rows[|rows| - 1].count
    else LastCount(rows[..|rows| - 1], id)
  }

  /** `name or "None"`. */
  function DisplayName(name: Option<string>): (r: string)
    ensures r != ""
    ensures name.Some? && name.value != "" ==> r == name.value
  {
    if name.Some? && name.value != "" then name.value else "None"
  }

  /** The merge loop: one entry per unfiltered row, carrying the filtered count or 0. */
  function MergeCounts(rowsAll: seq<FacetRow>, rows: seq<FacetRow>): (r: seq<FacetEntry>)
    ensures |r| == |rowsAll|
    ensures forall k :: 0 <= k < |r| ==> r[k].id == rowsAll[k].id && r[k].name != ""
    ensures forall k :: 0 <= k < |r| && rowsAll[k].name.Some? && rowsAll[k].name.value != "" ==>
              r[k].name == rowsAll[k].name.value
  {
    var counts := FilteredCounts(rows);
    seq(|rowsAll|, k requires 0 <= k < |rowsAll| =>
      FacetEntry(DisplayName(rowsAll[k].name), rowsAll[k].id,
                 if rowsAll[k].id in counts then counts[rowsAll[k].id] else 0))
  }

  /** The dictionary lookup agrees with the last-row reading. */
  lemma {:induction false} CountsAgree(rows: seq<FacetRow>, id: Option<int>)
    ensures (if id in FilteredCounts(rows) then FilteredCounts(rows)[id] else 0) == LastCount(rows, id)
    ensures id in FilteredCounts(rows) <==> exists k :: 0 <= k < |rows| && rows[k].id == id
  {
    if |rows| > 0 {
      var p := rows[..|rows| - 1];
      CountsAgree(p, id);
      if id !in FilteredCounts(rows) {
        forall k | 0 <= k < |rows|
          ensures rows[k].id != id
        {
          if k < |p| {
            assert rows[k] == p[k];
          }
        }
      } else if rows[|rows| - 1].id != id {
        var k :| 0 <= k < |p| && p[k].id == id;
        assert rows[k] == p[k];
      }
    }
  }

  /**
   * Every unfiltered option appears once, in order, with its id, a non-empty
   * display name, and the count of the last filtered row with its id, 0 when
   * the current filters leave none.
   */
  lemma MergeCountsSpec(rowsAll: seq<FacetRow>, rows: seq<FacetRow>, k: nat)
    requires k < |rowsAll|
    ensures MergeCounts(rowsAll, rows)[k].id == rowsAll[k].id
    ensures MergeCounts(rowsAll, rows)[k].name == DisplayName(rowsAll[k].name)
    ensures MergeCounts(rowsAll, rows)[k].count == LastCount(rows, rowsAll[k].id)
    ensures (forall j :: 0 <= j < |rows| ==> rows[j].id != rowsAll[k].id) ==> MergeCounts(rowsAll, rows)[k].count == 0
  {
    CountsAgree(rows, rowsAll[k].id);
  }

  // ---- execute_query pagination ----

  /** A request argument read with `type=int`: missing, or present and parsed (`None` when `int()` fails). */
  datatype Arg = Missing | Given(parsed: Option<int>)

  /** `args.get(key, default, type=int)`: the default unless the argument parses. */
  function ArgOr(a: Arg, default: int): (r: int)
    ensures a.Given? && a.parsed.Some? ==> r == a.parsed.value
    ensures (a.Missing? || a.parsed.None?) ==> r == default
  {
    if a.Given? && a.parsed.Some? then a.parsed.value else default
  }

  const DefaultPage := 0
  const DefaultPageSize := 20

  /** The `offset`/`limit` pair of the data query. */
  datatype Window = Window(offset: int, limit: int)

  /** `offset(page * page_size).limit(page_size)`, with the request defaults. */
  function Pagination(page: Arg, pageSize: Arg): (w: Window)
    ensures page.Missing? && pageSize.Missing? ==> w == Window(0, 20)
    ensures w.limit == ArgOr(pageSize, DefaultPageSize)
    ensures w.offset == ArgOr(page, DefaultPage) * w.limit
  {
    var p := ArgOr(page, DefaultPage);
    var s := ArgOr(pageSize, DefaultPageSize);
    Window(p * s, s)
  }

  /** The rows a non-negative window selects from the ordered result. */
  function PageRows<T>(rows: seq<T>, w: Window): (r: seq<T>)
    requires w.offset >= 0 && w.limit >= 0
    ensures |r| <= w.limit
  {
    var a := if w.offset < |rows| then w.offset else |rows|;
    var b := if w.offset + w.limit < |rows| then w.offset + w.limit else |rows|;
    rows[a..b]
  }

  /** Consecutive pages tile the ordered result: the first `n` pages are its first `n * size` rows. */
  lemma {:induction false} PagesTile<T>(rows: seq<T>, size: nat, n: nat)
    ensures PagesUpTo(rows, size, n) == rows[..if n * size < |rows| then n * size else |rows|]
  {
    if n > 0 {
      PagesTile(rows, size, n - 1);
      PageStep(rows, size, n - 1);
    }
  }

  /** Page `k` continues the result exactly where the pages before it stop. */
  lemma PageStep<T>(rows: seq<T>, size: nat, k: nat)
    ensures var a := if k * size < |rows| then k * size else |rows|;
            var b := if (k + 1) * size < |rows| then (k + 1) * size else |rows|;
            rows[..a] + PageRows(rows, Pagination(Given(Some(k)), Given(Some(size)))) == rows[..b]
  {
    var a := k * size;
    assert (k + 1) * size == a + size;
    var ca := if a < |rows| then a else |rows|;
    var cb := if a + size < |rows| then a + size else |rows|;
    assert Pagination(Given(Some(k)), Given(Some(size))) == Window(a, size);
    assert PageRows(rows, Window(a, size)) == rows[ca..cb];
    assert rows[..ca] + rows[ca..cb] == rows[..cb];
  }

  /** The first `n` pages requested with `page_size=size`, concatenated. */
  function PagesUpTo<T>(rows: seq<T>, size: nat, n: nat): seq<T> {
    if n == 0 then []
    else PagesUpTo(rows, size, n - 1) + PageRows(rows, Pagination(Given(Some(n - 1)), Given(Some(size))))
  }

  /** A requested page inside the result has exactly `size` rows, those from `page * size` on. */
  lemma FullPage<T>(rows: seq<T>, page: nat, size: nat)
    requires (page + 1) * size <= |rows|
    ensures var w := Pagination(Given(Some(page)), Given(Some(size)));
            && PageRows(rows, w) == rows[page * size..page * size + size]
            && |PageRows(rows, w)| == size
  {
    assert Pagination(Given(Some(page)), Given(Some(size))) == Window(page * size, size);
  }
}

=== FILE: db_utils.dfy ===
/**
 * The database path's filename parser. Unlike the upload helper it never
 * refuses a filename: a short one yields a record with only the filename, and
 * each field whose lookup fails is left empty.
 *
 * The get-or-create lookups of hostname, benchmark and result, and the
 * timestamp parser, are parameters: a lookup returns the stored object or the
 * kind of exception it raised; the parser returns `None` where `strptime`
 * raises.
 */
module DbUtils {
  import opened Wrappers
  import opened Strings
  import opened Filenames
  import Helpers

  /** The exceptions a lookup may raise, as far as the handlers tell them apart. */
  datatype Failure = ValueError | OtherError

  /** The `Metadata` row being built; `None` is a null column. */
  datatype Metadata<H, B, T, R> = Metadata(
    filename: string,
    hostname: Option<H>,
    benchmark: Option<B>,
    timeCreated: Option<T>,
    result: Option<R>)

  /** A lookup whose every exception is caught. */
  function Caught<X>(r: Result<X, Failure>): (o: Option<X>)
    ensures o.Some? <==> r.Ok?
    ensures o.Some? ==> o.value == r.value
  {
    match r
    case Ok(x) => Some(x)
    case Err(_) => None
  }

  /**
   * `extract_metadata`. Only the hostname lookup can let an exception out:
   * its handler catches `ValueError` alone, while the benchmark and result
   * handlers catch everything.
   */
  function ExtractMetadata<H, B, T, R>(
    filename: string,
    getHostname: string -> Result<H, Failure>,
    getBenchmark: string -> Result<B, Failure>,
    getResult: string -> Result<R, Failure>,
    parseTime: string -> Option<T>): (r: Result<Metadata<H, B, T, R>, Failure>)
    ensures r.Ok? ==> r.value.filename == filename
    ensures r.Err? ==> r.error == OtherError
  {
    match Decompose(filename)
    case None => Ok(Metadata(filename, None, None, None, None))
    case Some(p) =>
      var host := getHostname(p.hostname);
      if host.Err? && host.error == OtherError then Err(OtherError)
      else Ok(Metadata(filename, Caught(host), Caught(getBenchmark(p.benchmark)),
                       parseTime(p.time), Caught(getResult(ResultName(p.last)))))
  }

  /** A filename with fewer than four parts is kept with every other field empty, and nothing is raised. */
  lemma ShortNameKept<H, B, T, R>(
    filename: string,
    getHostname: string -> Result<H, Failure>,
    getBenchmark: string -> Result<B, Failure>,
    getResult: string -> Result<R, Failure>,
    parseTime: string -> Option<T>)
    requires CountChar(filename, '-') < 3
    ensures ExtractMetadata(filename, getHostname, getBenchmark, getResult, parseTime) ==
              Ok(Metadata(filename, None, None, None, None))
  {
  }

  /** An exception escapes exactly when the hostname lookup raises something other than `ValueError`. */
  lemma RaisesOnlyFromHostname<H, B, T, R>(
    filename: string,
    getHostname: string -> Result<H, Failure>,
    getBenchmark: string -> Result<B, Failure>,
    getResult: string -> Result<R, Failure>,
    parseTime: string -> Option<T>)
    ensures ExtractMetadata(filename, getHostname, getBenchmark, getResult, parseTime).Err? <==>
              CountChar(filename, '-') >= 3 && getHostname(Decompose(filename).value.hostname) == Err(OtherError)
  {
  }

  /**
   * On an assembled filename each lookup sees its own field, the result
   * without `.json`; a failed lookup or parse leaves just that field empty.
   */
  lemma LookupsSeeFields<H, B, T, R>(
    p: FileParts,
    getHostname: string -> Result<H, Failure>,
    getBenchmark: string -> Result<B, Failure>,
    getResult: string -> Result<R, Failure>,
    parseTime: string -> Option<T>)
    requires Assemblable(p) && getHostname(p.hostname) != Err(OtherError)
    ensures var r := ExtractMetadata(Assemble(p), getHostname, getBenchmark, getResult, parseTime);
            && r.Ok?
            && (r.value.hostname.Some? <==> getHostname(p.hostname).Ok?)
            && (r.value.hostname.Some? ==> r.value.hostname.value == getHostname(p.hostname).value)
            && (r.value.benchmark.Some? <==> getBenchmark(p.benchmark).Ok?)
            && (r.value.benchmark.Some? ==> r.value.benchmark.value == getBenchmark(p.benchmark).value)
            && r.value.timeCreated == parseTime(p.time)
            && (r.value.result.Some? <==> getResult(ResultName(p.last)).Ok?)
            && (r.value.result.Some? ==> r.value.result.value == getResult(ResultName(p.last)).value)
  {
    AssembleDecompose(p);
  }

  /**
   * Where the upload helper succeeds, this parser hands the very hostname
   * and result strings the helper records to the lookups; where the helper
   * refuses a short filename, this parser keeps it.
   */
  lemma AgreesWithHelpers<H, B, T, R>(
    filename: string,
    getHostname: string -> Result<H, Failure>,
    getBenchmark: string -> Result<B, Failure>,
    getResult: string -> Result<R, Failure>,
    parseTime: string -> Option<T>)
    ensures Helpers.ExtractMetadata(filename) == Err(Helpers.InvalidFilename) ==>
              ExtractMetadata(filename, getHostname, getBenchmark, getResult, parseTime) ==
              Ok(Metadata(filename, None, None, None, None))
    ensures Helpers.ExtractMetadata(filename).Ok? && getHostname(Helpers.ExtractMetadata(filename).value.hostName) != Err(OtherError) ==>
              var m := Helpers.ExtractMetadata(filename).value;
              ExtractMetadata(filename, getHostname, getBenchmark, getResult, parseTime).Ok? &&
              ExtractMetadata(filename, getHostname, getBenchmark, getResult, parseTime).value.hostname == Caught(getHostname(m.hostName)) &&
              ExtractMetadata(filename, getHostname, getBenchmark, getResult, parseTime).value.result == Caught(getResult(m.result))
  {
    Helpers.ExtractErrors(filename);
  }

  /** The upload test's filename: hyphenated hostname, benchmark and result found by name. */
  lemma SaveFileExample<H, B, T, R>(
    filename: string,
    getHostname: string -> Result<H, Failure>,
    getBenchmark: string -> Result<B, Failure>,
    getResult: string -> Result<R, Failure>,
    parseTime: string -> Option<T>,
    hostName: string, benchName: string, time: string, resName: string)
    requires hostName == "test-host" && benchName == "Custom_Benchmark_Test"
    requires time == "20250506T093226Z" && resName == "PASS"
    requires filename == hostName + "-" + benchName + "-" + time + "-" + resName + ".json"
    requires getHostname(hostName).Ok? && getBenchmark(benchName).Ok? && getResult(resName).Ok?
    ensures ExtractMetadata(filename, getHostname, getBenchmark, getResult, parseTime) ==
              Ok(Metadata(filename, Some(getHostname(hostName).value), Some(getBenchmark(benchName).value),
                          parseTime(time), Some(getResult(resName).value)))
  {
    SaveFileLiterals(benchName, time, resName);
    SaveFileFields(filename, getHostname, getBenchmark, getResult, parseTime, hostName, benchName, time, resName);
    ResultNameReport(resName);
  }

  lemma SaveFileFields<H, B, T, R>(
    filename: string,
    getHostname: string -> Result<H, Failure>,
    getBenchmark: string -> Result<B, Failure>,
    getResult: string -> Result<R, Failure>,
    parseTime: string -> Option<T>,
    hostName: string, benchName: string, time: string, resName: string)
    requires '-' !in benchName && '-' !in time && '-' !in resName
    requires filename == hostName + "-" + benchName + "-" + time + "-" + resName + ".json"
    requires getHostname(hostName).Ok?
    ensures ExtractMetadata(filename, getHostname, getBenchmark, getResult, parseTime) ==
              Ok(Metadata(filename, Some(getHostname(hostName).value), Caught(getBenchmark(benchName)),
                          parseTime(time), Caught(getResult(ResultName(resName + ".json")))))
  {
    var p := FileParts(hostName, benchName, time, resName + ".json");
    assert Assemble(p) == filename;
    assert Assemblable(p) by {
      assert forall c :: c in resName + ".json" ==> c in resName || c in ".json";
    }
    LookupsSeeFields(p, getHostname, getBenchmark, getResult, parseTime);
  }

  lemma SaveFileLiterals(benchName: string, time: string, resName: string)
    requires benchName == "Custom_Benchmark_Test" && time == "20250506T093226Z" && resName == "PASS"
    ensures '-' !in benchName && '-' !in time && '-' !in resName && '.' !in resName
  {}
}

=== FILE: file_api.dfy ===
/**
 * The client's choice of download endpoint for a selection of files: none
 * selected is refused, one file has its own endpoint, several are fetched
 * together from the aggregate endpoint with one `id` query parameter each.
 */
module FileApi {
  import opened Wrappers

  /** The parts of a browser `URL` the chooser reads or writes; the query is the ordered list of pairs. */
  datatype Url = Url(origin: string, pathname: string, query: seq<(string, string)>, fragment: string)

  const FilesPath := "/api/files/"
  const AggregatePath := "/api/files/aggregate"
  const IdKey := "id"

  /** `ids.forEach(id => searchParams.append('id', id))`. */
  function AppendIds(query: seq<(string, string)>, ids: seq<string>): (r: seq<(string, string)>)
    ensures |r| == |query| + |ids|
    ensures r[..|query|] == query
    ensures forall i :: 0 <= i < |ids| ==> r[|query| + i] == (IdKey, ids[i])
    decreases |ids|
  {
    if |ids| == 0 then query
    else
      var r := AppendIds(query + [(IdKey, ids[0])], ids[1..]);
      assert r[..|query|] == (query + [(IdKey, ids[0])])[..|query|];
      assert forall j :: 0 <= j < |ids| - 1 ==> r[|query| + 1 + j] == (IdKey, ids[1..][j]);
      r
  }

  /**
   * `constructDownloadURL`, starting from the current location. The
   * pathname is set as written; the browser's percent-encoding of it is not
   * modelled.
   */
  function ConstructDownloadUrl(location: Url, ids: seq<string>): (r: Option<Url>)
    ensures r.None? <==> |ids| == 0
    ensures r.Some? ==> r.value.origin == location.origin && r.value.fragment == location.fragment
    ensures |ids| == 1 ==> r.value.query == location.query
  {
    if |ids| == 0 then None
    else if |ids| == 1 then Some(location.(pathname := FilesPath + ids[0]))
    else Some(location.(query := AppendIds(location.query, ids), pathname := AggregatePath))
  }

  /** The values of the `id` parameters, in order: what the server's `request.args.getlist('id')` sees. */
  function IdsOf(query: seq<(string, string)>): (r: seq<string>)
    ensures |r| <= |query|
  {
    if |query| == 0 then []
    else
      var last := query[|query| - 1];
      IdsOf(query[..|query| - 1]) + (if last.0 == IdKey then [last.1] else [])
  }

  lemma {:induction false} IdsOfAppend(a: seq<(string, string)>, b: seq<(string, string)>)
    ensures IdsOf(a + b) == IdsOf(a) + IdsOf(b)
    decreases |b|
  {
    if |b| == 0 {
      assert a + b == a;
    } else {
      var s := a + b;
      assert s[..|s| - 1] == a + b[..|b| - 1];
      assert s[|s| - 1] == b[|b| - 1];
      IdsOfAppend(a, b[..|b| - 1]);
    }
  }

  lemma {:induction false} IdsOfAppended(ids: seq<string>)
    ensures IdsOf(AppendIds([], ids)) == ids
    decreases |ids|
  {
    if |ids| > 0 {
      var q := AppendIds([], ids);
      var n := |ids|;
      assert q[..n - 1] == AppendIds([], ids[..n - 1]) by {
        var p := AppendIds([], ids[..n - 1]);
        assert |p| == n - 1;
        forall i | 0 <= i < n - 1
          ensures p[i] == q[i]
        {
          assert p[0 + i] == (IdKey, ids[..n - 1][i]);
          assert q[0 + i] == (IdKey, ids[i]);
        }
      }
      IdsOfAppended(ids[..n - 1]);
      assert q[n - 1] == (IdKey, ids[n - 1]);
      assert ids == ids[..n - 1] + [ids[n - 1]];
    }
  }

  /** Several ids reach the server as exactly the location's own ids followed by the selection, in order, duplicates kept. */
  lemma AggregateCarriesIds(location: Url, ids: seq<string>)
    requires |ids| >= 2
    ensures ConstructDownloadUrl(location, ids).value.pathname == AggregatePath
    ensures IdsOf(ConstructDownloadUrl(location, ids).value.query) == IdsOf(location.query) + ids
  {
    var q := ConstructDownloadUrl(location, ids).value.query;
    var n := |location.query|;
    assert q == location.query + AppendIds([], ids) by {
      var tail := AppendIds([], ids);
      forall i | 0 <= i < |ids|
        ensures q[n + i] == tail[i]
      {
        assert tail[0 + i] == (IdKey, ids[i]);
      }
      assert q[..n] == location.query;
    }
    IdsOfAppend(location.query, AppendIds([], ids));
    IdsOfAppended(ids);
  }

  /** One id is addressed by the pathname alone: stripping the files prefix gives it back, and no parameter is added. */
  lemma SingleIdInPath(location: Url, id: string)
    ensures var u := ConstructDownloadUrl(location, [id]).value;
            && |u.pathname| >= |FilesPath|
            && u.pathname[..|FilesPath|] == FilesPath
            && u.pathname[|FilesPath|..] == id
            && IdsOf(u.query) == IdsOf(location.query)
  {
    var p := FilesPath + id;
    assert p[..|FilesPath|] == FilesPath && p[|FilesPath|..] == id;
  }

  /** The two endpoints meet: a single file whose id is `aggregate` is sent to the aggregate endpoint with no added id. */
  lemma SingleIdNamedAggregate(location: Url)
    ensures ConstructDownloadUrl(location, ["aggregate"]).value.pathname == AggregatePath
  {
  }
}

=== FILE: filenames.dfy ===
/**
 * Report filenames of the shape `HOSTNAME-BENCHMARK-TIMESTAMP-RESULT.json`.
 * The hostname may itself contain hyphens: it is everything before the last
 * three `-`-separated parts.
 */
module Filenames {
  import opened Wrappers
  import opened Strings

  /** The four fields a filename is cut into; `last` still carries any `.json`. */
  datatype FileParts = FileParts(hostname: string, benchmark: string, time: string, last: string)

  /** `filename.split('-')` cut into hostname (rejoined), benchmark, time and last part; `None` below four parts. */
  function Decompose(filename: string): (r: Option<FileParts>)
    ensures r.None? <==> CountChar(filename, '-') < 3
    ensures r.Some? ==> '-' !in r.value.benchmark && '-' !in r.value.time && '-' !in r.value.last
  {
    var parts := Split(filename, '-');
    var n := |parts|;
    if n < 4 then None
    else Some(FileParts(Join(parts[..n - 3], '-'), parts[n - 3], parts[n - 2], parts[n - 1]))
  }

  /** The filename the four fields stand for. */
  function Assemble(p: FileParts): string {
    p.hostname + "-" + p.benchmark + "-" + p.time + "-" + p.last
  }

  /** Fields that survive a round trip: only the hostname may contain a hyphen. */
  predicate Assemblable(p: FileParts) {
    '-' !in p.benchmark && '-' !in p.time && '-' !in p.last
  }

  /** Decomposition loses nothing: the fields put back together give the filename. */
  lemma DecomposeAssemble(filename: string)
    requires Decompose(filename).Some?
    ensures Assemblable(Decompose(filename).value)
    ensures Assemble(Decompose(filename).value) == filename
  {
    var parts := Split(filename, '-');
    var n := |parts|;
    var head := parts[..n - 3];
    var p := Decompose(filename).value;
    assert parts == head + [p.benchmark, p.time, p.last];
    assert filename == p.hostname + "-" + (p.benchmark + "-" + p.time + "-" + p.last) by {
      JoinAppend(head, [p.benchmark, p.time, p.last], '-');
      JoinLastThree(p.benchmark, p.time, p.last);
    }
    AssembleAssoc(p);
  }

  lemma AssembleAssoc(p: FileParts)
    ensures Assemble(p) == p.hostname + "-" + (p.benchmark + "-" + p.time + "-" + p.last)
  {
  }

  /** Every filename built from assemblable fields decomposes back into them. */
  lemma AssembleDecompose(p: FileParts)
    requires Assemblable(p)
    ensures Decompose(Assemble(p)) == Some(p)
  {
    var head := Split(p.hostname, '-');
    var tail := [p.benchmark, p.time, p.last];
    var parts := head + tail;
    JoinAppend(head, tail, '-');
    JoinLastThree(p.benchmark, p.time, p.last);
    assert Join(parts, '-') == Assemble(p);
    forall k | 0 <= k < |parts|
      ensures '-' !in parts[k]
    {
      if k >= |head| {
        assert parts[k] == tail[k - |head|];
      }
    }
    SplitJoin(parts, '-');
    assert parts[..|parts| - 3] == head;
  }

  lemma JoinLastThree(b: string, t: string, l: string)
    ensures Join([b, t, l], '-') == b + "-" + t + "-" + l
  {
    JoinCons(b, [t, l], '-');
    JoinCons(t, [l], '-');
    assert Join([l], '-') == l;
  }

  /** `part.replace('.json', '')`: every non-overlapping `.json`, left to right, removed. */
  function ResultName(last: string): (r: string)
    ensures '.' !in last ==> r == last
  {
    assert ".json"[0] == '.';
    Replace(last, ".json", "")
  }

  /** A trailing `.json` extension is dropped, whatever precedes it. */
  lemma {:induction false} ResultNameDropsExtension(s: string)
    ensures ResultName(s + ".json") == ResultName(s)
    decreases |s|
  {
    var j := ".json";
    var t := s + j;
    if |s| == 0 {
      assert t == j + "";
      ReplaceHead("", j, "");
    } else if |s| >= 5 && s[..5] == j {
      assert t == j + (s[5..] + j);
      assert s == j + s[5..];
      ReplaceHead(s[5..] + j, j, "");
      ReplaceHead(s[5..], j, "");
      ResultNameDropsExtension(s[5..]);
    } else {
      assert t[..5] != j by {
        if |s| >= 5 {
          assert t[..5] == s[..5];
        } else {
          assert t[..5][|s|] == '.' != j[|s|];
        }
      }
      assert t[1..] == s[1..] + j;
      ReplaceMiss(t, j, "");
      ReplaceMiss(s, j, "");
      ResultNameDropsExtension(s[1..]);
    }
  }

  /** A report name without a dot loses exactly its `.json` extension. */
  lemma ResultNameReport(name: string)
    requires '.' !in name
    ensures ResultName(name + ".json") == name
  {
    ResultNameDropsExtension(name);
  }

  /**
   * Removal is a single left-to-right pass, so it is not idempotent: taking
   * out the inner `.json` of `a.js.jsonon` joins a new one.
   */
  lemma ResultNameNotIdempotent(a: string)
    requires '.' !in a
    ensures ResultName(a + ".js.jsonon") == a + ".json"
    ensures ResultName(ResultName(a + ".js.jsonon")) == a
  {
    var j := ".json";
    assert ResultName(a + ".js.jsonon") == a + j by {
      InnerExtension(a, "js", "on", j);
      assert "." + ("js" + (j + "on")) == ".js.jsonon";
      assert "." + ("js" + "on") == j;
    }
    ResultNameReport(a);
  }

  /** Taking out an inner `.json` joins the text around it. */
  lemma InnerExtension(a: string, b: string, c: string, j: string)
    requires '.' !in a && b == "js" && c == "on" && j == ".json"
    ensures Replace(a + ("." + (b + (j + c))), j, "") == a + ("." + (b + c))
  {
    var u := "." + (b + (j + c));
    assert Replace(c, j, "") == c;
    assert Replace(j + c, j, "") == c by {
      ReplaceHead(c, j, "");
      assert "" + c == c;
    }
    assert Replace(b + (j + c), j, "") == b + c by {
      ReplaceSkip(b, j + c, j, "");
    }
    assert Replace(u, j, "") == "." + (b + c) by {
      assert u[..5][3] != j[3];
      ReplaceMiss(u, j, "");
      assert u[1..] == b + (j + c);
      assert [u[0]] == ".";
    }
    ReplaceSkip(a, u, j, "");
  }
}

=== FILE: helpers.dfy ===
/**
 * The upload path's metadata helpers: a filename is cut into hostname, time
 * and result, and the compact timestamp is expanded into its ISO 8601 form.
 */
module Helpers {
  import opened Wrappers
  import opened Strings
  import opened Filenames
  import opened Database

  const InvalidFilename := "Invalid filename format"
  const ShortTime := "Time string must be at least 15 characters long"

  /**
   * `timeConverter`: strings of at most 15 characters are refused; otherwise
   * `YYYYMMDD?hhmmssZ…` becomes `YYYY-MM-DDThh:mm:ssZ…`. Character 8 is
   * replaced by `T` whatever it was.
   */
  function TimeConverter(s: string): (r: Result<string, string>)
    ensures r.Err? <==> |s| <= 15
    ensures r.Err? ==> r.error == ShortTime
    ensures r.Ok? ==> |r.value| == |s| + 4
  {
    if |s| <= 15 then Err(ShortTime)
    else Ok(s[..4] + "-" + s[4..6] + "-" + s[6..8] + "T" + s[9..11] + ":" + s[11..13] + ":" + s[13..])
  }

  /** Position by position, what the expanded timestamp holds: a separator or a shifted input character. */
  function ExpandedChar(s: string, i: nat): char
    requires |s| > 15 && i < |s| + 4
  {
    if i == 4 || i == 7 then '-'
    else if i == 10 then 'T'
    else if i == 13 || i == 16 then ':'
    else if i < 4 then s[i]
    else if i < 7 then s[i - 1]
    else if i < 13 then s[i - 2]
    else if i < 16 then s[i - 3]
    else s[i - 4]
  }

  /** The expansion agrees with the positional description everywhere. */
  lemma TimeConverterPointwise(s: string)
    requires |s| > 15
    ensures forall i :: 0 <= i < |s| + 4 ==> TimeConverter(s).value[i] == ExpandedChar(s, i)
  {
    var v := TimeConverter(s).value;
    forall i | 0 <= i < |s| + 4
      ensures v[i] == ExpandedChar(s, i)
    {
      ExpandedAt(s, i);
    }
  }

  lemma ExpandedAt(s: string, i: nat)
    requires |s| > 15 && i < |s| + 4
    ensures TimeConverter(s).value[i] == ExpandedChar(s, i)
  {
    var a := s[..4] + "-" + s[4..6] + "-" + s[6..8] + "T";
    var b := s[9..11] + ":" + s[11..13] + ":" + s[13..];
    assert TimeConverter(s).value == a + b;
    assert |a| == 11;
    if i < 11 {
      assert (a + b)[i] == a[i];
    } else {
      assert (a + b)[i] == b[i - 11];
    }
  }

  /** The compact form of an expanded timestamp: the separators taken out again. */
  function Compact(iso: string): string
    requires |iso| >= 17
  {
    iso[..4] + iso[5..7] + iso[8..10] + "T" + iso[11..13] + iso[14..16] + iso[17..]
  }

  /** A compact timestamp whose character 8 is `T` comes back unchanged. */
  lemma TimeRoundTrip(s: string)
    requires |s| > 15 && s[8] == 'T'
    ensures Compact(TimeConverter(s).value) == s
  {
    var v := TimeConverter(s).value;
    TimeConverterPointwise(s);
    var c := Compact(v);
    assert |c| == |s|;
    forall i | 0 <= i < |s|
      ensures c[i] == s[i]
    {
      if i < 4 {
        assert c[i] == v[i];
      } else if i < 6 {
        assert c[i] == v[i + 1];
      } else if i < 8 {
        assert c[i] == v[i + 2];
      } else if i == 8 {
        assert c[i] == 'T';
      } else if i < 11 {
        assert c[i] == v[i + 2];
      } else if i < 13 {
        assert c[i] == v[i + 3];
      } else {
        assert c[i] == v[i + 4];
      }
    }
  }

  /** Character 8 of the input is never read. */
  lemma TimeIgnoresSeparator(s: string, c: char)
    requires |s| > 15
    ensures TimeConverter(s[8 := c]) == TimeConverter(s)
  {
    var t := s[8 := c];
    assert t[..4] == s[..4] && t[4..6] == s[4..6] && t[6..8] == s[6..8];
    assert t[9..11] == s[9..11] && t[11..13] == s[11..13] && t[13..] == s[13..];
  }

  /** The timestamp of the upload tests. */
  lemma TimeExample()
    ensures TimeConverter("20250605T132738Z") == Ok("2025-06-05T13:27:38Z")
  {
    TimeLiteralSplit();
    TimeOfParts("2025", "06", "05", 'T', "13", "27", "38Z");
    TimeLiteralJoin();
  }

  lemma TimeLiteralSplit()
    ensures "20250605T132738Z" == "2025" + "06" + "05" + ['T'] + "13" + "27" + "38Z"
  {}

  lemma TimeLiteralJoin()
    ensures "2025" + "-" + "06" + "-" + "05" + "T" + "13" + ":" + "27" + ":" + "38Z" == "2025-06-05T13:27:38Z"
  {}

  /** The converter on a timestamp given field by field. */
  lemma TimeOfParts(y: string, mo: string, d: string, c: char, h: string, mi: string, sec: string)
    requires |y| == 4 && |mo| == 2 && |d| == 2 && |h| == 2 && |mi| == 2 && |sec| >= 3
    ensures TimeConverter(y + mo + d + [c] + h + mi + sec) ==
              Ok(y + "-" + mo + "-" + d + "T" + h + ":" + mi + ":" + sec)
  {
    var s := y + mo + d + [c] + h + mi + sec;
    assert s[..4] == y && s[4..6] == mo && s[6..8] == d;
    assert s[9..11] == h && s[11..13] == mi && s[13..] == sec;
  }

  /**
   * `extract_metadata`: below four `-`-separated parts the filename is
   * refused; a timestamp error propagates; otherwise only hostname, time and
   * result are filled in.
   */
  function ExtractMetadata(filename: string): (r: Result<FileMetadata, string>)
    ensures r.Ok? ==> r.value.id == "" && r.value.ipAddress == "" && r.value.fileName == "" && r.value.tags == []
  {
    match Decompose(filename)
    case None => Err(InvalidFilename)
    case Some(p) =>
      match TimeConverter(p.time)
      case Err(e) => Err(e)
      case Ok(t) => Ok(FileMetadata("", "", p.hostname, "", t, ResultName(p.last), []))
  }

  /** The two ways extraction fails, each exactly when its cause is present. */
  lemma ExtractErrors(filename: string)
    ensures ExtractMetadata(filename) == Err(InvalidFilename) <==> CountChar(filename, '-') < 3
    ensures ExtractMetadata(filename) == Err(ShortTime) <==>
              CountChar(filename, '-') >= 3 && |Decompose(filename).value.time| <= 15
    ensures ExtractMetadata(filename).Err? ==>
              ExtractMetadata(filename) == Err(InvalidFilename) || ExtractMetadata(filename) == Err(ShortTime)
  {
  }

  /** On an assembled filename the record carries exactly the fields it was built from; the benchmark is dropped. */
  lemma ExtractAssembled(p: FileParts)
    requires Assemblable(p) && |p.time| > 15
    ensures ExtractMetadata(Assemble(p)) ==
              Ok(FileMetadata("", "", p.hostname, "", TimeConverter(p.time).value, ResultName(p.last), []))
  {
    AssembleDecompose(p);
  }

  /** The benchmark field has no influence on the outcome. */
  lemma BenchmarkDiscarded(p: FileParts, b: string)
    requires Assemblable(p) && '-' !in b
    ensures ExtractMetadata(Assemble(p)) == ExtractMetadata(Assemble(p.(benchmark := b)))
  {
    AssembleDecompose(p);
    AssembleDecompose(p.(benchmark := b));
  }

  /** A hostname with hyphens survives extraction whole. */
  lemma ExtractExample(filename: string, host: string, bench: string, time: string, name: string)
    requires host == "LAP-TOP" && bench == "Benchmark_2" && time == "20250605T132738Z" && name == "NonPassing"
    requires filename == host + "-" + bench + "-" + time + "-" + name + ".json"
    ensures ExtractMetadata(filename) == Ok(FileMetadata("", "", host, "", "2025-06-05T13:27:38Z", name, []))
  {
    ExampleLiterals(bench, time, name);
    ExampleFields(filename, host, bench, time, name);
    assert TimeConverter(time).value == "2025-06-05T13:27:38Z" by {
      TimeExample();
    }
    assert ResultName(name + ".json") == name by {
      ResultNameReport(name);
    }
  }

  /** A filename assembled from dash-free fields and a `.json` result name. */
  lemma ExampleFields(filename: string, host: string, bench: string, time: string, name: string)
    requires '-' !in bench && '-' !in time && '-' !in name && |time| > 15
    requires filename == host + "-" + bench + "-" + time + "-" + name + ".json"
    ensures ExtractMetadata(filename) ==
              Ok(FileMetadata("", "", host, "", TimeConverter(time).value, ResultName(name + ".json"), []))
  {
    var p := FileParts(host, bench, time, name + ".json");
    assert Assemble(p) == filename;
    assert '-' !in name + ".json" by {
      assert forall c :: c in name + ".json" ==> c in name || c in ".json";
    }
    ExtractAssembled(p);
  }

  lemma ExampleLiterals(bench: string, time: string, name: string)
    requires bench == "Benchmark_2" && time == "20250605T132738Z" && name == "NonPassing"
    ensures '-' !in bench && '-' !in time && '-' !in name && '.' !in name && |time| > 15
  {}
}

=== FILE: matcher.dfy ===
/**
 * Rule matching of the CIS-to-ATT&CK conversion: how one scan rule is
 * turned into (technique, passed, rule-id) entries by looking its CIS
 * safeguard up in the crosswalk table.
 */
module Matcher {
  import opened Wrappers
  import opened Strings
  import opened Sequences

  /**
   * A cell of a technique-ID column as `row.get` returns it: `Absent` when
   * the sheet has no such column, `NaN` for an empty spreadsheet cell, or a
   * string.
   */
  datatype Cell = Absent | NaN | Str(text: string)

  /** Python truthiness of a cell: `None` and `''` are false, NaN (a non-zero float) is true. */
  predicate Truthy(c: Cell) {
    match c
    case Absent => false
    case NaN => true
    case Str(t) => t != ""
  }

  /**
   * One row of the crosswalk sheet. The two CIS columns always exist; `None`
   * stands for an empty (NaN) cell.
   */
  datatype MappingRow = MappingRow(
    safeguard: Option<string>,  // 'CIS Safeguard'
    control: Option<string>,    // 'CIS Control'
    combinedId: Cell,           // 'Combined ATT&CK (Sub-)Technique ID'
    techniqueId: Cell)          // 'ATT&CK Technique ID'

  /** A scan rule; `None` is a missing key. */
  datatype Rule = Rule(ruleId: Option<string>, title: Option<string>, result: Option<string>)

  /** A scan document: optional `benchmark-title` and its `rules` (a missing list is empty). */
  datatype ScanDoc = ScanDoc(title: Option<string>, rules: seq<Rule>)

  /** Evidence for one technique from one rule. */
  datatype Entry = Entry(technique: string, passed: bool, ruleId: string)

  /** The CIS control (`high`, e.g. "4") and safeguard (`low`, e.g. "4.3") a rule id names. */
  datatype RuleKey = RuleKey(high: string, low: string)

  /** The rule id as the converter reads it (a missing id is `''`). */
  function RuleIdOf(rule: Rule): string {
    rule.ruleId.GetOr("")
  }

  /** A rule passes unless its lower-cased result is exactly `fail`. */
  predicate Passed(rule: Rule) {
    Lower(rule.result.GetOr("")) != "fail"
  }

  /** The fourth `_`-separated part of a rule id that has one. */
  function RawSafeguard(rid: string): string
    requires CountChar(rid, '_') >= 3
  {
    Split(rid, '_')[3]
  }

  /** The key named by a fourth part: its first one and first two `.` segments. */
  function KeyOfPart(raw: string): RuleKey
  {
    var segs := Split(raw, '.');
    RuleKey(segs[0], Join(segs[..if |segs| < 2 then |segs| else 2], '.'))
  }

  /** The key of a rule id: `None` when it has fewer than four `_` parts. */
  function KeyOf(rid: string): (k: Option<RuleKey>)
    ensures k.None? <==> CountChar(rid, '_') < 3
    ensures k.Some? ==> k.value == KeyOfPart(RawSafeguard(rid))
  {
    var parts := Split(rid, '_');
    if |parts| < 4 then None else Some(KeyOfPart(parts[3]))
  }

  /**
   * `high` is the fourth part up to its first `.`, `low` the fourth part up
   * to its second `.`; so `low` extends `high` and holds one `.` exactly when
   * the part has one.
   */
  lemma KeyShape(rid: string)
    requires CountChar(rid, '_') >= 3
    ensures var raw := RawSafeguard(rid);
            var k := KeyOf(rid).value;
            && StartsWith(raw, k.high) && '.' !in k.high
            && (|k.high| == |raw| || raw[|k.high|] == '.')
            && StartsWith(raw, k.low)
            && (|k.low| == |raw| || raw[|k.low|] == '.')
            && StartsWith(k.low, k.high)
            && CountChar(k.low, '.') == (if '.' in raw then 1 else 0)
  {
    var raw := RawSafeguard(rid);
    if '.' in raw {
      DottedPartShape(raw);
    } else {
      UndottedPartShape(raw);
    }
  }

  lemma UndottedPartShape(raw: string)
    requires '.' !in raw
    ensures KeyOfPart(raw) == RuleKey(raw, raw)
    ensures CountChar(raw, '.') == 0
  {
    NoSeparatorCount(raw, '.');
    var segs := Split(raw, '.');
    assert |segs| == 1;
    assert segs[..1] == [segs[0]];
  }

  lemma DottedPartShape(raw: string)
    requires '.' in raw
    ensures var k := KeyOfPart(raw);
            && StartsWith(raw, k.high) && '.' !in k.high && raw[|k.high|] == '.'
            && StartsWith(raw, k.low)
            && (|k.low| == |raw| || raw[|k.low|] == '.')
            && StartsWith(k.low, k.high)
            && CountChar(k.low, '.') == 1
  {
    var segs := Split(raw, '.');
    DottedKey(raw);
    PairShape(raw, segs[0], segs[1], '.');
  }

  /** A string that begins with `high d mid`, neither holding `d`, begins with `high` followed by `d`. */
  lemma PairShape(s: string, high: string, mid: string, d: char)
    requires d !in high && d !in mid
    requires var low := high + [d] + mid; |low| <= |s| && s[..|low|] == low
    ensures StartsWith(s, high) && s[|high|] == d
    ensures StartsWith(high + [d] + mid, high)
    ensures CountChar(high + [d] + mid, d) == 1
  {
    var low := high + [d] + mid;
    assert s[..|high|] == s[..|low|][..|high|];
    assert low[..|high|] == high;
    assert s[|high|] == low[|high|];
    CountAppend(high, [d], d);
    CountAppend(high + [d], mid, d);
    NoSeparatorCount(high, d);
    NoSeparatorCount(mid, d);
  }

  /** A dotted part keys on its first segment and its first two segments, and continues past them only with a `.`. */
  lemma DottedKey(raw: string)
    requires '.' in raw
    ensures var segs := Split(raw, '.');
            && |segs| >= 2
            && KeyOfPart(raw) == RuleKey(segs[0], segs[0] + ['.'] + segs[1])
            && var low := segs[0] + ['.'] + segs[1];
               |low| <= |raw| && raw[..|low|] == low && (|low| == |raw| || raw[|low|] == '.')
  {
    var segs := Split(raw, '.');
    assert |segs| >= 2;
    JoinFirstTwo(segs, '.');
    JoinedPrefix(segs, '.');
  }

  /** Several joined parts begin with the first two joined, followed by nothing or the separator. */
  lemma JoinedPrefix(segs: seq<string>, d: char)
    requires |segs| >= 2
    ensures var low := segs[0] + [d] + segs[1];
            var s := Join(segs, d);
            |low| <= |s| && s[..|low|] == low && (|low| == |s| || s[|low|] == d)
  {
    JoinFirstTwo(segs, d);
    var low := segs[0] + [d] + segs[1];
    if |segs| > 2 {
      var s := Join(segs, d);
      assert s == low + ([d] + Join(segs[2..], d));
      assert s[..|low|] == low;
    }
  }

  /** The first two of several joined parts, and how the whole join continues after them. */
  lemma JoinFirstTwo(segs: seq<string>, d: char)
    requires |segs| >= 2
    ensures Join(segs[..2], d) == segs[0] + [d] + segs[1]
    ensures |segs| == 2 ==> Join(segs, d) == segs[0] + [d] + segs[1]
    ensures |segs| > 2 ==> Join(segs, d) == segs[0] + [d] + segs[1] + [d] + Join(segs[2..], d)
  {
    assert segs[..2] == [segs[0]] + [segs[1]];
    JoinCons(segs[0], [segs[1]], d);
    assert segs == [segs[0]] + segs[1..];
    JoinCons(segs[0], segs[1..], d);
    if |segs| == 2 {
      assert segs[1..] == [segs[1]];
    } else {
      assert segs[1..] == [segs[1]] + segs[2..];
      JoinCons(segs[1], segs[2..], d);
    }
  }

  /** `df['CIS Safeguard'].fillna('').str.startswith(low)`. */
  predicate PrefixSelected(row: MappingRow, low: string) {
    StartsWith(row.safeguard.GetOr(""), low)
  }

  /** `df['CIS Control'] == high` (an empty cell never equals). */
  predicate ControlSelected(row: MappingRow, high: string) {
    row.control == Some(high)
  }

  /** The rows selected by safeguard prefix, in table order. */
  function PrefixRows(table: seq<MappingRow>, low: string): (rows: seq<MappingRow>)
    ensures forall row :: row in rows <==> row in table && PrefixSelected(row, low)
    ensures forall row :: multiset(rows)[row] == if PrefixSelected(row, low) then multiset(table)[row] else 0
  {
    if |table| == 0 then []
    else
      assert table == [table[0]] + table[1..];
      (if PrefixSelected(table[0], low) then [table[0]] else []) + PrefixRows(table[1..], low)
  }

  /** The rows selected by exact control, in table order. */
  function ControlRows(table: seq<MappingRow>, high: string): (rows: seq<MappingRow>)
    ensures forall row :: row in rows <==> row in table && ControlSelected(row, high)
    ensures forall row :: multiset(rows)[row] == if ControlSelected(row, high) then multiset(table)[row] else 0
  {
    if |table| == 0 then []
    else
      assert table == [table[0]] + table[1..];
      (if ControlSelected(table[0], high) then [table[0]] else []) + ControlRows(table[1..], high)
  }

  /**
   * The crosswalk rows a key selects: the safeguard-prefix rows, or, only when
   * there are none, the rows whose control equals `high`.
   */
  function Matches(table: seq<MappingRow>, k: RuleKey): (rows: seq<MappingRow>)
    ensures (exists row :: row in table && PrefixSelected(row, k.low)) ==>
              forall row :: row in rows <==> row in table && PrefixSelected(row, k.low)
    ensures (forall row :: row in table ==> !PrefixSelected(row, k.low)) ==>
              forall row :: row in rows <==> row in table && ControlSelected(row, k.high)
    ensures (exists row :: row in table && PrefixSelected(row, k.low)) ==>
              forall row :: multiset(rows)[row] == if PrefixSelected(row, k.low) then multiset(table)[row] else 0
    ensures (forall row :: row in table ==> !PrefixSelected(row, k.low)) ==>
              forall row :: multiset(rows)[row] == if ControlSelected(row, k.high) then multiset(table)[row] else 0
  {
    var byPrefix := PrefixRows(table, k.low);
    if |byPrefix| > 0 then
      assert byPrefix[0] in byPrefix;
      byPrefix
    else ControlRows(table, k.high)
  }

  /**
   * The technique a row names: the combined column when it is truthy,
   * otherwise the plain column; only a non-empty string counts.
   */
  function TechniqueOf(row: MappingRow): (t: Option<string>)
    ensures t.Some? ==> t.value != ""
    ensures row.combinedId.NaN? ==> t.None?
    ensures row.combinedId.Str? && row.combinedId.text != "" ==> t == Some(row.combinedId.text)
    ensures !Truthy(row.combinedId) ==>
              t == (if row.techniqueId.Str? && row.techniqueId.text != "" then Some(row.techniqueId.text) else None)
  {
    var chosen := if Truthy(row.combinedId) then row.combinedId else row.techniqueId;
    match chosen
    case Str(s) => if s != "" then Some(s) else None
    case _ => None
  }

  /** One entry per row that names a technique, in row order. */
  function RowEntries(rows: seq<MappingRow>, passed: bool, rid: string): (es: seq<Entry>)
    ensures |es| <= |rows|
    ensures forall e :: e in es ==> e.passed == passed && e.ruleId == rid
  {
    if |rows| == 0 then []
    else
      (match TechniqueOf(rows[0])
       case Some(t) => [Entry(t, passed, rid)]
       case None => [])
      + RowEntries(rows[1..], passed, rid)
  }

  /** The entries one rule contributes. */
  function RuleEntries(rule: Rule, table: seq<MappingRow>): seq<Entry>
  {
    var rid := RuleIdOf(rule);
    match KeyOf(rid)
    case None => []
    case Some(k) => RowEntries(Matches(table, k), Passed(rule), rid)
  }

  /** The entries of all rules, in rule order. */
  function Entries(rules: seq<Rule>, table: seq<MappingRow>): seq<Entry>
  {
    Concat(PerRule(rules, table))
  }

  /** The entries of each rule separately. */
  function PerRule(rules: seq<Rule>, table: seq<MappingRow>): (xss: seq<seq<Entry>>)
    ensures |xss| == |rules|
    ensures forall i :: 0 <= i < |rules| ==> xss[i] == RuleEntries(rules[i], table)
  {
    Map(rules, EntriesOf(table))
  }

  /** `RuleEntries` against a fixed table, as a function value. */
  function EntriesOf(table: seq<MappingRow>): Rule -> seq<Entry>
  {
    rule => RuleEntries(rule, table)
  }

  /** Number of `xs` entries for technique `t`. */
  function CountTechnique(es: seq<Entry>, t: string): nat
  {
    if |es| == 0 then 0 else (if es[0].technique == t then 1 else 0) + CountTechnique(es[1..], t)
  }

  /** Number of rows naming technique `t`. */
  function CountRowsFor(rows: seq<MappingRow>, t: string): nat
  {
    if |rows| == 0 then 0 else (if TechniqueOf(rows[0]) == Some(t) then 1 else 0) + CountRowsFor(rows[1..], t)
  }

  // ---- Properties of matching ----

  lemma EntriesAppend(a: seq<Rule>, b: seq<Rule>, table: seq<MappingRow>)
    ensures Entries(a + b, table) == Entries(a, table) + Entries(b, table)
  {
    PerRuleAppend(a, b, table);
    ConcatAppend(PerRule(a, table), PerRule(b, table));
  }

  lemma PerRuleAppend(a: seq<Rule>, b: seq<Rule>, table: seq<MappingRow>)
    ensures PerRule(a + b, table) == PerRule(a, table) + PerRule(b, table)
  {
    MapAppend(a, b, EntriesOf(table));
  }

  lemma EntriesSingle(r: Rule, table: seq<MappingRow>)
    ensures Entries([r], table) == RuleEntries(r, table)
  {
    var xs := PerRule([r], table);
    assert xs[..0] == [];
    assert Concat(xs) == Concat(xs[..0]) + xs[0];
  }

  /**
   * A rule whose id has fewer than four `_` parts (a missing id among them)
   * contributes no entry, wherever it stands among the rules.
   */
  lemma MalformedRuleIgnored(a: seq<Rule>, r: Rule, b: seq<Rule>, table: seq<MappingRow>)
    requires CountChar(RuleIdOf(r), '_') < 3
    ensures Entries(a + [r] + b, table) == Entries(a + b, table)
  {
    calc {
      Entries(a + [r] + b, table);
    == { EntriesAppend(a + [r], b, table); }
      Entries(a + [r], table) + Entries(b, table);
    == { EntriesAppend(a, [r], table); }
      Entries(a, table) + Entries([r], table) + Entries(b, table);
    == { EntriesSingle(r, table); assert KeyOf(RuleIdOf(r)).None?; }
      Entries(a, table) + [] + Entries(b, table);
    == { assert Entries(a, table) + [] == Entries(a, table); EntriesAppend(a, b, table); }
      Entries(a + b, table);
    }
  }

  lemma MissingIdIgnored(a: seq<Rule>, r: Rule, b: seq<Rule>, table: seq<MappingRow>)
    requires r.ruleId.None?
    ensures Entries(a + [r] + b, table) == Entries(a + b, table)
  {
    assert RuleIdOf(r) == "";
    MalformedRuleIgnored(a, r, b, table);
  }

  /**
   * Each selected row yields its own entry: a technique named on two selected
   * rows is counted twice.
   */
  lemma {:induction false} RowEntriesCount(rows: seq<MappingRow>, passed: bool, rid: string, t: string)
    ensures CountTechnique(RowEntries(rows, passed, rid), t) == CountRowsFor(rows, t)
  {
    if |rows| > 0 {
      RowEntriesCount(rows[1..], passed, rid, t);
      var head := match TechniqueOf(rows[0]) case Some(u) => [Entry(u, passed, rid)] case None => [];
      CountTechniqueAppend(head, RowEntries(rows[1..], passed, rid), t);
    }
  }

  lemma {:induction false} CountTechniqueAppend(a: seq<Entry>, b: seq<Entry>, t: string)
    ensures CountTechnique(a + b, t) == CountTechnique(a, t) + CountTechnique(b, t)
  {
    if |a| > 0 {
      assert (a + b)[1..] == a[1..] + b;
      CountTechniqueAppend(a[1..], b, t);
    } else {
      assert a + b == b;
    }
  }

  /** Every result other than a lower-case `fail` counts as a pass. */
  lemma PassedExamples()
    ensures Passed(Rule(None, None, Some("Pass")))
    ensures Passed(Rule(None, None, Some("notapplicable")))
    ensures Passed(Rule(None, None, Some("")))
    ensures Passed(Rule(None, None, None))
    ensures !Passed(Rule(None, None, Some("fail")))
    ensures !Passed(Rule(None, None, Some("FAIL")))
  {
    assert Lower("FAIL") == "fail";
    assert Lower("Pass")[0] == 'p';
    assert Lower("notapplicable")[0] == 'n';
  }

  /** Prefix matching is textual: safeguard `4.1` also selects `4.10`. */
  lemma PrefixNotSegmentAware()
    ensures var row := MappingRow(Some("4.10"), Some("4"), Str("T1078"), Absent);
            Matches([row], RuleKey("4", "4.1")) == [row]
  {
    var row := MappingRow(Some("4.10"), Some("4"), Str("T1078"), Absent);
    assert "4.10"[..3] == "4.1";
    assert PrefixRows([row], "4.1") == [row];
  }

  /** The control column is consulted only when no safeguard matches. */
  lemma ControlFallback()
    ensures var a := MappingRow(Some("4.3"), Some("4"), Str("T1078"), Absent);
            var b := MappingRow(Some("5.1"), Some("4"), Str("T1110"), Absent);
            && Matches([a, b], RuleKey("4", "4.3")) == [a]
            && Matches([a, b], RuleKey("4", "4.9")) == [a, b]
  {
    var a := MappingRow(Some("4.3"), Some("4"), Str("T1078"), Absent);
    var b := MappingRow(Some("5.1"), Some("4"), Str("T1110"), Absent);
    FallbackPrefixHit(a, b);
    FallbackPrefixMiss(a, b);
  }

  lemma FallbackPrefixHit(a: MappingRow, b: MappingRow)
    requires a == MappingRow(Some("4.3"), Some("4"), Str("T1078"), Absent)
    requires b == MappingRow(Some("5.1"), Some("4"), Str("T1110"), Absent)
    ensures Matches([a, b], RuleKey("4", "4.3")) == [a]
  {
    assert [a, b][1..] == [b];
    assert [b][1..] == [];
    assert "4.3"[..3] == "4.3";
    assert "5.1"[..3] != "4.3" by { assert "5.1"[0] != "4.3"[0]; }
    assert PrefixRows([b], "4.3") == [];
    assert PrefixRows([a, b], "4.3") == [a] + PrefixRows([b], "4.3");
  }

  lemma FallbackPrefixMiss(a: MappingRow, b: MappingRow)
    requires a == MappingRow(Some("4.3"), Some("4"), Str("T1078"), Absent)
    requires b == MappingRow(Some("5.1"), Some("4"), Str("T1110"), Absent)
    ensures Matches([a, b], RuleKey("4", "4.9")) == [a, b]
  {
    assert [a, b][1..] == [b];
    assert [b][1..] == [];
    assert "4.3"[..3] != "4.9" by { assert "4.3"[2] != "4.9"[2]; }
    assert "5.1"[..3] != "4.9" by { assert "5.1"[0] != "4.9"[0]; }
    assert PrefixRows([b], "4.9") == [];
    assert PrefixRows([a, b], "4.9") == PrefixRows([b], "4.9");
    assert ControlRows([b], "4") == [b];
    assert ControlRows([a, b], "4") == [a] + ControlRows([b], "4");
  }

  /**
   * An empty combined cell falls back to the plain column, but a NaN combined
   * cell does not: NaN is truthy, then rejected.
   */
  lemma TechniqueFallback()
    ensures TechniqueOf(MappingRow(None, None, Str(""), Str("T1078"))) == Some("T1078")
    ensures TechniqueOf(MappingRow(None, None, Absent, Str("T1078"))) == Some("T1078")
    ensures TechniqueOf(MappingRow(None, None, NaN, Str("T1078"))) == None
    ensures TechniqueOf(MappingRow(None, None, Str("T1078.001"), Str("T1078"))) == Some("T1078.001")
  {
  }

  /** An entry belongs to the entries of the rules exactly when one of the rules produced it. */
  lemma EntryOrigin(rules: seq<Rule>, table: seq<MappingRow>, e: Entry)
    ensures e in Entries(rules, table) <==> exists r :: r in rules && e in RuleEntries(r, table)
  {
    var xss := PerRule(rules, table);
    ConcatMember(xss, e);
    if e in Entries(rules, table) {
      var i :| 0 <= i < |xss| && e in xss[i];
      assert rules[i] in rules && e in RuleEntries(rules[i], table);
    }
    if exists r :: r in rules && e in RuleEntries(r, table) {
      var r :| r in rules && e in RuleEntries(r, table);
      var i :| 0 <= i < |rules| && rules[i] == r;
      assert e in xss[i];
    }
  }

  /** Each entry carries the id and pass flag of the rule that produced it. */
  lemma EntriesFromRules(rules: seq<Rule>, table: seq<MappingRow>, e: Entry)
    requires e in Entries(rules, table)
    ensures exists r :: r in rules && e.ruleId == RuleIdOf(r) && e.passed == Passed(r)
  {
    EntryOrigin(rules, table, e);
    var r :| r in rules && e in RuleEntries(r, table);
    var rid := RuleIdOf(r);
    match KeyOf(rid)
    case None =>
    case Some(k) =>
      assert e in RowEntries(Matches(table, k), Passed(r), rid);
  }
}

=== FILE: normalize.dfy ===
/**
 * The directory name the Navigator configuration updater derives from an
 * ATT&CK collection name, on ASCII input: lower-case, spell out `&`, drop
 * punctuation, turn runs of hyphens and whitespace into one hyphen, trim
 * hyphens, and fall back to `unknown`.
 */
module Normalize {
  import opened Wrappers
  import opened Strings

  const Unknown := "unknown"

  /** `\w` on ASCII: letters, digits and the underscore. */
  predicate IsWordChar(c: char) {
    ('a' <= c <= 'z') || ('A' <= c <= 'Z') || ('0' <= c <= '9') || c == '_'
  }

  /** What `[-\s]+` matches one character of. */
  predicate IsSeparator(c: char) {
    c == '-' || IsSpace(c)
  }

  /** The characters a normalised name is made of. */
  predicate Allowed(c: char) {
    ('a' <= c <= 'z') || ('0' <= c <= '9') || c == '_' || c == '-'
  }

  /** `re.sub(r'[^\w\s-]', '', s)`: keep word characters, whitespace and hyphens. */
  function DropPunctuation(s: string): (r: string)
    ensures |r| <= |s|
  {
    if |s| == 0 then ""
    else
      var rest := DropPunctuation(s[1..]);
      if IsWordChar(s[0]) || IsSeparator(s[0]) then [s[0]] + rest else rest
  }

  /** Only word characters and separators of the input remain. */
  lemma {:induction false} DropPunctuationShape(s: string)
    ensures forall i :: 0 <= i < |DropPunctuation(s)| ==>
              var c := DropPunctuation(s)[i]; (IsWordChar(c) || IsSeparator(c)) && c in s
  {
    if |s| > 0 {
      var r := DropPunctuation(s);
      var rest := DropPunctuation(s[1..]);
      DropPunctuationShape(s[1..]);
      assert forall c :: c in s[1..] ==> c in s;
      forall i | 0 <= i < |r|
        ensures (IsWordChar(r[i]) || IsSeparator(r[i])) && r[i] in s
      {
        assert rest == DropPunctuation(s[1..]);
        if IsWordChar(s[0]) || IsSeparator(s[0]) {
          assert r == [s[0]] + rest;
          if i > 0 {
            assert r[i] == rest[i - 1];
          } else {
            assert r[i] == s[0];
          }
        } else {
          assert r == rest;
          assert r[i] == rest[i];
        }
      }
    }
  }

  /** The input without its leading separators. */
  function DropSeparators(s: string): (r: string)
    ensures |r| <= |s|
    ensures r == s[|s| - |r|..]
    ensures |r| > 0 ==> !IsSeparator(r[0])
  {
    if |s| > 0 && IsSeparator(s[0]) then DropSeparators(s[1..]) else s
  }

  /** `re.sub(r'[-\s]+', '-', s)`: every maximal run of separators becomes one hyphen. */
  function Collapse(s: string): (r: string)
    ensures |r| <= |s|
    decreases |s|
  {
    if |s| == 0 then ""
    else if IsSeparator(s[0]) then "-" + Collapse(DropSeparators(s[1..]))
    else [s[0]] + Collapse(s[1..])
  }

  /**
   * What collapsing leaves: a hyphen exactly where a run began, otherwise
   * non-separator characters of the input, and never two hyphens in a row.
   */
  lemma {:induction false} CollapseShape(s: string)
    ensures var r := Collapse(s);
            && (|s| > 0 ==> |r| > 0 && (r[0] == '-' <==> IsSeparator(s[0])))
            && (forall i :: 0 <= i < |r| ==> r[i] == '-' || (r[i] in s && !IsSeparator(r[i])))
            && (forall i :: 0 <= i < |r| - 1 ==> !(r[i] == '-' && r[i + 1] == '-'))
    decreases |s|
  {
    if |s| > 0 {
      var t := if IsSeparator(s[0]) then DropSeparators(s[1..]) else s[1..];
      CollapseShape(t);
      assert forall c :: c in t ==> c in s;
      if IsSeparator(s[0]) {
        assert Collapse(s) == ['-'] + Collapse(t);
        ConsCollapsed('-', Collapse(t), t, s);
      } else {
        assert Collapse(s) == [s[0]] + Collapse(t);
        ConsCollapsed(s[0], Collapse(t), t, s);
      }
    }
  }

  /** `a` is empty or does not end inside a separator run. */
  predicate NoTrailingSeparator(a: string) {
    |a| == 0 || !IsSeparator(a[|a| - 1])
  }

  /**
   * A separator run starting right after `a` becomes one hyphen: the run
   * that `m` opens is replaced by `-`, and collapsing carries on from the
   * first character after the run.
   */
  lemma {:induction false} CollapseRun(a: string, m: string)
    requires NoTrailingSeparator(a) && |m| > 0 && IsSeparator(m[0])
    ensures Collapse(a + m) == Collapse(a) + "-" + Collapse(DropSeparators(m[1..]))
    decreases |a|, 1
  {
    if |a| == 0 {
      assert a == "";
      CollapseRunAtStart(a, m);
    } else if IsSeparator(a[0]) {
      CollapseRunAfterSeparators(a, m);
    } else {
      CollapseRunAfterWord(a, m);
    }
  }

  /** CollapseRun when the run opens the string. */
  lemma CollapseRunAtStart(a: string, m: string)
    requires a == "" && |m| > 0 && IsSeparator(m[0])
    ensures Collapse(a + m) == Collapse(a) + "-" + Collapse(DropSeparators(m[1..]))
  {
    assert a + m == m;
    CollapseHead(m);
    CollapseEmptyPrefix(a, "-", Collapse(DropSeparators(m[1..])));
  }

  /** Collapsing the empty string contributes nothing in front. */
  lemma CollapseEmptyPrefix(a: string, y: string, z: string)
    requires a == ""
    ensures Collapse(a) + y + z == y + z
  {
    assert Collapse(a) == "";
  }

  /** CollapseRun when `a` itself opens with a separator run. */
  lemma {:induction false} CollapseRunAfterSeparators(a: string, m: string)
    requires NoTrailingSeparator(a) && |m| > 0 && IsSeparator(m[0])
    requires |a| > 0 && IsSeparator(a[0])
    ensures Collapse(a + m) == Collapse(a) + "-" + Collapse(DropSeparators(m[1..]))
    decreases |a|, 0
  {
    var a2 := DropSeparators(a[1..]);
    DropSeparatorsAppend(a[1..], m);
    CollapseRun(a2, m);
    CollapseRunSeparatorHead(a, m, a2, Collapse(DropSeparators(m[1..])));
  }

  /** CollapseRun when `a` opens with a character that is kept. */
  lemma {:induction false} CollapseRunAfterWord(a: string, m: string)
    requires NoTrailingSeparator(a) && |m| > 0 && IsSeparator(m[0])
    requires |a| > 0 && !IsSeparator(a[0])
    ensures Collapse(a + m) == Collapse(a) + "-" + Collapse(DropSeparators(m[1..]))
    decreases |a|, 0
  {
    CollapseRun(a[1..], m);
    CollapseRunWordHead(a, m, Collapse(DropSeparators(m[1..])));
  }

  /** The step of CollapseRun when `a` opens with a separator run of its own. */
  lemma CollapseRunSeparatorHead(a: string, m: string, a2: string, rest: string)
    requires |a| > 0 && IsSeparator(a[0]) && DropSeparators(a[1..]) == a2
    requires DropSeparators(a[1..] + m) == a2 + m
    requires Collapse(a2 + m) == Collapse(a2) + "-" + rest
    ensures Collapse(a + m) == Collapse(a) + "-" + rest
  {
    TailOfConcat(a, m);
    CollapseHead(a + m);
    CollapseHead(a);
    SeqAssoc("-", Collapse(a2), "-", rest);
  }

  /** The step of CollapseRun when `a` opens with a character that is kept. */
  lemma CollapseRunWordHead(a: string, m: string, rest: string)
    requires |a| > 0 && !IsSeparator(a[0])
    requires Collapse(a[1..] + m) == Collapse(a[1..]) + "-" + rest
    ensures Collapse(a + m) == Collapse(a) + "-" + rest
  {
    TailOfConcat(a, m);
    CollapseHead(a + m);
    CollapseHead(a);
    SeqAssoc([a[0]], Collapse(a[1..]), "-", rest);
  }

  /** One step of `Collapse` on a non-empty string. */
  lemma CollapseHead(s: string)
    requires |s| > 0
    ensures Collapse(s) == if IsSeparator(s[0]) then "-" + Collapse(DropSeparators(s[1..])) else [s[0]] + Collapse(s[1..])
  {
  }

  /** The head and tail of a concatenation whose left part is not empty. */
  lemma TailOfConcat<T>(a: seq<T>, m: seq<T>)
    requires |a| > 0
    ensures (a + m)[0] == a[0] && (a + m)[1..] == a[1..] + m
  {
  }

  lemma SeqAssoc(w: string, x: string, y: string, z: string)
    ensures w + (x + y + z) == w + x + y + z
  {
  }

  /** Leading separators are dropped inside `a` when `a` ends in something else. */
  lemma {:induction false} DropSeparatorsAppend(a: string, x: string)
    requires |a| > 0 && !IsSeparator(a[|a| - 1])
    ensures DropSeparators(a + x) == DropSeparators(a) + x
    ensures |DropSeparators(a)| > 0 && !IsSeparator(DropSeparators(a)[|DropSeparators(a)| - 1])
    ensures |DropSeparators(a)| <= |a|
  {
    if IsSeparator(a[0]) {
      assert (a + x)[1..] == a[1..] + x;
      DropSeparatorsAppend(a[1..], x);
    }
  }

  /** Hyphens, or characters of `s` that are not separators, with no two hyphens adjacent. */
  predicate CollapsedFrom(r: string, s: string) {
    && (forall i :: 0 <= i < |r| ==> r[i] == '-' || (r[i] in s && !IsSeparator(r[i])))
    && (forall i :: 0 <= i < |r| - 1 ==> !(r[i] == '-' && r[i + 1] == '-'))
  }

  /** One more character in front keeps the shape, unless it would put two hyphens together. */
  lemma ConsCollapsed(c: char, rest: string, t: string, s: string)
    requires CollapsedFrom(rest, t) && forall x :: x in t ==> x in s
    requires c == '-' || (c in s && !IsSeparator(c))
    requires c == '-' && |rest| > 0 ==> rest[0] != '-'
    ensures CollapsedFrom([c] + rest, s)
  {
    var r := [c] + rest;
    forall i | 0 < i < |r|
      ensures r[i] == rest[i - 1]
    {
    }
  }

  /** `s.lstrip('-')`: the input without its leading hyphens. */
  function StripLeading(s: string): (r: string)
    ensures |r| <= |s| && r == s[|s| - |r|..]
    ensures |r| > 0 ==> r[0] != '-'
  {
    if |s| > 0 && s[0] == '-' then StripLeading(s[1..]) else s
  }

  /** `s.rstrip('-')`: the input without its trailing hyphens. */
  function StripTrailing(s: string): (r: string)
    ensures |r| <= |s| && r == s[..|r|]
    ensures |r| > 0 ==> r[|r| - 1] != '-'
  {
    if |s| > 0 && s[|s| - 1] == '-' then StripTrailing(s[..|s| - 1]) else s
  }

  /** Everything `lstrip('-')` removes is a hyphen. */
  lemma {:induction false} StripLeadingHyphens(s: string)
    ensures forall k :: 0 <= k < |s| - |StripLeading(s)| ==> s[k] == '-'
  {
    if |s| > 0 && s[0] == '-' {
      StripLeadingHyphens(s[1..]);
      forall k | 0 < k < |s| - |StripLeading(s)|
        ensures s[k] == '-'
      {
        assert s[k] == s[1..][k - 1];
      }
    }
  }

  /** Everything `rstrip('-')` removes is a hyphen. */
  lemma {:induction false} StripTrailingHyphens(s: string)
    ensures forall k :: |StripTrailing(s)| <= k < |s| ==> s[k] == '-'
  {
    if |s| > 0 && s[|s| - 1] == '-' {
      var p := s[..|s| - 1];
      StripTrailingHyphens(p);
      forall k | |StripTrailing(s)| <= k < |p|
        ensures s[k] == '-'
      {
        assert s[k] == p[k];
      }
    }
  }

  /**
   * `s.strip('-')`: the slice of `s` left once the hyphens at both ends are
   * cut off; the slice neither starts nor ends with a hyphen.
   */
  function StripHyphens(s: string): (r: string)
    ensures |r| <= |s|
    ensures exists i :: 0 <= i <= |s| - |r| && StrippedAt(s, r, i)
    ensures HyphenFreeEnds(r)
  {
    var t := StripLeading(s);
    var r := StripTrailing(t);
    StripLeadingHyphens(s);
    StripTrailingHyphens(t);
    StripBothEnds(s, t, r);
    assert 0 <= |s| - |t| <= |s| - |r| && StrippedAt(s, r, |s| - |t|);
    EndsAfterStrip(t, r);
    r
  }

  /**
   * Cutting hyphens off the front of `s`, giving `t`, then off the back of
   * `t`, giving `r`, leaves `r` as a slice of `s` with only hyphens outside.
   */
  lemma StripBothEnds(s: string, t: string, r: string)
    requires |t| <= |s| && t == s[|s| - |t|..] && |r| <= |t| && r == t[..|r|]
    requires forall k :: 0 <= k < |s| - |t| ==> s[k] == '-'
    requires forall k :: |r| <= k < |t| ==> t[k] == '-'
    ensures StrippedAt(s, r, |s| - |t|)
  {
    var i := |s| - |t|;
    forall k | i + |r| <= k < |s|
      ensures s[k] == '-'
    {
      assert s[k] == t[k - i];
    }
  }

  /** A prefix of a string that does not start with a hyphen, itself not ending in one, has no hyphen at either end. */
  lemma EndsAfterStrip(t: string, r: string)
    requires |t| > 0 ==> t[0] != '-'
    requires |r| <= |t| && r == t[..|r|]
    requires |r| > 0 ==> r[|r| - 1] != '-'
    ensures HyphenFreeEnds(r)
  {
    assert |r| > 0 ==> r[0] == t[0];
  }

  /** `r` is `s[i..i + |r|]` and everything of `s` outside that slice is a hyphen. */
  predicate StrippedAt(s: string, r: string, i: int) {
    && 0 <= i <= |s| - |r|
    && r == s[i..i + |r|]
    && (forall k :: 0 <= k < i ==> s[k] == '-')
    && (forall k :: i + |r| <= k < |s| ==> s[k] == '-')
  }

  /** `r` neither starts nor ends with a hyphen. */
  predicate HyphenFreeEnds(r: string) {
    |r| > 0 ==> r[0] != '-' && r[|r| - 1] != '-'
  }

  /**
   * The slice description pins `strip('-')` down: any slice of `s` with no
   * hyphen at its ends and only hyphens outside it is `StripHyphens(s)`.
   */
  lemma StripHyphensCharacterized(s: string, r: string, i: int)
    requires StrippedAt(s, r, i) && HyphenFreeEnds(r)
    ensures r == StripHyphens(s)
  {
    var h := StripHyphens(s);
    var j :| 0 <= j <= |s| - |h| && StrippedAt(s, h, j);
    if |r| > 0 && |h| > 0 {
      assert s[i] == r[0] && s[j] == h[0];
      assert s[i + |r| - 1] == r[|r| - 1] && s[j + |h| - 1] == h[|h| - 1];
      assert i == j;
      assert |r| == |h|;
    }
  }

  /** The two spelled-out replacements, `att&ck` first so that it does not become `attandck`. */
  function Spelled(lowered: string): string {
    Replace(Replace(lowered, "att&ck", "attack"), "&", "and")
  }

  /** The pipeline before the `or "unknown"` fallback. */
  function Cleaned(name: string): string {
    StripHyphens(Collapse(DropPunctuation(Spelled(Lower(name)))))
  }

  /** `normalize_collection_name`; `None` stands for an absent name. */
  function NormalizeCollectionName(name: Option<string>): (r: string)
    ensures r != ""
    ensures name.None? || name.value == "" ==> r == Unknown
  {
    if name.None? || name.value == "" then Unknown
    else
      var c := Cleaned(name.value);
      if c == "" then Unknown else c
  }

  /** A directory-friendly name: non-empty, allowed characters, hyphens single and inside. */
  predicate DirectoryFriendly(s: string) {
    && |s| > 0
    && (forall i :: 0 <= i < |s| ==> Allowed(s[i]))
    && (forall i :: 0 <= i < |s| - 1 ==> !(s[i] == '-' && s[i + 1] == '-'))
    && s[0] != '-' && s[|s| - 1] != '-'
  }

  /** The cleaning steps introduce no upper-case letter after lower-casing. */
  lemma SpelledLower(lowered: string)
    requires forall i :: 0 <= i < |lowered| ==> !IsUpper(lowered[i])
    ensures forall i :: 0 <= i < |Spelled(lowered)| ==> !IsUpper(Spelled(lowered)[i])
  {
    var once := Replace(lowered, "att&ck", "attack");
    assert forall i :: 0 <= i < |once| ==> !IsUpper(once[i]) by {
      forall i | 0 <= i < |once|
        ensures !IsUpper(once[i])
      {
        assert once[i] in lowered || once[i] in "attack";
      }
    }
    var twice := Replace(once, "&", "and");
    forall i | 0 <= i < |twice|
      ensures !IsUpper(twice[i])
    {
      assert twice[i] in once || twice[i] in "and";
    }
  }

  /** Hyphens single and characters allowed: what the collapsed name satisfies. */
  predicate Tidy(s: string) {
    && (forall i :: 0 <= i < |s| ==> Allowed(s[i]))
    && (forall i :: 0 <= i < |s| - 1 ==> !(s[i] == '-' && s[i + 1] == '-'))
  }

  /** Any slice of a tidy string is tidy. */
  lemma TidySlice(s: string, a: int, b: int)
    requires 0 <= a <= b <= |s| && Tidy(s)
    ensures Tidy(s[a..b])
  {
    var t := s[a..b];
    assert forall k :: 0 <= k < |t| ==> t[k] == s[a + k];
  }

  /** Collapsing the punctuation-free, lower-cased name leaves only allowed characters. */
  lemma CollapsedTidy(spelled: string)
    requires forall i :: 0 <= i < |spelled| ==> !IsUpper(spelled[i])
    ensures Tidy(Collapse(DropPunctuation(spelled)))
  {
    var kept := DropPunctuation(spelled);
    DropPunctuationShape(spelled);
    var collapsed := Collapse(kept);
    CollapseShape(kept);
    forall i | 0 <= i < |collapsed|
      ensures Allowed(collapsed[i])
    {
      if collapsed[i] != '-' {
        var c := collapsed[i];
        assert c in kept;
        assert c in spelled;
      }
    }
  }

  /** Whatever the cleaning leaves, if anything, is directory-friendly. */
  lemma CleanedFriendly(name: string)
    requires Cleaned(name) != ""
    ensures DirectoryFriendly(Cleaned(name))
  {
    var lowered := Lower(name);
    LowerNoUpper(name);
    var spelled := Spelled(lowered);
    SpelledLower(lowered);
    var collapsed := Collapse(DropPunctuation(spelled));
    CollapsedTidy(spelled);
    StripHyphensTidy(collapsed);
  }

  /** Stripping keeps a tidy string tidy. */
  lemma StripHyphensTidy(s: string)
    requires Tidy(s)
    ensures Tidy(StripHyphens(s))
  {
    var r := StripHyphens(s);
    var i :| 0 <= i <= |s| - |r| && StrippedAt(s, r, i);
    TidySlice(s, i, i + |r|);
  }

  /** The result is always a non-empty, directory-friendly name. */
  lemma NormalizeFriendly(name: Option<string>)
    ensures DirectoryFriendly(NormalizeCollectionName(name))
  {
    if name.Some? && name.value != "" && Cleaned(name.value) != "" {
      CleanedFriendly(name.value);
    } else {
      UnknownFriendly();
    }
  }

  lemma UnknownFriendly()
    ensures DirectoryFriendly(Unknown)
  {
    var u := Unknown;
    assert forall i :: 0 <= i < |u| ==> u[i] in "unknow";
  }

  lemma {:induction false} DropPunctuationKeeps(s: string)
    requires forall i :: 0 <= i < |s| ==> IsWordChar(s[i]) || IsSeparator(s[i])
    ensures DropPunctuation(s) == s
  {
    if |s| > 0 {
      DropPunctuationKeeps(s[1..]);
    }
  }

  lemma {:induction false} CollapseKeeps(s: string)
    requires forall i :: 0 <= i < |s| ==> !IsSpace(s[i])
    requires forall i :: 0 <= i < |s| - 1 ==> !(s[i] == '-' && s[i + 1] == '-')
    ensures Collapse(s) == s
    decreases |s|
  {
    if |s| > 0 {
      if s[0] == '-' && |s| > 1 {
        assert !IsSeparator(s[1]);
      }
      assert IsSeparator(s[0]) ==> DropSeparators(s[1..]) == s[1..];
      CollapseKeeps(s[1..]);
    }
  }

  /** A directory-friendly name passes through the cleaning unchanged. */
  lemma CleanedKeepsFriendly(s: string)
    requires DirectoryFriendly(s)
    ensures Cleaned(s) == s
  {
    CollapsedKeepsFriendly(s);
    StripHyphensKeeps(s);
  }

  /** Every cleaning step before `strip('-')` leaves a directory-friendly name as it is. */
  lemma CollapsedKeepsFriendly(s: string)
    requires DirectoryFriendly(s)
    ensures Collapse(DropPunctuation(Spelled(Lower(s)))) == s
  {
    assert forall i :: 0 <= i < |s| ==> !IsUpper(s[i]);
    LowerOfLower(s);
    assert "att&ck"[3] !in s;
    assert Replace(s, "att&ck", "attack") == s;
    assert "&"[0] !in s;
    assert Replace(s, "&", "and") == s;
    DropPunctuationKeeps(s);
    CollapseKeeps(s);
  }

  /** Normalising a normalised name changes nothing. */
  lemma NormalizeIdempotent(name: Option<string>)
    ensures NormalizeCollectionName(Some(NormalizeCollectionName(name))) == NormalizeCollectionName(name)
  {
    var y := NormalizeCollectionName(name);
    NormalizeFriendly(name);
    CleanedKeepsFriendly(y);
  }

  /** A prefix without separators is copied as it is. */
  lemma {:induction false} CollapseSkip(a: string, b: string)
    requires forall i :: 0 <= i < |a| ==> !IsSeparator(a[i])
    ensures Collapse(a + b) == a + Collapse(b)
    decreases |a|
  {
    if |a| > 0 {
      var s := a + b;
      var t := a[1..];
      var cb := Collapse(b);
      assert s[0] == a[0] && s[1..] == t + b;
      assert Collapse(s) == [a[0]] + Collapse(t + b) by {
        CollapseStep(s);
      }
      assert Collapse(t + b) == t + cb by {
        CollapseSkip(t, b);
      }
      assert [a[0]] + (t + cb) == a + cb by {
        assert a == [a[0]] + t;
      }
    } else {
      assert a + b == b;
    }
  }

  lemma CollapseStep(s: string)
    requires |s| > 0 && !IsSeparator(s[0])
    ensures Collapse(s) == [s[0]] + Collapse(s[1..])
  {
  }

  /** The whole `att&ck` is spelled out, not its `&` alone. */
  lemma SpelledAttack(head: string)
    requires 'a' !in head && '&' !in head
    ensures Spelled(head + "att&ck") == head + "attack"
  {
    var once := head + "attack";
    assert Replace(head + "att&ck", "att&ck", "attack") == once by {
      assert "att&ck"[0] !in head;
      ReplaceSkip(head, "att&ck", "att&ck", "attack");
      assert Replace("att&ck", "att&ck", "attack") == "attack" by {
        ReplaceHead("", "att&ck", "attack");
        assert "att&ck" + "" == "att&ck";
      }
    }
    assert Replace(once, "&", "and") == once by {
      assert "&"[0] !in once;
    }
  }

  /** Two words around one space collapse to a hyphenated pair. */
  lemma CollapseWords(head: string, tail: string)
    requires |tail| > 0
    requires forall i :: 0 <= i < |head| ==> !IsSeparator(head[i])
    requires forall i :: 0 <= i < |tail| ==> !IsSeparator(tail[i])
    ensures Collapse(head + " " + tail) == head + "-" + tail
  {
    assert Collapse(head + (" " + tail)) == head + Collapse(" " + tail) by {
      CollapseSkip(head, " " + tail);
    }
    assert Collapse(" " + tail) == "-" + tail by {
      CollapseKeeps(tail);
      CollapseSpace(tail);
    }
    ConcatAssoc(head, " ", tail);
    ConcatAssoc(head, "-", tail);
  }

  lemma ConcatAssoc(a: string, b: string, c: string)
    ensures a + b + c == a + (b + c)
  {
  }

  lemma CollapseSpace(t: string)
    requires |t| > 0 && !IsSeparator(t[0])
    ensures Collapse(" " + t) == "-" + Collapse(t)
  {
    var s := " " + t;
    assert s[1..] == t;
  }

  /** Two words around one space have no punctuation to drop. */
  lemma WordsKept(head: string, tail: string)
    requires forall i :: 0 <= i < |head| ==> IsWordChar(head[i])
    requires forall i :: 0 <= i < |tail| ==> IsWordChar(tail[i])
    ensures DropPunctuation(head + " " + tail) == head + " " + tail
  {
    var s := head + " " + tail;
    KeptAppend(head, " ");
    KeptAppend(head + " ", tail);
    DropPunctuationKeeps(s);
  }

  /** Every character is a word character or a separator. */
  predicate AllKept(s: string) {
    forall i :: 0 <= i < |s| ==> IsWordChar(s[i]) || IsSeparator(s[i])
  }

  lemma KeptAppend(a: string, b: string)
    requires AllKept(a) && AllKept(b)
    ensures AllKept(a + b)
  {
    var s := a + b;
    forall i | 0 <= i < |s|
      ensures IsWordChar(s[i]) || IsSeparator(s[i])
    {
      if i < |a| {
        assert s[i] == a[i];
      } else {
        assert s[i] == b[i - |a|];
      }
    }
  }

  /** The ATT&CK Enterprise collection's name becomes `enterprise-attack`. */
  lemma EnterpriseExample(name: string, dirName: string)
    requires name == "Enterprise ATT&CK" && dirName == "enterprise-attack"
    ensures NormalizeCollectionName(Some(name)) == dirName
  {
    var head, tail := "enterprise", "attack";
    EnterpriseCleaned(name, head, tail);
    EnterpriseJoined(head, tail, dirName);
  }

  lemma EnterpriseJoined(head: string, tail: string, dirName: string)
    requires head == "enterprise" && tail == "attack" && dirName == "enterprise-attack"
    ensures head + "-" + tail == dirName
  {
  }

  lemma EnterpriseCleaned(name: string, head: string, tail: string)
    requires name == "Enterprise ATT&CK" && head == "enterprise" && tail == "attack"
    ensures Cleaned(name) == head + "-" + tail
  {
    EnterpriseSpelled(name, head, tail);
    EnterpriseWords(head, tail);
    CleanedWords(name, head, tail);
  }

  lemma EnterpriseWords(head: string, tail: string)
    requires head == "enterprise" && tail == "attack"
    ensures |head| > 0 && |tail| > 0
    ensures forall i :: 0 <= i < |head| ==> IsWordChar(head[i])
    ensures forall i :: 0 <= i < |tail| ==> IsWordChar(tail[i])
  {}

  lemma EnterpriseSpelled(name: string, head: string, tail: string)
    requires name == "Enterprise ATT&CK" && head == "enterprise" && tail == "attack"
    ensures Spelled(Lower(name)) == head + " " + tail
  {
    var front := head + " ";
    assert Lower(name) == front + "att&ck";
    assert 'a' !in front && '&' !in front;
    SpelledAttack(front);
  }

  /** A name that spells out as two words around one space is cleaned into the hyphenated pair. */
  lemma CleanedWords(name: string, head: string, tail: string)
    requires Spelled(Lower(name)) == head + " " + tail
    requires |head| > 0 && |tail| > 0
    requires forall i :: 0 <= i < |head| ==> IsWordChar(head[i])
    requires forall i :: 0 <= i < |tail| ==> IsWordChar(tail[i])
    ensures Cleaned(name) == head + "-" + tail
  {
    CollapsedWords(name, head, tail);
    assert IsWordChar(head[0]) && IsWordChar(tail[|tail| - 1]);
    HyphenatedKept(head, tail);
  }

  /** The steps before `strip('-')` turn the two spelled-out words into the hyphenated pair. */
  lemma CollapsedWords(name: string, head: string, tail: string)
    requires Spelled(Lower(name)) == head + " " + tail
    requires |tail| > 0
    requires forall i :: 0 <= i < |head| ==> IsWordChar(head[i])
    requires forall i :: 0 <= i < |tail| ==> IsWordChar(tail[i])
    ensures Collapse(DropPunctuation(Spelled(Lower(name)))) == head + "-" + tail
  {
    WordsKept(head, tail);
    WordsNotSeparators(head);
    WordsNotSeparators(tail);
    CollapseWords(head, tail);
  }

  /** Two words joined by one hyphen have no hyphen at either end, so `strip('-')` keeps them. */
  lemma HyphenatedKept(head: string, tail: string)
    requires |head| > 0 && |tail| > 0 && head[0] != '-' && tail[|tail| - 1] != '-'
    ensures StripHyphens(head + "-" + tail) == head + "-" + tail
  {
    var collapsed := head + "-" + tail;
    assert collapsed[0] == head[0] && collapsed[|collapsed| - 1] == tail[|tail| - 1];
    StripHyphensKeeps(collapsed);
  }

  lemma WordsNotSeparators(w: string)
    requires forall i :: 0 <= i < |w| ==> IsWordChar(w[i])
    ensures forall i :: 0 <= i < |w| ==> !IsSeparator(w[i])
  {
  }

  /** A non-empty string without a hyphen at either end is unchanged by `strip('-')`. */
  lemma StripHyphensKeeps(s: string)
    requires |s| > 0 && s[0] != '-' && s[|s| - 1] != '-'
    ensures StripHyphens(s) == s
  {
  }
}

=== FILE: sequences.dfy ===
/** Sequence helpers: duplicate-freedom and first-occurrence order. */
module Sequences {

  predicate Distinct<T(==)>(s: seq<T>) {
    forall i, j :: 0 <= i < j < |s| ==> s[i] != s[j]
  }

  /**
   * The elements of `s` without repeats, each at the place of its first
   * occurrence (the key order of a Python dict filled from `s`).
   */
  function FirstSeen<T(==,!new)>(s: seq<T>): (r: seq<T>)
    ensures Distinct(r)
    ensures forall x :: x in r <==> x in s
  {
    if |s| == 0 then []
    else
      var p := FirstSeen(s[..|s| - 1]);
      var x := s[|s| - 1];
      assert forall y :: y in s <==> y in s[..|s| - 1] || y == x by {
        assert s == s[..|s| - 1] + [x];
      }
      if x in p then p else p + [x]
  }

  /** Extending `s` by an element already present keeps `FirstSeen` unchanged. */
  lemma FirstSeenSnoc<T(!new)>(s: seq<T>, x: T)
    ensures FirstSeen(s + [x]) == (if x in s then FirstSeen(s) else FirstSeen(s) + [x])
  {
    assert (s + [x])[..|s + [x]| - 1] == s;
  }

  /** On a sequence that already has no repeats, `FirstSeen` changes nothing. */
  lemma {:induction false} FirstSeenDistinct<T(!new)>(s: seq<T>)
    requires Distinct(s)
    ensures FirstSeen(s) == s
  {
    if |s| > 0 {
      var p := s[..|s| - 1];
      assert Distinct(p);
      FirstSeenDistinct(p);
      assert s[|s| - 1] !in p;
      FirstSeenSnoc(p, s[|s| - 1]);
      assert p + [s[|s| - 1]] == s;
    }
  }

  /** `f` applied to each element, in order. */
  function Map<A, B>(xs: seq<A>, f: A -> B): (ys: seq<B>)
    ensures |ys| == |xs|
    ensures forall i :: 0 <= i < |xs| ==> ys[i] == f(xs[i])
  {
    seq(|xs|, i requires 0 <= i < |xs| => f(xs[i]))
  }

  lemma MapAppend<A, B>(a: seq<A>, b: seq<A>, f: A -> B)
    ensures Map(a + b, f) == Map(a, f) + Map(b, f)
  {
    var l := Map(a + b, f);
    var r := Map(a, f) + Map(b, f);
    forall i | 0 <= i < |l|
      ensures l[i] == r[i]
    {
      if i < |a| {
        assert (a + b)[i] == a[i];
      } else {
        assert (a + b)[i] == b[i - |a|];
      }
    }
  }

  /** The concatenation of a list of lists, in order. */
  function Concat<T>(xss: seq<seq<T>>): seq<T>
  {
    if |xss| == 0 then [] else Concat(xss[..|xss| - 1]) + xss[|xss| - 1]
  }

  lemma {:induction false} ConcatAppend<T>(a: seq<seq<T>>, b: seq<seq<T>>)
    ensures Concat(a + b) == Concat(a) + Concat(b)
    decreases |b|
  {
    if |b| == 0 {
      assert a + b == a;
    } else {
      var b' := b[..|b| - 1];
      assert (a + b)[..|a + b| - 1] == a + b';
      assert (a + b)[|a + b| - 1] == b[|b| - 1];
      ConcatAppend(a, b');
    }
  }

  /** An element of a concatenation comes from one of the lists, and each list's elements are in it. */
  lemma {:induction false} ConcatMember<T>(xss: seq<seq<T>>, x: T)
    ensures x in Concat(xss) <==> exists i :: 0 <= i < |xss| && x in xss[i]
  {
    if |xss| > 0 {
      var p := xss[..|xss| - 1];
      ConcatMember(p, x);
      if x in Concat(xss) && x !in Concat(p) {
        assert x in xss[|xss| - 1];
      }
      if exists i :: 0 <= i < |xss| && x in xss[i] {
        var i :| 0 <= i < |xss| && x in xss[i];
        if i < |xss| - 1 {
          assert x in p[i];
        }
      }
    }
  }
}

=== FILE: strings.dfy ===
/**
 * The Python string operations the application relies on: `startswith`,
 * `lower` (ASCII letters only), ASCII whitespace, `split` on one character, `join`, and
 * left-to-right non-overlapping `replace`.
 */
module Strings {

  /** `s.startswith(p)`. */
  predicate StartsWith(s: string, p: string) {
    |p| <= |s| && s[..|p|] == p
  }

  /** ASCII lower-casing of one character. */
  function LowerChar(c: char): char {
    if 'A' <= c <= 'Z' then (c as int + 32) as char else c
  }

  predicate IsUpper(c: char) {
    'A' <= c <= 'Z'
  }

  /**
   * The ASCII characters `str.isspace` accepts, which `str.strip()` and the
   * regular-expression class `\s` use: tab to carriage return, the four
   * separators 0x1C-0x1F, and the space.
   */
  predicate IsSpace(c: char) {
    ('\t' <= c <= '\r') || ('\U{001C}' <= c <= '\U{001F}') || c == ' '
  }

  /** `s.lower()` restricted to ASCII letters. */
  function Lower(s: string): (r: string)
    ensures |r| == |s|
    ensures forall i :: 0 <= i < |s| ==> r[i] == LowerChar(s[i])
  {
    seq(|s|, i requires 0 <= i < |s| => LowerChar(s[i]))
  }

  lemma LowerIdempotent(s: string)
    ensures Lower(Lower(s)) == Lower(s)
  {
  }

  lemma LowerNoUpper(s: string)
    ensures forall i :: 0 <= i < |s| ==> !IsUpper(Lower(s)[i])
  {
  }

  /** A string with no upper-case ASCII letter is its own lower-case form. */
  lemma LowerOfLower(s: string)
    requires forall i :: 0 <= i < |s| ==> !IsUpper(s[i])
    ensures Lower(s) == s
  {
  }

  /** Number of occurrences of `d` in `s`. */
  function CountChar(s: string, d: char): nat
  {
    if |s| == 0 then 0 else (if s[0] == d then 1 else 0) + CountChar(s[1..], d)
  }

  lemma {:induction false} CountAppend(a: string, b: string, d: char)
    ensures CountChar(a + b, d) == CountChar(a, d) + CountChar(b, d)
    decreases |a|
  {
    if |a| > 0 {
      assert (a + b)[1..] == a[1..] + b;
      CountAppend(a[1..], b, d);
    } else {
      assert a + b == b;
    }
  }

  /** Index of the first occurrence of `d` in `s`. */
  function IndexOf(s: string, d: char): (i: nat)
    requires d in s
    ensures i < |s| && s[i] == d
    ensures d !in s[..i]
  {
    if s[0] == d then 0 else IndexOf(s[1..], d) + 1
  }

  /** `d.join(parts)`: the parts with one `d` between neighbours. */
  function Join(parts: seq<string>, d: char): string
  {
    if |parts| == 0 then ""
    else if |parts| == 1 then parts[0]
    else parts[0] + [d] + Join(parts[1..], d)
  }

  /**
   * `s.split(d)`: the pieces between occurrences of `d`; there is always one
   * more piece than there are separators, and joining them back gives `s`.
   */
  function Split(s: string, d: char): (parts: seq<string>)
    ensures |parts| == CountChar(s, d) + 1
    ensures forall k :: 0 <= k < |parts| ==> d !in parts[k]
    ensures Join(parts, d) == s
    decreases |s|
  {
    if d !in s then
      NoSeparatorCount(s, d);
      [s]
    else
      var i := IndexOf(s, d);
      var rest := Split(s[i + 1..], d);
      SplitStep(s, d, i, rest);
      [s[..i]] + rest
  }

  /** The first piece cut off before the first separator, followed by the split of the rest, is a split of `s`. */
  lemma SplitStep(s: string, d: char, i: nat, rest: seq<string>)
    requires i < |s| && s[i] == d && d !in s[..i]
    requires |rest| == CountChar(s[i + 1..], d) + 1
    requires forall k :: 0 <= k < |rest| ==> d !in rest[k]
    requires Join(rest, d) == s[i + 1..]
    ensures |[s[..i]] + rest| == CountChar(s, d) + 1
    ensures forall k :: 0 <= k < |rest| + 1 ==> d !in ([s[..i]] + rest)[k]
    ensures Join([s[..i]] + rest, d) == s
  {
    CountSplit(s, d, i);
    JoinCons(s[..i], rest, d);
    assert s == s[..i] + [d] + s[i + 1..];
    var parts := [s[..i]] + rest;
    forall k | 0 <= k < |rest| + 1
      ensures d !in parts[k]
    {
      if k > 0 {
        assert parts[k] == rest[k - 1];
      }
    }
  }

  lemma {:induction false} NoSeparatorCount(s: string, d: char)
    requires d !in s
    ensures CountChar(s, d) == 0
    decreases |s|
  {
    if |s| > 0 {
      assert d !in s[1..];
      NoSeparatorCount(s[1..], d);
    }
  }

  lemma {:induction false} CountSplit(s: string, d: char, i: nat)
    requires i < |s| && s[i] == d && d !in s[..i]
    ensures CountChar(s, d) == CountChar(s[i + 1..], d) + 1
    decreases i
  {
    if i > 0 {
      assert s[1..][i - 1] == d;
      assert s[1..][..i - 1] == s[1..i];
      assert d !in s[1..i];
      CountSplit(s[1..], d, i - 1);
      assert s[1..][i..] == s[i + 1..];
    }
  }

  lemma JoinCons(p: string, rest: seq<string>, d: char)
    requires |rest| > 0
    ensures Join([p] + rest, d) == p + [d] + Join(rest, d)
  {
    assert ([p] + rest)[1..] == rest;
  }

  /** Joining two non-empty lists of parts puts one separator between the halves. */
  lemma {:induction false} JoinAppend(a: seq<string>, b: seq<string>, d: char)
    requires |a| > 0 && |b| > 0
    ensures Join(a + b, d) == Join(a, d) + [d] + Join(b, d)
    decreases |a|
  {
    if |a| == 1 {
      assert (a + b)[1..] == b;
    } else {
      assert (a + b)[1..] == a[1..] + b;
      JoinAppend(a[1..], b, d);
    }
  }

  /** Splitting a join of separator-free parts gives the parts back. */
  lemma {:induction false} SplitJoin(parts: seq<string>, d: char)
    requires |parts| > 0
    requires forall k :: 0 <= k < |parts| ==> d !in parts[k]
    ensures Split(Join(parts, d), d) == parts
    decreases |parts|
  {
    if |parts| > 1 {
      var s := Join(parts, d);
      var p := parts[0];
      assert s == p + [d] + Join(parts[1..], d);
      assert s[|p|] == d;
      assert s[..|p|] == p;
      assert IndexOf(s, d) == |p|;
      assert s[|p| + 1..] == Join(parts[1..], d);
      SplitJoin(parts[1..], d);
    }
  }

  /**
   * `s.replace(pat, rep)`: every non-overlapping occurrence of `pat`, scanning
   * left to right, replaced by `rep`.
   */
  function Replace(s: string, pat: string, rep: string): (r: string)
    requires |pat| > 0
    ensures (exists k :: 0 <= k < |pat| && pat[k] !in s) ==> r == s
    ensures forall i :: 0 <= i < |r| ==> r[i] in s || r[i] in rep
    ensures |pat| == 1 && pat[0] !in rep ==> pat[0] !in r
    decreases |s|
  {
    if |s| < |pat| then s
    else if s[..|pat|] == pat then
      var rest := Replace(s[|pat|..], pat, rep);
      assert forall c :: c in s[|pat|..] ==> c in s;
      assert |pat| == 1 ==> s[0] == pat[0];
      rep + rest
    else
      var rest := Replace(s[1..], pat, rep);
      assert forall c :: c in s[1..] ==> c in s;
      assert |pat| == 1 ==> s[0] != pat[0];
      [s[0]] + rest
  }

  /** `pat` occurs in `s` starting at position `i`. */
  predicate OccursAt(s: string, pat: string, i: int) {
    0 <= i <= |s| - |pat| && s[i..i + |pat|] == pat
  }

  /** `pat` occurs nowhere in `s`. */
  ghost predicate NoOccurrence(s: string, pat: string) {
    forall i: int :: !OccursAt(s, pat, i)
  }

  /** A string in which the pattern does not occur comes back unchanged. */
  lemma {:induction false} ReplaceAbsent(s: string, pat: string, rep: string)
    requires |pat| > 0 && NoOccurrence(s, pat)
    ensures Replace(s, pat, rep) == s
    decreases |s|
  {
    if |s| >= |pat| {
      NoOccurrenceTail(s, pat);
      ReplaceMiss(s, pat, rep);
      ReplaceAbsent(s[1..], pat, rep);
      assert [s[0]] + s[1..] == s;
    }
  }

  /** Without an occurrence, the pattern does not start `s`, nor occur in its tail. */
  lemma NoOccurrenceTail(s: string, pat: string)
    requires |pat| > 0 && |s| >= |pat| && NoOccurrence(s, pat)
    ensures s[..|pat|] != pat && NoOccurrence(s[1..], pat)
  {
    assert !OccursAt(s, pat, 0);
    assert s[..|pat|] == s[0..0 + |pat|];
    var t := s[1..];
    forall i: int
      ensures !OccursAt(t, pat, i)
    {
      if 0 <= i <= |t| - |pat| {
        assert !OccursAt(s, pat, i + 1);
        assert t[i..i + |pat|] == s[i + 1..i + 1 + |pat|];
      }
    }
  }

  /** No occurrence can start inside a prefix lacking the pattern's first character. */
  lemma {:induction false} ReplaceSkip(a: string, b: string, pat: string, rep: string)
    requires |pat| > 0 && pat[0] !in a
    ensures Replace(a + b, pat, rep) == a + Replace(b, pat, rep)
    decreases |a|
  {
    if |a| > 0 {
      var rb := Replace(b, pat, rep);
      ReplaceSkipOne(a, b, pat, rep);
      ReplaceSkip(a[1..], b, pat, rep);
      assert [a[0]] + (a[1..] + rb) == ([a[0]] + a[1..]) + rb;
      assert [a[0]] + a[1..] == a;
    } else {
      assert a + b == b;
    }
  }

  lemma ReplaceSkipOne(a: string, b: string, pat: string, rep: string)
    requires |pat| > 0 && |a| > 0 && a[0] != pat[0]
    ensures Replace(a + b, pat, rep) == [a[0]] + Replace(a[1..] + b, pat, rep)
  {
    var s := a + b;
    assert |s| >= |pat| ==> s[..|pat|] != pat by {
      if |s| >= |pat| {
        assert s[..|pat|][0] == s[0];
      }
    }
    ReplaceMiss(s, pat, rep);
    assert s[1..] == a[1..] + b;
  }

  /** Where the pattern does not start, the first character is kept and the scan moves on. */
  lemma ReplaceMiss(s: string, pat: string, rep: string)
    requires |pat| > 0 && |s| > 0
    requires |s| >= |pat| ==> s[..|pat|] != pat
    ensures Replace(s, pat, rep) == [s[0]] + Replace(s[1..], pat, rep)
  {
  }

  /** An occurrence at the front is replaced and the scan resumes after it. */
  lemma ReplaceHead(b: string, pat: string, rep: string)
    requires |pat| > 0
    ensures Replace(pat + b, pat, rep) == rep + Replace(b, pat, rep)
  {
    var s := pat + b;
    assert s[..|pat|] == pat && s[|pat|..] == b;
  }
}

=== FILE: utils.dfy ===
/**
 * Client errors and the validation of the user-to-department request body.
 */
module Utils {
  import opened Wrappers
  import opened Strings

  /** An error reported to the client: a message and an HTTP status code. */
  datatype ClientException = ClientException(message: string, statusCode: int)

  /** A JSON response body (string values only) with its status code. */
  datatype Response = Response(body: map<string, string>, status: int)

  /** `to_response`: `({'message': message}, status_code)`. */
  function ToResponse(e: ClientException): (r: Response)
    ensures r.body.Keys == {"message"}
    ensures r.body["message"] == e.message && r.status == e.statusCode
  {
    Response(map["message" := e.message], e.statusCode)
  }

  /** Reads an exception back out of a response that carries a message. */
  function FromResponse(r: Response): Option<ClientException> {
    if "message" in r.body then Some(ClientException(r.body["message"], r.status)) else None
  }

  lemma ResponseRoundTrip(e: ClientException)
    ensures FromResponse(ToResponse(e)) == Some(e)
  {
  }

  /** A decoded JSON value; `JNull` also stands for an absent body. */
  datatype Json =
    | JNull
    | JBool(b: bool)
    | JInt(i: int)
    | JFloat(r: real)
    | JStr(s: string)
    | JList(items: seq<Json>)
    | JObject(fields: map<string, Json>)

  /** Python truthiness of a decoded JSON value. */
  predicate Truthy(v: Json) {
    match v
    case JNull => false
    case JBool(b) => b
    case JInt(i) => i != 0
    case JFloat(r) => r != 0.0
    case JStr(s) => s != ""
    case JList(items) => |items| > 0
    case JObject(fields) => |fields| > 0
  }

  /** `dict.get(key)`: a missing key reads as `None`. */
  function Get(fields: map<string, Json>, key: string): Json {
    if key in fields then fields[key] else JNull
  }

  predicate Blank(s: string) {
    forall i :: 0 <= i < |s| ==> IsSpace(s[i])
  }

  /** The number of leading whitespace characters. */
  function StripStart(s: string): (i: nat)
    ensures i <= |s| && Blank(s[..i])
    ensures i < |s| ==> !IsSpace(s[i])
  {
    if |s| == 0 || !IsSpace(s[0]) then 0
    else
      var k := StripStart(s[1..]);
      assert s[..k + 1] == [s[0]] + s[1..][..k];
      k + 1
  }

  /** The length of `s` without its trailing whitespace. */
  function StripEnd(s: string): (j: nat)
    ensures j <= |s| && Blank(s[j..])
    ensures j > 0 ==> !IsSpace(s[j - 1])
  {
    if |s| == 0 || !IsSpace(s[|s| - 1]) then |s|
    else
      var p := s[..|s| - 1];
      var k := StripEnd(p);
      assert s[k..] == p[k..] + [s[|s| - 1]];
      k
  }

  /** `str.strip()`: `s` without leading and trailing whitespace. */
  function Strip(s: string): (r: string)
    ensures r == "" <==> Blank(s)
    ensures r != "" ==> !IsSpace(r[0]) && !IsSpace(r[|r| - 1])
    ensures exists i, j :: 0 <= i <= j <= |s| && r == s[i..j] && Blank(s[..i]) && Blank(s[j..])
  {
    var i := StripStart(s);
    var j := StripEnd(s);
    if Blank(s) then
      assert s[..|s|] == s && s[|s|..] == [];
      ""
    else
      var k :| 0 <= k < |s| && !IsSpace(s[k]);
      assert i <= k < j;
      s[i..j]
  }

  const RequiredMessage := "Department ID and user handle are required"
  const IntegerMessage := "Department ID must be an integer"

  /** What a call of `validate_user_json` does. */
  datatype Outcome =
    | Accepted
    | Raised(e: ClientException)
    /** An `AttributeError` escapes: `.get` on a non-object, or `.strip` on a non-string. */
    | Crash

  /** `isinstance(v, int)`; a JSON boolean decodes to a Python `bool`, which is an `int`. */
  predicate IsInt(v: Json) {
    v.JInt? || v.JBool?
  }

  /** `validate_user_json`. */
  function ValidateUserJson(data: Json): Outcome {
    if !Truthy(data) then Raised(ClientException(RequiredMessage, 400))
    else if !data.JObject? then Crash
    else
      var dept := Get(data.fields, "department_id");
      var handle := Get(data.fields, "user_handle");
      if dept.JNull? || !Truthy(handle) then Raised(ClientException(RequiredMessage, 400))
      else if !handle.JStr? then Crash
      else if Strip(handle.s) == "" then Raised(ClientException(RequiredMessage, 400))
      else if !IsInt(dept) then Raised(ClientException(IntegerMessage, 400))
      else Accepted
  }

  /** A body that names a department and a non-blank handle. */
  predicate HasRequired(data: Json) {
    && data.JObject?
    && !Get(data.fields, "department_id").JNull?
    && Get(data.fields, "user_handle").JStr?
    && !Blank(Get(data.fields, "user_handle").s)
  }

  /**
   * The outcome classified: acceptance exactly for an integer department and
   * a non-blank string handle; the integer error only once the required
   * fields are present; every raise is a 400.
   */
  lemma ValidateSpec(data: Json)
    ensures ValidateUserJson(data) == Accepted <==> HasRequired(data) && IsInt(Get(data.fields, "department_id"))
    ensures ValidateUserJson(data) == Raised(ClientException(IntegerMessage, 400)) <==>
              HasRequired(data) && !IsInt(Get(data.fields, "department_id"))
    ensures ValidateUserJson(data).Raised? ==> ValidateUserJson(data).e.statusCode == 400
    ensures ValidateUserJson(data).Raised? && ValidateUserJson(data).e.message == IntegerMessage ==> HasRequired(data)
  {
  }

  /** An empty or absent body, or a null or missing department, is refused as incomplete. */
  lemma MissingDepartment(data: Json)
    requires !Truthy(data) || (data.JObject? && Get(data.fields, "department_id").JNull?)
    ensures ValidateUserJson(data) == Raised(ClientException(RequiredMessage, 400))
  {
  }

  /** A missing, empty or whitespace-only handle is refused as incomplete, whatever the department. */
  lemma BlankHandle(fields: map<string, Json>)
    requires |fields| > 0 && !Get(fields, "department_id").JNull?
    requires var h := Get(fields, "user_handle"); h.JNull? || (h.JStr? && Blank(h.s))
    ensures ValidateUserJson(JObject(fields)) == Raised(ClientException(RequiredMessage, 400))
  {
  }

  /** Department 0 is accepted, and the handle's surrounding spaces are allowed. */
  lemma AcceptedZero()
    ensures ValidateUserJson(JObject(map["department_id" := JInt(0), "user_handle" := JStr(" alice ")])) == Accepted
  {
    var m := map["department_id" := JInt(0), "user_handle" := JStr(" alice ")];
    assert "department_id" in m;
    assert !Blank(" alice ") by {
      assert !IsSpace(" alice "[1]);
    }
  }

  /** A negative department is accepted. */
  lemma AcceptedNegative()
    ensures ValidateUserJson(JObject(map["department_id" := JInt(-3), "user_handle" := JStr("bob")])) == Accepted
  {
    var m := map["department_id" := JInt(-3), "user_handle" := JStr("bob")];
    assert "department_id" in m;
    assert !Blank("bob") by {
      assert !IsSpace("bob"[0]);
    }
  }

  /** A string or float department is refused as a non-integer; a blank handle is reported first. */
  lemma RefusedExamples()
    ensures ValidateUserJson(JObject(map["department_id" := JStr("1"), "user_handle" := JStr("bob")])) ==
              Raised(ClientException(IntegerMessage, 400))
    ensures ValidateUserJson(JObject(map["department_id" := JFloat(1.5), "user_handle" := JStr("bob")])) ==
              Raised(ClientException(IntegerMessage, 400))
    ensures ValidateUserJson(JObject(map["department_id" := JStr("x"), "user_handle" := JStr("  ")])) ==
              Raised(ClientException(RequiredMessage, 400))
  {
    assert !Blank("bob") by {
      assert !IsSpace("bob"[0]);
    }
    NonIntegerRefused(JStr("1"), "bob");
    NonIntegerRefused(JFloat(1.5), "bob");
    var m := map["department_id" := JStr("x"), "user_handle" := JStr("  ")];
    assert "department_id" in m && "user_handle" in m;
    BlankHandle(m);
  }

  /** A present department that is not an integer, beside a non-blank handle, is refused as a non-integer. */
  lemma NonIntegerRefused(dept: Json, handle: string)
    requires !dept.JNull? && !IsInt(dept) && !Blank(handle)
    ensures ValidateUserJson(JObject(map["department_id" := dept, "user_handle" := JStr(handle)])) ==
              Raised(ClientException(IntegerMessage, 400))
  {
    var m := map["department_id" := dept, "user_handle" := JStr(handle)];
    assert "department_id" in m && "user_handle" in m;
    assert handle != "";
  }
}

=== FILE: wrappers.dfy ===
/** Failure-carrying datatypes shared by every module of the model. */
module Wrappers {

  /** A value that may be missing (Python's `None`). */
  datatype Option<+T> = None | Some(value: T) {

    /** The wrapped value, or `default` when there is none (`x if x is not None else default`). */
    function GetOr(default: T): T {
      match this
      case Some(v) => v
      case None => default
    }
  }

  /** The outcome of an operation that may raise: `Ok` carries the value, `Err` the raised error. */
  datatype Result<+R, +E> = Ok(value: R) | Err(error: E)
}
